=== FILE: README.md ===
# LangGraph Builder: graph ⇄ YAML specification, modelled in Dafny

LangGraph Builder is a browser editor for drawing an agent's architecture.
The user draws a graph: a `source` node, an `end` node, step nodes and
edges. The editor compiles the graph into a YAML specification and sends
it to a code generator. It can also rebuild a graph from a saved or
imported specification. This project models the core of that round trip.

- **Encoder** (`generateSpec`). It splits edges into plain and animated
  (branch) edges. It groups branch edges by source and lists the step
  names. It writes plain edges in three passes, with `__start__`/`__end__`
  substituted, then one branch entry per source. Finally it serialises the
  specification as text behind a language-dependent header.
- **Decoder** (the rebuild in `Flow.tsx`). It creates `source`, `end` and
  `node-(i+1)` nodes. Each plain entry becomes edge `edge-i`; each branch
  entry becomes one animated edge `edge-i-j` per path. Endpoints are
  resolved by label, with fallbacks.
- **Editor operations**:
  - `onConnect`, with its shared-label grouping and group counter;
  - `addNode` and ctrl-click edge toggling;
  - the start/end check;
  - start-up load and file import, with their configuration merges;
  - the graph configuration dialog and Clear Graph.
- **Templates**: grouping the generator's template list by language and
  type; the per-file template map; the template dialog's selection, type
  switch, type listing, save and reset.
- **Small rules**:
  - node rename and node width;
  - the per-source edge-label map;
  - the download manifest;
  - the two server-side proxy handlers (method check, URL normalisation,
    forwarded body, reply fields, errors).

The model is functional. Graphs, specifications and dialog states are
immutable datatypes, and each operation is a function from one state to
the next. Calls to the network, `localStorage`, the DOM and timers become
parameters or are left out.

Modules follow the source:

| module | file |
|---|---|
| `Base` | shared utilities: sequences, strings, filters, de-duplication |
| `Graph` | nodes, edges and node lookups |
| `Yaml` | the specification types |
| `Encoder` | building the specification from the graph |
| `SpecText` | the specification's text |
| `Decoder` | rebuilding the graph from a specification |
| `RoundTrip` | encoder then decoder |
| `Editor` | the editor operations on the graph |
| `ConfigMerge` | configuration merging |
| `Templates` | the template catalog and per-file map |
| `TemplateDialog` | the template dialog |
| `CustomNode` | node rename and width |
| `EdgeLabels` | the edge-label map |
| `Download` | the download manifest |
| `Api` | the two proxy handlers |

`generateSpec` does no validation. It accepts a graph with two `source` or
two `end` nodes, and it writes an endpoint it cannot resolve as `''`.

## Model

| member | source | states |
|---|---|---|
| Encoder.PartitionEdges | src/utils/yamlUtils.ts:53-54 | Every edge lands in exactly one part: plain when not animated, branch when animated. Together the two parts are the edge list as a multiset. |
| Encoder.PartitionOrder | src/utils/yamlUtils.ts:53-54 | Both parts keep the input's order. Cutting the edge list anywhere cuts each part at the matching place, and a single edge goes to its own part alone. |
| Encoder.GroupSourcesSpec | src/utils/yamlUtils.ts:57-63 | There is one group per source of a branch edge, in order of the source's first appearance. |
| Encoder.GroupMembersSpec | src/utils/yamlUtils.ts:57-63 | Each group holds exactly the edges from its source, in list order. |
| Encoder.GroupPermutation | src/utils/yamlUtils.ts:57-63 | The groups' members, taken together, are a permutation of the grouped edges. |
| Encoder.NameCandidatesSpec | src/utils/yamlUtils.ts:66-78 | A name is collected exactly when it is the label of a step node at an endpoint of some edge. |
| Encoder.NodeNamesSpec | src/utils/yamlUtils.ts:66-83 | The `nodes` list has no duplicates and no empty names. It holds exactly the labels of step nodes that edges touch, in order of first mention. |
| Encoder.DirectPassCount | src/utils/yamlUtils.ts:86-127 | The three passes write one entry per plain edge, plus a second entry for each plain edge from `source` to `end`. |
| Encoder.EntryToTerminalTwice | src/utils/yamlUtils.ts:86-111 | A plain edge from `source` to `end` is written twice. The first pass writes `__start__` to the target's raw label; the second writes the source's raw label to `__end__`. |
| Encoder.BranchEntriesSpec | src/utils/yamlUtils.ts:130-143 | There is one branch entry per source of animated edges, in first-appearance order. Each has `from` equal to `__start__` or the source's label, no `to`, the first member's condition, and one path per member in stored order. |
| Encoder.EncodedPathsNonEmpty | src/utils/yamlUtils.ts:84-144 | Plain entries come before branch entries, and every branch entry lists at least one path. |
| Encoder.DirectPassesOnce | src/utils/yamlUtils.ts:86-127 | With the second pass skipping edges that leave `source`, the three passes together hold every plain edge exactly once, as a multiset. |
| Encoder.EntryToTerminalOnce | src/utils/yamlUtils.ts:86-111 | With that correction, a plain edge from `source` to `end` is written once, as `__start__` to `__end__`, and the second pass skips it. |
| Encoder.CorrectedAgrees | src/utils/yamlUtils.ts:84-144 | When no plain edge goes straight from `source` to `end`, the corrected encoder writes exactly what `generateSpec` writes. |
| SpecText.HeaderSpec | src/utils/yamlUtils.ts:173-188 | The header depends only on whether the language is `python`, and it differs between the Python and TypeScript forms. |
| SpecText.SerialisedLines | src/utils/yamlUtils.ts:148-170 | For every specification, empty lists included, the text after the header is the config lines, then `nodes:` and its items, then `edges:` and each entry's lines, joined by newlines. An empty list leaves its heading followed by an empty line. |
| SpecText.LinesSingle | src/utils/yamlUtils.ts:148-170 | When no value contains a newline, no line does either. |
| SpecText.SplitIntoLines | src/utils/yamlUtils.ts:148-170 | When no value contains a newline, splitting the text after the header at newlines gives back exactly that line list, whether or not the lists are empty. |
| Decoder.DecodedNodeIdsDistinct | src/components/Flow.tsx:372-398 | The rebuilt nodes' ids are pairwise distinct. |
| Decoder.StepIdInjective | src/components/Flow.tsx:388 | Distinct indices give distinct `node-k` ids. |
| Decoder.StepIdNotReserved | src/components/Flow.tsx:388 | A `node-k` id is never `source`, `end` or empty. |
| Decoder.LayoutSpec | src/components/Flow.tsx:377-397 | Step nodes are stacked strictly between y = 50 and y = 550, in list order. They alternate x = -200 and x = 200 by index parity. |
| Decoder.DecodeEntryShape | src/components/Flow.tsx:407-473 | A branch entry gives one animated edge per path, with id `edge-i-j`, the condition as label and the resolved endpoints. Any other entry gives one plain edge with id `edge-i`. |
| Decoder.EdgeIdShapes | src/components/Flow.tsx:421-457 | `edge-i` and `edge-i-j` ids are injective in their indices and never coincide with each other. |
| Decoder.DecodedEdgeIdsDistinct | src/components/Flow.tsx:404-473 | The rebuilt edges' ids are pairwise distinct. |
| Decoder.DecodeEdgesLength | src/components/Flow.tsx:407-473 | When every branch entry lists a path, there are at least as many rebuilt edges as entries. |
| Decoder.ResolveSpec | src/components/Flow.tsx:410-419 | `__start__` resolves to `source` and `__end__` to `end`. Names `source` and `end` resolve to the reserved nodes. Any other source resolves to `''` exactly when no step carries that name. |
| Decoder.ResolveUnlisted | src/components/Flow.tsx:447-454 | An unknown source name resolves to `''` and an unknown target name to `end`. |
| Decoder.DecodedStepLookup | src/components/Flow.tsx:410 | Looking up a listed step name finds the step node built for it. |
| Decoder.DecodeLabelsLast | src/components/Flow.tsx:440-443 | A source's label in the edge-label map is the condition of the last branch entry that sets it. |
| Decoder.DecodeLabelsKeep | src/components/Flow.tsx:440-443 | A key that no entry sets keeps its previous label. |
| RoundTrip.RoundTripViews | src/utils/yamlUtils.ts:46-189 | Decoding the specification `generateSpec` writes gives back the same multiset of (from, to, animated, condition) edges, for every ready graph. A graph is ready when: every endpoint is an existing node; every step endpoint has a label that is non-empty and not `source`, `end`, `__start__` or `__end__`; no edge enters `source` or leaves `end`; the animated edges leaving one source share one condition; and no plain edge goes straight from `source` to `end`. |
| RoundTrip.RoundTripCorrected | src/utils/yamlUtils.ts:46-189 | With the corrected encoder, the same multiset round trip holds without the last condition: plain `source` to `end` edges come back once each. |
| RoundTrip.ReloadDoublesEdge | src/utils/yamlUtils.ts:86-111 | On the start-up graph with one plain edge from `source` to `end`, `generateSpec` writes `__start__` to `end` and `source` to `__end__`. Decoding that gives two `__start__` to `__end__` edges. |
| RoundTrip.EntryOrigins | src/utils/yamlUtils.ts:84-144 | Take a graph whose endpoints resolve and whose branch edges share conditions. Every entry the encoder writes for it is made of the graph's edges. A direct entry names both ends of one plain edge. A branch entry has no `to` and lists at least one path. Each path is the target of an animated edge leaving a source of the entry's name. |
| RoundTrip.EdgeEntries | src/utils/yamlUtils.ts:84-144 | Conversely, every edge of such a graph is named by some entry. A plain edge gets a direct entry between its endpoint names. An animated edge gets a branch entry from its source's name that lists its target. |
| RoundTrip.ReservedNames | src/utils/yamlUtils.ts:84-144 | On a ready graph, `generateSpec`'s entries and the graph's edges name each other both ways. `__start__` appears only as `from`, and only for an edge of the same kind (plain or branch) leaving `source`. `__end__` appears only as `to` or in `paths`, and only for a plain or animated edge into `end`. Every edge at `source` or `end` appears under its reserved name. |
| RoundTrip.RoundTripNodes | src/utils/yamlUtils.ts:81-83 | The specification carries the configuration unchanged. The decoded step nodes are named by the `nodes` list in order, and the node counter equals its length. |
| Editor.ChooseLabelSpec | src/components/Flow.tsx:547-564 | Without siblings the label is `conditional_edge`. A first sibling with a non-generic label passes it on. Otherwise the counter grows by one exactly when no sibling is animated, and the label names the counter. |
| Editor.MintedLabelsDistinct | src/components/Flow.tsx:562 | Two minted group labels are equal exactly when their counters are. |
| Editor.ConnectSpec | src/components/Flow.tsx:542-604 | One edge `edge-(m+1)` is appended, animated only as a self-loop unless the source had edges. If it had, all of the source's edges become animated with the chosen label. Edges from other sources are untouched, as are all ids and endpoints. |
| Editor.ConnectLabels | src/components/Flow.tsx:595-601 | The label map records the new label for the source and nothing else. The connecting flag is cleared and the nodes are unchanged. |
| Editor.ConnectPreservesGroups | src/components/Flow.tsx:577-593 | Connecting keeps two invariants: a source with two or more edges has all of them animated, and a source's animated edges share one label. |
| Editor.ConnectFreshId | src/components/Flow.tsx:544-545 | While no existing edge uses a later `edge-n` id, the minted id is new, and the invariant holds again afterwards. |
| Editor.FirstConnect | src/components/Flow.tsx:547-575 | A first edge to another node is plain, labelled `conditional_edge`, and leaves the counter alone. |
| Editor.SecondConnect | src/components/Flow.tsx:551-593 | A second edge from the same source bumps the counter, and both edges carry `conditional_edge_<n>`. |
| Editor.ThirdConnect | src/components/Flow.tsx:551-593 | Once a source's edges are animated with a minted label, a further edge reuses that label and mints nothing. |
| Editor.AddNodeFresh | src/components/Flow.tsx:606-645 | While connecting, a click only ends the connection and changes nothing else. Otherwise the appended node is the selected step `node-(k+1)` labelled `Node (k+1)` at the clicked position, its id is unused, the counter bumps by one, and nothing else in the state changes. |
| Editor.DecodedNodeIdsBelow | src/components/Flow.tsx:388-401 | After a rebuild, every `node-k` id beyond the decoded count is unused, so the next `addNode` mints a fresh id. |
| Editor.ToggleEdgeSpec | src/components/Flow.tsx:662-670 | Ctrl-click flips `animated` on the clicked edge only, and clicking twice restores the list. |
| Editor.ValidPathSpec | src/components/Flow.tsx:281-293 | The check holds exactly when there are a first `source` node and a first `end` node, some edge leaves the first and some edge enters the second. |
| Editor.ValidPathIsNotReachability | src/components/Flow.tsx:281-293 | The check passes for a graph in which `end` cannot be reached from `source`. |
| Editor.LoadThenConnectReusesId | src/components/Flow.tsx:401-483 | The start-up load as written, followed by a connection, mints an edge id that a rebuilt edge already has. |
| Editor.ImportThenConnectReusesId | src/components/Flow.tsx:1065-1134 | The file import as written, given two branch entries with no paths ahead of a plain entry, rebuilds the single edge `edge-2` with the edge counter at 1, and the next connection mints `edge-2` again. |
| Editor.ReplacedGraphFreshIds | src/components/Flow.tsx:1059-1134 | After the corrected load or the corrected file import, both of which set the edge counter to the number of edge entries, every later node and edge id is fresh, whatever the entries hold. |
| Editor.ImportFreshIds | src/components/Flow.tsx:1059-1134 | The file import as written leaves every later node and edge id fresh provided every branch entry lists a path. |
| Editor.ImportEncodedFreshIds | src/components/Flow.tsx:1030-1134 | Importing a specification the encoder produced leaves every later id fresh. |
| Editor.ImportRoundTrip | src/components/Flow.tsx:984-1134 | Importing the encoder's parsed specification of a ready graph, or loading it at start-up with the corrected load, restores the graph's edges as a multiset of views. A complete configuration with a supported language is also restored. |
| Editor.ClearGraphSpec | src/components/Flow.tsx:1198-1217 | A confirmed clear restores the initial nodes and edges and keeps every label key. Every label lookup then gives its default, and nothing else changes. Without confirmation the state is untouched. |
| ConfigMerge.LoadConfigSpec | src/components/Flow.tsx:326-347 | Each field takes the file's value when the gate is open and the file sets it, and keeps the current value otherwise. The language is taken only when it is `python` or `typescript`. |
| ConfigMerge.LoadKeepsLanguageSupported | src/components/Flow.tsx:345-347 | Loading never introduces an unsupported language. |
| ConfigMerge.ImportSpec | src/components/Flow.tsx:992-1005 | Import fills every field other than the language, and importing the result again changes nothing. |
| ConfigMerge.ImportEmpty | src/components/Flow.tsx:992-1005 | A file that sets nothing imports as the defaults with the current language. |
| ConfigMerge.ImportAcceptsAnyLanguage | src/components/Flow.tsx:1001 | Import takes any language the file names, where the start-up load would keep the current one. |
| ConfigMerge.ConfigRoundTrip | src/components/Flow.tsx:330-347 | Loading or importing a complete configuration with a supported language gives it back exactly. |
| ConfigMerge.UpdateGraphConfig | src/components/Flow.tsx:921-939 | The dialog's eleven fields replace the current ones, and the language is kept. |
| ConfigMerge.UpdateGraphConfigLaws | src/components/Flow.tsx:921-939 | Saving the dialog with the current values changes nothing, saving the same values twice equals saving them once, and of two saves in a row only the later one's fields remain. |
| Templates.AddRecordSpec | src/components/Flow.tsx:237-247 | Adding a record creates its language if missing and lists its type. It appends the name and sets the content under that name; every other entry is unchanged. |
| Templates.GroupedCatalog | src/components/Flow.tsx:232-247 | Both languages are present. A type is listed exactly when some record has it. Its names are those records' names in order, and a name's content comes from the last record with that name. |
| Templates.AddRecordsContent | src/components/Flow.tsx:245-246 | The last record with a name decides its content, and content added earlier survives when no later record overrides it. |
| Templates.FetchTemplatesSpec | src/components/Flow.tsx:198-260 | An error or an empty list gives the empty catalog. Otherwise the catalog is the grouping of the returned records. |
| Templates.ChangeTemplate | src/components/Flow.tsx:830-838 | `default` removes the file's entry, any other name sets it, and the other entries are unchanged. |
| Templates.ChangeTemplateUndo | src/components/Flow.tsx:830-838 | Choosing a template and then `default` leaves the map without that file's entry. |
| Templates.ChangeTemplateCommute | src/components/Flow.tsx:830-838 | Changes to two different files commute. |
| TemplateDialog.SelectSpec | src/components/modals/CodeTemplateConfig.tsx:236-271 | `disabled` adds the type to the disabled list without duplicates and drops its template. A name maps the type to it and re-enables it. `default` clears both. The type is never both disabled and mapped, and other types are unchanged. |
| TemplateDialog.SelectInvariant | src/components/modals/CodeTemplateConfig.tsx:236-271 | Selection keeps the dialog consistent, and repeating a selection changes nothing. |
| TemplateDialog.ChangeType | src/components/modals/CodeTemplateConfig.tsx:226-233 | Switching type keeps choices and the disabled list, and selects either `disabled` or `default`. |
| TemplateDialog.SelectionShownAgain | src/components/modals/CodeTemplateConfig.tsx:226-233 | Returning to a type shows `disabled` exactly when it was disabled, and `default` otherwise. |
| TemplateDialog.KeepReal | src/components/modals/CodeTemplateConfig.tsx:174-176 | Saving keeps exactly the choices that are non-empty, not `default` and not `disabled`. |
| TemplateDialog.SaveAfterSelect | src/components/modals/CodeTemplateConfig.tsx:169-179 | After a selection, save sends the type's template exactly when it is a real name. It skips the type exactly when it was disabled, and `only` is empty. |
| TemplateDialog.ResetSpec | src/components/modals/CodeTemplateConfig.tsx:182-189 | Reset gives one fixed state: no choices, nothing disabled, no type, `default`, Python. |
| TemplateDialog.ChangeLanguage | src/components/modals/CodeTemplateConfig.tsx:283-288 | Switching language clears the type and selects `default`, keeping choices. |
| TemplateDialog.ListingSpec | src/components/modals/CodeTemplateConfig.tsx:209-216 | The listing holds each key once. Known types come first in the fixed order, then unknown ones in key order. |
| TemplateDialog.TemplateTypesSpec | src/components/modals/CodeTemplateConfig.tsx:192-217 | An error or no templates gives the fixed eight-type fallback. Otherwise the result is that ordered, duplicate-free listing of the language's types. |
| CustomNode.Rename | src/components/nodes/CustomNode.tsx:35-48 | Count and order are kept. Every node keeps its id, kind, position and selection, and its label becomes the typed text exactly when its id matches. |
| CustomNode.RenameLookup | src/components/nodes/CustomNode.tsx:35-48 | Lookups by id find the same nodes as before, with the new label on the renamed one. |
| CustomNode.RenameBack | src/components/nodes/CustomNode.tsx:35-48 | With unique ids, typing the old label back restores the node list. |
| CustomNode.NodeWidth | src/components/nodes/CustomNode.tsx:70 | The width is at least 150 and at least the text width plus 30, and it equals one of the two. |
| CustomNode.NodeWidthMonotone | src/components/nodes/CustomNode.tsx:70 | Wider text never gives a narrower box. |
| EdgeLabels.Update | src/contexts/EdgeLabelContext.tsx:27-29 | The given key is set and every other key is unchanged. |
| EdgeLabels.Get | src/contexts/EdgeLabelContext.tsx:40-42 | The lookup returns the stored label when it is non-empty, and the default otherwise. |
| EdgeLabels.GetAfterUpdate | src/contexts/EdgeLabelContext.tsx:27-42 | After an update, that key reads its new label, or the default when the label is empty. Other keys read as before. |
| EdgeLabels.LaterUpdateWins | src/contexts/EdgeLabelContext.tsx:27-29 | Of two updates to one key, the later wins. |
| EdgeLabels.ClearKeysSpec | src/components/Flow.tsx:1210-1215 | Clearing keeps the key set, empties every listed key and leaves the rest. |
| EdgeLabels.ClearAllDefaults | src/components/Flow.tsx:1210-1215 | After every key is cleared, each lookup returns its default. |
| Download.ManifestShape | src/utils/downloadUtils.ts:47-104 | `spec.yml` comes first with the given text. There are at most nine entries, named `<type><ext>` after it, with no two names alike. |
| Download.ManifestContents | src/utils/downloadUtils.ts:55-103 | A file type is packed under `<type><ext>` with its content exactly when the chosen language's content for it is non-empty. |
| Download.NonPythonIsTypeScript | src/utils/downloadUtils.ts:54-79 | Any language other than `python` is packed as TypeScript. |
| Api.GenerateUrlSpec | src/pages/api/generate-code.ts:46-50 | The URL ends in `/generate`. It is kept when it already ends so; a trailing `/` becomes `/generate`; otherwise `/generate` is appended. Normalising twice is the same as once. |
| Api.ClientUrlKept | src/components/Flow.tsx:743-747 | The URL the editor builds passes the handler's normalisation unchanged. |
| Api.TemplatesUrlSpec | src/pages/api/get-templates.ts:24-31 | The URL ends in `/templates`, normalising twice is the same as once, and a trailing `/` is dropped before `/templates` is appended. |
| Api.TemplatesUrlFixed | src/pages/api/get-templates.ts:25-26 | A URL already ending in `/templates` is kept as it is. |
| Api.GenerateMethodCheck | src/pages/api/generate-code.ts:23-26 | A non-POST request gets 405 `Method not allowed` without calling upstream. A POST gets 200 or 500. |
| Api.ForwardBodySpec | src/pages/api/generate-code.ts:29-43 | `templates` is forwarded exactly when it is given and non-empty, and every other field passes through. |
| Api.GenerateReplySpec | src/pages/api/generate-code.ts:64-79 | `stub` and `implementation` come from `files` when non-empty there, else from the top level. The other six come from `files` only, and `files` defaults to empty. |
| Api.GenerateErrors | src/pages/api/generate-code.ts:52-85 | A thrown call or a non-ok status gives 500 with the message, and an ok status gives 200 with the reply built from the upstream data as `GenerateReplySpec` describes. |
| Api.HandleTemplatesSpec | src/pages/api/get-templates.ts:16-54 | Non-POST gets 405. A thrown call gets 500 with its message, and a non-ok status gets 500 with `API responded with status N: statusText`. Success passes the list through with 200. |

## Left out

- Parsing the YAML text. `parseYamlSpec` wraps a foreign library, so the decoder starts from the parsed structure, and "does not parse" is `None`.
- Network calls, `localStorage`, `FileReader`, the clipboard, zip generation and the download itself. These are I/O; the handlers receive `fetch` as a function parameter.
- React state, hooks, stale closures, timers and rendering. Each editor operation is one state transition.
- `addEdge` and `applyNodeChanges`. These are library internals, modelled as appending to the list.
- The exact y-coordinate `500/(n+1)*(i+1)+50` of decoded nodes. It is modelled with `real` arithmetic, and only its ordering and bounds are stated.
- Random node colours and measuring text width in the DOM. The width rule takes the measured width as input.
- The `data.text` overlay of decoded edges from stored labels (`Flow.tsx` 476-480), and the edges' display properties. Only ids, endpoints, the animated flag and the branch label are modelled.
- `Object.entries` ordering for integer-like keys. Node ids are taken to be non-numeric strings, so groups follow first appearance.
- The modal UI files other than the template dialog, and the onboarding tour. They contain no logic beyond display.
- RoundTrip.RoundTripViews: compares edges as a multiset of views, not as a list. The encoder reorders edges into its passes and groups, so list order is not preserved.
- Editor.ImportRoundTrip: starts from the parsed structure, not from the text, so text-level failures are not covered. Among others:
  - an empty `nodes:` list reads back as null, and `parsed.nodes.map` throws (`Flow.tsx` 1035, after the configuration was already set at 1026; the start-up load catches the same throw at 496);
  - a graph with no edges fails the same way at `parsed.edges.forEach` (`Flow.tsx` 1065 and 407);
  - a label containing `,` splits the inline `paths: [...]` list into extra paths;
  - a label that YAML reads as something other than a string (`123`, `true`, `null`, `1.0`) comes back as a number, a boolean or null;
  - a label containing `": "` or `" #"` breaks its own line.

## Findings

| source | as written | input that shows it | evidently intended | confidence | as-written member | corrected member |
|---|---|---|---|---|---|---|
| src/utils/yamlUtils.ts:86-111 | The first pass writes every plain edge leaving `source`, and the second every plain edge entering `end`. A plain edge from `source` to `end` passes both filters and is written twice. | The start-up graph with one plain edge from `source` to `end`. It is saved as `__start__` to `end` and `source` to `__end__`. Reloading gives two edges, and each later save and load doubles them again. | Each plain edge is written once: the second pass skips edges that leave `source`, so the edge is written `__start__` to `__end__`. | not executed | RoundTrip.ReloadDoublesEdge | RoundTrip.RoundTripCorrected |
| src/components/Flow.tsx:401 | The start-up load of a saved specification resets the node counter to the number of nodes. It never sets the edge counter, which stays 0, unlike the file import at line 1134. | A saved specification whose first two edge entries are plain rebuilds edges `edge-0` and `edge-1`. The next `onConnect` then mints `edge-1` again. | The edge counter is set to the number of edge entries, so minted edge ids stay fresh. | not executed | Editor.LoadThenConnectReusesId | Editor.ReplacedGraphFreshIds |
| src/components/Flow.tsx:1134 | The file import sets the edge counter to the number of rebuilt edges. A branch entry with `paths: []` passes the branch test at line 1066, because an empty array is truthy, and rebuilds no edge, so the counter can fall below an entry index that a rebuilt `edge-i` carries. | Edge entries: two branch entries with `paths: []`, then a plain `__start__` to `__end__` entry. The import rebuilds only `edge-2` and sets the counter to 1. The next `onConnect` mints `edge-2` again. | The edge counter is set to the number of edge entries, `parsed.edges.length`, so minted edge ids stay fresh for every file. | not executed | Editor.ImportThenConnectReusesId | Editor.ReplacedGraphFreshIds |

=== FILE: api.dfy ===
/** The two server-side proxy handlers: src/pages/api/generate-code.ts
    forwards a code-generation request to the generator's `/generate`
    endpoint, and src/pages/api/get-templates.ts fetches the template list
    from its `/templates` endpoint. The upstream `fetch` is a parameter: the
    handler hands it the URL (and body) it built and receives what came
    back. JavaScript values are `Option`s where `undefined` is possible;
    a string field is falsy when absent or "". */
module Api {
  import opened Base

  datatype Reply<T> = Reply(status: nat, body: T)

  const NotAllowed: string := "Method not allowed"

  // ---------------------------------------------------------------------------
  // URL normalisation

  const GeneratePath: string := "/generate"
  const TemplatesPath: string := "/templates"

  /** The generate handler's URL: kept when it already ends in `/generate`,
      otherwise a trailing '/' is replaced by, or the URL extended with,
      `/generate`. */
  function GenerateUrl(url: string): string {
    if EndsWith(url, GeneratePath) then url
    else if EndsWith(url, "/") then url[..|url| - 1] + GeneratePath
    else url + GeneratePath
  }

  /** The templates handler's base: a URL ending in `/templates` loses
      everything from its last '/', otherwise one trailing '/' is dropped. */
  function TemplatesBase(url: string): string {
    if EndsWith(url, TemplatesPath) then
      assert url[|url| - |TemplatesPath|] == '/';
      url[..LastIndexOf(url, '/')]
    else if EndsWith(url, "/") then url[..|url| - 1]
    else url
  }

  function TemplatesUrl(url: string): string {
    TemplatesBase(url) + TemplatesPath
  }

  /** The editor's own step before calling the generate handler (Flow.tsx):
      drop one trailing '/', then append `/generate`. */
  function ClientGenerateUrl(serverUrl: string): string {
    (if EndsWith(serverUrl, "/") then serverUrl[..|serverUrl| - 1] else serverUrl) + GeneratePath
  }

  lemma {:induction false} GenerateUrlSpec(url: string)
    ensures EndsWith(GenerateUrl(url), GeneratePath)
    ensures EndsWith(url, GeneratePath) ==> GenerateUrl(url) == url
    ensures !EndsWith(url, GeneratePath) && EndsWith(url, "/") ==> GenerateUrl(url) == url + "generate"
    ensures !EndsWith(url, GeneratePath) && !EndsWith(url, "/") ==> GenerateUrl(url) == url + GeneratePath
    ensures GenerateUrl(GenerateUrl(url)) == GenerateUrl(url)
  {
    GenerateUrlEnds(url);
    if !EndsWith(url, GeneratePath) && EndsWith(url, "/") {
      SlashThenGenerate(url);
    }
  }

  lemma {:induction false} GenerateUrlEnds(url: string)
    ensures EndsWith(GenerateUrl(url), GeneratePath)
  {
    if !EndsWith(url, GeneratePath) {
      if EndsWith(url, "/") {
        EndsWithAppend(url[..|url| - 1], GeneratePath);
      } else {
        EndsWithAppend(url, GeneratePath);
      }
    }
  }

  /** Replacing a trailing '/' by `/generate` appends `generate`. */
  lemma {:induction false} SlashThenGenerate(url: string)
    requires EndsWith(url, "/")
    ensures url[..|url| - 1] + GeneratePath == url + "generate"
  {
    assert url == url[..|url| - 1] + "/";
    assert GeneratePath == "/" + "generate";
  }

  /** Whatever the editor sends reaches the generator unchanged. */
  lemma {:induction false} ClientUrlKept(serverUrl: string)
    ensures GenerateUrl(ClientGenerateUrl(serverUrl)) == ClientGenerateUrl(serverUrl)
  {
    var base := if EndsWith(serverUrl, "/") then serverUrl[..|serverUrl| - 1] else serverUrl;
    EndsWithAppend(base, GeneratePath);
  }

  /** A URL ending in `/templates` is its own normal form. */
  lemma {:induction false} TemplatesUrlFixed(url: string)
    requires EndsWith(url, TemplatesPath)
    ensures TemplatesUrl(url) == url
  {
    var n := |url| - |TemplatesPath|;
    LastIndexOfSuffix(url, '/', TemplatesPath, n);
    assert url == url[..n] + url[n..];
  }

  lemma {:induction false} TemplatesUrlSpec(url: string)
    ensures EndsWith(TemplatesUrl(url), TemplatesPath)
    ensures TemplatesUrl(TemplatesUrl(url)) == TemplatesUrl(url)
    ensures !EndsWith(url, TemplatesPath) && EndsWith(url, "/") ==> TemplatesUrl(url) == url[..|url| - 1] + TemplatesPath
    ensures !EndsWith(url, TemplatesPath) && !EndsWith(url, "/") ==> TemplatesUrl(url) == url + TemplatesPath
  {
    EndsWithAppend(TemplatesBase(url), TemplatesPath);
    TemplatesUrlFixed(TemplatesUrl(url));
  }

  // ---------------------------------------------------------------------------
  // generate-code

  /** The fields of the incoming body the handler reads; `configValues` is
      read but never used. `only` and `skip` are forwarded as they come. */
  datatype GenerateRequest = GenerateRequest(
    spec: string, language: string, format: string, serverUrl: string,
    only: Option<seq<string>>, skip: Option<seq<string>>, templates: Option<map<string, string>>)

  datatype UpstreamBody = UpstreamBody(
    spec: string, language: string, format: string,
    only: Option<seq<string>>, skip: Option<seq<string>>, templates: Option<map<string, string>>)

  /** What the generator answered: `files` and the two legacy top-level
      fields, as far as the handler reads them. */
  datatype Generated = Generated(files: Option<map<string, string>>, stub: Option<string>, implementation: Option<string>)

  /** The outcome of the upstream call: it threw (network error, bad JSON),
      or it answered with a status. */
  datatype Upstream<T> = Threw(message: string) | Answered(ok: bool, status: nat, statusText: string, data: T)

  datatype GenerateBody =
    | GenerateError(error: string)
    | GenerateFiles(files: map<string, string>, stub: Option<string>, implementation: Option<string>,
                    graph: Option<string>, state: Option<string>, config: Option<string>,
                    prompts: Option<string>, pipeline: Option<string>, tools: Option<string>)

  /** `a || b` on optional strings. */
  function OrElse(a: Option<string>, b: Option<string>): (r: Option<string>)
    ensures r == a || r == b
  {
    if a.Some? && a.value != "" then a else b
  }

  /** `files?.[key]` */
  function FileOf(files: Option<map<string, string>>, key: string): (r: Option<string>)
    ensures r.Some? <==> files.Some? && key in files.value
  {
    if files.Some? && key in files.value then Some(files.value[key]) else None
  }

  /** The forwarded body: `templates` only when given with at least one key. */
  function ForwardBody(req: GenerateRequest): UpstreamBody {
    var t := if req.templates.Some? && |req.templates.value| > 0 then req.templates else None;
    UpstreamBody(req.spec, req.language, req.format, req.only, req.skip, t)
  }

  function GenerateReply(data: Generated): GenerateBody {
    GenerateFiles(
      if data.files.Some? then data.files.value else map[],
      OrElse(FileOf(data.files, "stub"), data.stub),
      OrElse(FileOf(data.files, "implementation"), data.implementation),
      FileOf(data.files, "graph"), FileOf(data.files, "state"), FileOf(data.files, "config"),
      FileOf(data.files, "prompts"), FileOf(data.files, "pipeline"), FileOf(data.files, "tools"))
  }

  /** The handler: verb check, one upstream call, then the reply. */
  function HandleGenerate(verb: string, req: GenerateRequest,
                          fetch: (string, UpstreamBody) -> Upstream<Generated>): Reply<GenerateBody> {
    if verb != "POST" then Reply(405, GenerateError(NotAllowed))
    else match fetch(GenerateUrl(req.serverUrl), ForwardBody(req))
      case Threw(m) => Reply(500, GenerateError(m))
      case Answered(ok, status, _, data) =>
        if !ok then Reply(500, GenerateError("API responded with status " + NatToString(status)))
        else Reply(200, GenerateReply(data))
  }

  /** Anything but POST is refused with 405 without calling upstream. */
  lemma GenerateMethodCheck(verb: string, req: GenerateRequest,
                            f: (string, UpstreamBody) -> Upstream<Generated>,
                            g: (string, UpstreamBody) -> Upstream<Generated>)
    ensures verb != "POST" ==>
              HandleGenerate(verb, req, f) == Reply(405, GenerateError("Method not allowed"))
              && HandleGenerate(verb, req, f) == HandleGenerate(verb, req, g)
    ensures verb == "POST" ==> HandleGenerate(verb, req, f).status in {200, 500}
  {
  }

  /** The upstream call goes to a `/generate` URL, and the forwarded body
      carries `templates` exactly when the request has a non-empty map;
      every other field is passed through. */
  lemma {:induction false} ForwardBodySpec(req: GenerateRequest)
    ensures EndsWith(GenerateUrl(req.serverUrl), GeneratePath)
    ensures ForwardBody(req).templates.Some? <==> req.templates.Some? && |req.templates.value| > 0
    ensures ForwardBody(req).templates.Some? ==> ForwardBody(req).templates == req.templates
    ensures var b := ForwardBody(req);
            b.spec == req.spec && b.language == req.language && b.format == req.format
            && b.only == req.only && b.skip == req.skip
  {
    GenerateUrlSpec(req.serverUrl);
  }

  /** Reply fields: `stub` and `implementation` come from `files` when it
      holds a non-empty one and from the top level otherwise; the other six
      come from `files` only; `files` defaults to the empty map. */
  lemma GenerateReplySpec(data: Generated, key: string)
    requires key in {"graph", "state", "config", "prompts", "pipeline", "tools"}
    ensures var r := GenerateReply(data);
            && r.files == (if data.files.Some? then data.files.value else map[])
            && (r.stub == if data.files.Some? && "stub" in data.files.value && data.files.value["stub"] != ""
                          then Some(data.files.value["stub"]) else data.stub)
            && (r.implementation == if data.files.Some? && "implementation" in data.files.value
                                       && data.files.value["implementation"] != ""
                                    then Some(data.files.value["implementation"]) else data.implementation)
            && var field := match key
                 case "graph" => r.graph case "state" => r.state case "config" => r.config
                 case "prompts" => r.prompts case "pipeline" => r.pipeline case _ => r.tools;
               (field.Some? <==> data.files.Some? && key in data.files.value)
               && (field.Some? ==> field.value == data.files.value[key])
  {
  }

  /** A failed upstream call and a non-ok status both become 500 with the
      error text; an ok status becomes 200. */
  lemma GenerateErrors(req: GenerateRequest, fetch: (string, UpstreamBody) -> Upstream<Generated>)
    ensures var r := HandleGenerate("POST", req, fetch);
            var u := fetch(GenerateUrl(req.serverUrl), ForwardBody(req));
            && (u.Threw? ==> r == Reply(500, GenerateError(u.message)))
            && (u.Answered? && !u.ok ==> r == Reply(500, GenerateError("API responded with status " + NatToString(u.status))))
            && (u.Answered? && u.ok ==> r == Reply(200, GenerateReply(u.data)))
  {
  }

  // ---------------------------------------------------------------------------
  // get-templates

  /** A template record as the generator lists it. */
  datatype TemplateRecord = TemplateRecord(name: string, path: string, language: string, templateType: string, content: string)

  datatype TemplatesBody = TemplatesError(error: string) | TemplatesList(templates: Option<seq<TemplateRecord>>)

  function HandleTemplates(verb: string, serverUrl: string,
                           fetch: string -> Upstream<Option<seq<TemplateRecord>>>): Reply<TemplatesBody> {
    if verb != "POST" then Reply(405, TemplatesError(NotAllowed))
    else match fetch(TemplatesUrl(serverUrl))
      case Threw(m) => Reply(500, TemplatesError(m))
      case Answered(ok, status, statusText, data) =>
        if !ok then Reply(500, TemplatesError("API responded with status " + NatToString(status) + ": " + statusText))
        else Reply(200, TemplatesList(data))
  }

  /** Method check, the URL it fetches, and the outcomes: the list passed
      through on success, 500 with the message otherwise. */
  lemma {:induction false} HandleTemplatesSpec(verb: string, serverUrl: string,
                            fetch: string -> Upstream<Option<seq<TemplateRecord>>>)
    ensures verb != "POST" ==> HandleTemplates(verb, serverUrl, fetch) == Reply(405, TemplatesError("Method not allowed"))
    ensures verb == "POST" ==>
              var u := fetch(TemplatesUrl(serverUrl));
              var r := HandleTemplates(verb, serverUrl, fetch);
              && (u.Threw? ==> r == Reply(500, TemplatesError(u.message)))
              && (u.Answered? && !u.ok ==>
                    r == Reply(500, TemplatesError("API responded with status " + NatToString(u.status) + ": " + u.statusText)))
              && (u.Answered? && u.ok ==> r == Reply(200, TemplatesList(u.data)))
    ensures EndsWith(TemplatesUrl(serverUrl), TemplatesPath)
  {
    TemplatesUrlSpec(serverUrl);
  }
}

=== FILE: base.dfy ===
/** Small value types and sequence/string helpers shared by every other module:
    an Option type, JavaScript-style string predicates, decimal rendering of
    naturals (as JavaScript template literals print them), `join`/`split` on a
    separator, and order-preserving filtering and de-duplication. */
module Base {

  datatype Option<+T> = None | Some(value: T) {
    function GetOr(default: T): T {
      match this
      case Some(v) => v
      case None => default
    }
  }

  // ---------------------------------------------------------------------------
  // String predicates (String.prototype.startsWith / endsWith)

  predicate StartsWith(s: string, prefix: string) {
    |prefix| <= |s| && s[..|prefix|] == prefix
  }

  predicate EndsWith(s: string, suffix: string) {
    |suffix| <= |s| && s[|s| - |suffix|..] == suffix
  }

  lemma {:induction false} EndsWithAppend(s: string, suffix: string)
    ensures EndsWith(s + suffix, suffix)
  {
    assert (s + suffix)[|s|..] == suffix;
  }

  /** `s.lastIndexOf(c)`: the largest index holding `c`, or -1. */
  function LastIndexOf(s: string, c: char): (r: int)
    ensures -1 <= r < |s|
    ensures r >= 0 ==> s[r] == c
    ensures forall k :: r < k < |s| ==> s[k] != c
    ensures r == -1 <==> c !in s
  {
    if |s| == 0 then -1
    else if s[|s| - 1] == c then |s| - 1
    else LastIndexOf(s[..|s| - 1], c)
  }

  /** In a string ending with `suffix`, whose only `c` is its first
      character, the last `c` is where the suffix starts. */
  lemma {:induction false} LastIndexOfSuffix(s: string, c: char, suffix: string, n: nat)
    requires EndsWith(s, suffix) && |suffix| > 0 && n == |s| - |suffix|
    requires suffix[0] == c && forall k :: 0 < k < |suffix| ==> suffix[k] != c
    ensures LastIndexOf(s, c) == n
  {
    assert s[n..] == suffix;
    forall k | n < k < |s|
      ensures s[k] != c
    {
      assert s[k] == suffix[k - n];
    }
    assert s[n] == c;
  }

  // ---------------------------------------------------------------------------
  // Decimal rendering of naturals, as `${n}` prints a non-negative integer.

  predicate IsDigit(c: char) {
    '0' <= c <= '9'
  }

  function DigitChar(d: nat): (c: char)
    requires d < 10
    ensures IsDigit(c)
  {
    ('0' as int + d) as char
  }

  function NatToString(n: nat): (s: string)
    ensures |s| > 0
    ensures forall k :: 0 <= k < |s| ==> IsDigit(s[k])
    decreases n
  {
    if n < 10 then [DigitChar(n)] else NatToString(n / 10) + [DigitChar(n % 10)]
  }

  /** Reads a string of decimal digits back into a natural. */
  function ParseDecimal(s: string): nat
    requires forall k :: 0 <= k < |s| ==> IsDigit(s[k])
  {
    if |s| == 0 then 0
    else
      var d := s[|s| - 1];
      assert IsDigit(d);
      ParseDecimal(s[..|s| - 1]) * 10 + (d as int - '0' as int)
  }

  /** Reading the decimal rendering of `n` gives back `n`. */
  lemma {:induction false} ParseNatToString(n: nat)
    ensures ParseDecimal(NatToString(n)) == n
    decreases n
  {
    var s := NatToString(n);
    if n >= 10 {
      assert s[..|s| - 1] == NatToString(n / 10);
      ParseNatToString(n / 10);
    }
  }

  /** Distinct naturals render to distinct strings. */
  lemma {:induction false} NatToStringInjective(a: nat, b: nat)
    ensures NatToString(a) == NatToString(b) <==> a == b
  {
    if NatToString(a) == NatToString(b) {
      ParseNatToString(a);
      ParseNatToString(b);
    }
  }

  /** A rendered natural never contains a character outside '0'..'9'. */
  lemma NatToStringNoChar(n: nat, c: char)
    requires !IsDigit(c)
    ensures c !in NatToString(n)
  {
  }

  /** A common prefix cancels from both sides of an equation. */
  lemma {:induction false} PrefixCancel<T>(p: seq<T>, s: seq<T>, t: seq<T>)
    requires p + s == p + t
    ensures s == t
  {
    assert s == (p + s)[|p|..];
    assert t == (p + t)[|p|..];
  }

  /** If `x + [c] + y == u + [c] + w` and neither `x` nor `u` contains `c`,
      the two split points coincide. */
  lemma {:induction false} SplitAtFirst(x: string, y: string, u: string, w: string, c: char)
    requires c !in x && c !in u
    requires x + [c] + y == u + [c] + w
    ensures x == u && y == w
  {
    var s := x + [c] + y;
    var t := u + [c] + w;
    assert forall k :: 0 <= k < |x| ==> s[k] == x[k] && s[k] != c;
    assert forall k :: 0 <= k < |u| ==> t[k] == u[k] && t[k] != c;
    assert s[|x|] == c && t[|u|] == c;
    assert |x| == |u|;
    assert x == s[..|x|] == u;
    assert y == s[|x| + 1..] == w;
  }

  // ---------------------------------------------------------------------------
  // Array.prototype.join and String.prototype.split on a single character.

  function Join(xs: seq<string>, sep: string): string
  {
    if |xs| == 0 then ""
    else if |xs| == 1 then xs[0]
    else xs[0] + sep + Join(xs[1..], sep)
  }

  /** Index of the first `c` in `s`, or `|s|` when there is none. */
  function IndexOf(s: string, c: char): (r: nat)
    ensures r <= |s|
    ensures r < |s| ==> s[r] == c
    ensures forall k :: 0 <= k < r ==> s[k] != c
  {
    if |s| == 0 then 0
    else if s[0] == c then 0
    else 1 + IndexOf(s[1..], c)
  }

  function Split(s: string, c: char): (r: seq<string>)
    ensures |r| > 0
    decreases |s|
  {
    var i := IndexOf(s, c);
    if i == |s| then [s] else [s[..i]] + Split(s[i + 1..], c)
  }

  /** Splitting a joined list on its separator gives the list back, provided no
      element contains the separator. An empty list joins to "" and splits to
      one empty element, as in JavaScript. */
  lemma {:induction false} SplitJoin(xs: seq<string>, c: char)
    requires |xs| > 0
    requires forall k :: 0 <= k < |xs| ==> c !in xs[k]
    ensures Split(Join(xs, [c]), c) == xs
    decreases |xs|
  {
    if |xs| == 1 {
      assert IndexOf(xs[0], c) == |xs[0]|;
    } else {
      var rest := Join(xs[1..], [c]);
      assert Join(xs, [c]) == xs[0] + [c] + rest;
      SplitStep(xs[0], rest, c);
      SplitJoin(xs[1..], c);
      assert xs == [xs[0]] + xs[1..];
    }
  }

  /** A first field free of the separator splits off on its own. */
  lemma {:induction false} SplitStep(x: string, rest: string, c: char)
    requires c !in x
    ensures Split(x + [c] + rest, c) == [x] + Split(rest, c)
  {
    var s := x + [c] + rest;
    assert IndexOf(s, c) == |x| by {
      assert forall k :: 0 <= k < |x| ==> s[k] == x[k] && s[k] != c;
      assert s[|x|] == c;
    }
    assert s[..|x|] == x;
    assert s[|x| + 1..] == rest;
  }

  /** Joining the joins of non-empty groups is the join of the flattened list. */
  lemma {:induction false} JoinFlatten(groups: seq<seq<string>>, sep: string)
    requires forall k :: 0 <= k < |groups| ==> |groups[k]| > 0
    ensures Join(JoinEach(groups, sep), sep) == Join(Flatten(groups), sep)
    decreases |groups|
  {
    if |groups| > 1 {
      JoinFlatten(groups[1..], sep);
      assert JoinEach(groups, sep)[1..] == JoinEach(groups[1..], sep);
      JoinAppend(groups[0], Flatten(groups[1..]), sep);
    } else if |groups| == 1 {
      assert Flatten(groups) == groups[0] + Flatten(groups[1..]);
      assert Flatten(groups[1..]) == [];
      assert groups[0] + [] == groups[0];
    }
  }

  lemma {:induction false} JoinAppend(xs: seq<string>, ys: seq<string>, sep: string)
    requires |xs| > 0 && |ys| > 0
    ensures Join(xs + ys, sep) == Join(xs, sep) + sep + Join(ys, sep)
    decreases |xs|
  {
    if |xs| == 1 {
      assert (xs + ys)[1..] == ys;
    } else {
      assert (xs + ys)[1..] == xs[1..] + ys;
      JoinAppend(xs[1..], ys, sep);
    }
  }

  function JoinEach(groups: seq<seq<string>>, sep: string): (r: seq<string>)
    ensures |r| == |groups|
    ensures forall k :: 0 <= k < |groups| ==> r[k] == Join(groups[k], sep)
  {
    seq(|groups|, k requires 0 <= k < |groups| => Join(groups[k], sep))
  }

  function Flatten<T>(xss: seq<seq<T>>): seq<T>
  {
    if |xss| == 0 then [] else xss[0] + Flatten(xss[1..])
  }

  lemma EmptyPrefix<T>(e: seq<T>, x: seq<T>)
    requires e == []
    ensures e + x == x
  {
  }

  lemma TailOfAppend<T>(a: seq<T>, b: seq<T>)
    requires |a| > 0
    ensures (a + b)[0] == a[0] && (a + b)[1..] == a[1..] + b
  {
  }

  /** Re-associates a concatenation; stated once with abstract operands so
      that callers need not re-derive it for sequences whose elements are
      expensive to unfold. */
  lemma AppendChain<T>(whole: seq<T>, h: seq<T>, rest: seq<T>, left: seq<T>, t: seq<T>, u: seq<T>)
    requires whole == h + rest && rest == t + u && left == h + t
    ensures whole == left + u
  {
  }

  lemma {:induction false} FlattenAppend<T>(a: seq<seq<T>>, b: seq<seq<T>>)
    ensures Flatten(a + b) == Flatten(a) + Flatten(b)
  {
    if |a| > 0 {
      assert (a + b)[1..] == a[1..] + b;
      FlattenAppend(a[1..], b);
    } else {
      assert a + b == b;
    }
  }

  // ---------------------------------------------------------------------------
  // Array.prototype.find / filter and first-seen de-duplication (a JS Set).

  /** `xs.find(p)`: the first element satisfying `p`. */
  function Find<T>(xs: seq<T>, p: T -> bool): (r: Option<T>)
    ensures r.None? <==> forall k :: 0 <= k < |xs| ==> !p(xs[k])
    ensures r.Some? ==> exists k :: 0 <= k < |xs| && xs[k] == r.value && p(xs[k])
                                     && forall j :: 0 <= j < k ==> !p(xs[j])
  {
    if |xs| == 0 then None
    else if p(xs[0]) then Some(xs[0])
    else
      var r := Find(xs[1..], p);
      assert forall k :: 1 <= k < |xs| ==> xs[k] == xs[1..][k - 1];
      r
  }

  /** `xs.filter(p)`, order preserved. */
  function Filter<T>(xs: seq<T>, p: T -> bool): (r: seq<T>)
    ensures |r| <= |xs|
    ensures forall k :: 0 <= k < |r| ==> r[k] in xs && p(r[k])
    ensures forall k :: 0 <= k < |xs| && p(xs[k]) ==> xs[k] in r
  {
    if |xs| == 0 then []
    else (if p(xs[0]) then [xs[0]] else []) + Filter(xs[1..], p)
  }

  lemma {:induction false} FilterAppend<T>(xs: seq<T>, ys: seq<T>, p: T -> bool)
    ensures Filter(xs + ys, p) == Filter(xs, p) + Filter(ys, p)
  {
    if |xs| > 0 {
      assert (xs + ys)[1..] == xs[1..] + ys;
      FilterAppend(xs[1..], ys, p);
    } else {
      assert xs + ys == ys;
    }
  }

  /** Filtering a non-empty sequence: what its prefix keeps, then the last
      element if it passes. */
  lemma {:induction false} FilterLast<T>(xs: seq<T>, p: T -> bool)
    requires |xs| > 0
    ensures Filter(xs, p) == Filter(xs[..|xs| - 1], p) + (if p(xs[|xs| - 1]) then [xs[|xs| - 1]] else [])
  {
    var pre, x := xs[..|xs| - 1], xs[|xs| - 1];
    assert xs == pre + [x];
    FilterAppend(pre, [x], p);
    assert Filter([x], p) == (if p(x) then [x] else []) + Filter([x][1..], p);
  }

  /** Two filters that agree on every element keep the same elements. */
  lemma {:induction false} FilterCongruent<T>(xs: seq<T>, p: T -> bool, q: T -> bool)
    requires forall k :: 0 <= k < |xs| ==> p(xs[k]) == q(xs[k])
    ensures Filter(xs, p) == Filter(xs, q)
    decreases |xs|
  {
    if |xs| > 0 {
      FilterCongruent(xs[1..], p, q);
    }
  }

  /** `xs` splits into the elements that pass `p` and those that pass `q`
      when `p` and `q` are complementary on `xs`. */
  lemma {:induction false} FilterPartition<T>(xs: seq<T>, p: T -> bool, q: T -> bool)
    requires forall k :: 0 <= k < |xs| ==> (p(xs[k]) <==> !q(xs[k]))
    ensures multiset(Filter(xs, p)) + multiset(Filter(xs, q)) == multiset(xs)
    decreases |xs|
  {
    if |xs| > 0 {
      var x, rest := xs[0], xs[1..];
      FilterPartition(rest, p, q);
      assert multiset(xs) == multiset{x} + multiset(rest) by {
        assert xs == [x] + rest;
      }
      var a, b := multiset(Filter(xs, p)), multiset(Filter(xs, q));
      var a0, b0 := multiset(Filter(rest, p)), multiset(Filter(rest, q));
      assert a == (if p(x) then multiset{x} else multiset{}) + a0 by {
        assert Filter(xs, p) == (if p(x) then [x] else []) + Filter(rest, p);
      }
      assert b == (if q(x) then multiset{x} else multiset{}) + b0 by {
        assert Filter(xs, q) == (if q(x) then [x] else []) + Filter(rest, q);
      }
      assert p(x) <==> !q(x) by {
        assert x == xs[0];
      }
      BagStep(x, p(x), q(x), false, a, b, multiset{}, a0, b0, multiset{}, multiset(rest), multiset(xs));
    }
  }

  /** The three-way version: `xs` splits into the elements passing `p`, `q`
      and `r` when each element passes exactly one of them. */
  lemma {:induction false} FilterPartition3<T>(xs: seq<T>, p: T -> bool, q: T -> bool, r: T -> bool)
    requires forall k :: 0 <= k < |xs| ==>
               (p(xs[k]) && !q(xs[k]) && !r(xs[k])) || (!p(xs[k]) && q(xs[k]) && !r(xs[k]))
               || (!p(xs[k]) && !q(xs[k]) && r(xs[k]))
    ensures multiset(Filter(xs, p)) + multiset(Filter(xs, q)) + multiset(Filter(xs, r)) == multiset(xs)
    decreases |xs|
  {
    if |xs| > 0 {
      FilterPartition3(xs[1..], p, q, r);
      FilterPartition3Step(xs, p, q, r);
    }
  }

  /** One step of the three-way split: the head passes exactly one filter,
      and the tail already splits. */
  lemma {:induction false} FilterPartition3Step<T>(xs: seq<T>, p: T -> bool, q: T -> bool, r: T -> bool)
    requires |xs| > 0
    requires (p(xs[0]) && !q(xs[0]) && !r(xs[0])) || (!p(xs[0]) && q(xs[0]) && !r(xs[0]))
             || (!p(xs[0]) && !q(xs[0]) && r(xs[0]))
    requires multiset(Filter(xs[1..], p)) + multiset(Filter(xs[1..], q)) + multiset(Filter(xs[1..], r))
             == multiset(xs[1..])
    ensures multiset(Filter(xs, p)) + multiset(Filter(xs, q)) + multiset(Filter(xs, r)) == multiset(xs)
  {
    var x, rest := xs[0], xs[1..];
    assert multiset(xs) == multiset{x} + multiset(rest) by {
      assert xs == [x] + rest;
    }
    var a, b, c := multiset(Filter(xs, p)), multiset(Filter(xs, q)), multiset(Filter(xs, r));
    var a0, b0, c0 := multiset(Filter(rest, p)), multiset(Filter(rest, q)), multiset(Filter(rest, r));
    assert a == (if p(x) then multiset{x} else multiset{}) + a0 by {
      assert Filter(xs, p) == (if p(x) then [x] else []) + Filter(rest, p);
    }
    assert b == (if q(x) then multiset{x} else multiset{}) + b0 by {
      assert Filter(xs, q) == (if q(x) then [x] else []) + Filter(rest, q);
    }
    assert c == (if r(x) then multiset{x} else multiset{}) + c0 by {
      assert Filter(xs, r) == (if r(x) then [x] else []) + Filter(rest, r);
    }
    BagStep(x, p(x), q(x), r(x), a, b, c, a0, b0, c0, multiset(rest), multiset(xs));
  }

  lemma {:induction false} BagSnocMiddle<T>(a: seq<T>, b: seq<T>, e: T)
    ensures multiset((a + [e]) + b) == multiset(a + b) + multiset{e}
  {
  }

  lemma {:induction false} BagConcatAdd<T>(a: seq<T>, b: seq<T>, c: seq<T>, e: T)
    requires multiset(b) == multiset(c) + multiset{e}
    ensures multiset(a + b) == multiset(a + c) + multiset{e}
  {
  }

  /** Adding one element to exactly one of three bags adds it to their sum. */
  lemma {:induction false} BagStep<T>(x: T, inA: bool, inB: bool, inC: bool,
                                      a: multiset<T>, b: multiset<T>, c: multiset<T>,
                                      a0: multiset<T>, b0: multiset<T>, c0: multiset<T>,
                                      rest: multiset<T>, whole: multiset<T>)
    requires (inA && !inB && !inC) || (!inA && inB && !inC) || (!inA && !inB && inC)
    requires a == (if inA then multiset{x} else multiset{}) + a0
    requires b == (if inB then multiset{x} else multiset{}) + b0
    requires c == (if inC then multiset{x} else multiset{}) + c0
    requires a0 + b0 + c0 == rest && whole == multiset{x} + rest
    ensures a + b + c == whole
  {
    if inA {
      assert a + b + c == multiset{x} + (a0 + b0 + c0);
    } else if inB {
      assert a + b + c == multiset{x} + (a0 + b0 + c0);
    } else {
      assert a + b + c == multiset{x} + (a0 + b0 + c0);
    }
  }

  /** Filtering a duplicate-free sequence keeps it duplicate-free and keeps
      the relative order of what it keeps. */
  lemma {:induction false} FilterOrder(xs: seq<string>, p: string -> bool)
    requires NoDuplicates(xs)
    ensures NoDuplicates(Filter(xs, p))
    ensures forall i, j :: 0 <= i < j < |Filter(xs, p)| ==>
              FirstPos(xs, Filter(xs, p)[i]) < FirstPos(xs, Filter(xs, p)[j])
    decreases |xs|
  {
    if |xs| > 0 {
      var tail := xs[1..];
      TailDistinct(xs);
      FilterOrder(tail, p);
      var ft := Filter(tail, p);
      assert InFirstOrder(tail, ft);
      if p(xs[0]) {
        assert Filter(xs, p) == [xs[0]] + ft;
        OrderCons(xs, ft);
      } else {
        assert Filter(xs, p) == ft;
        OrderSkip(xs, ft);
      }
    }
  }

  /** Every element of `ys` occurs in `xs`, and `ys` lists them in the order
      of their first occurrence there. */
  predicate InFirstOrder(xs: seq<string>, ys: seq<string>) {
    && (forall k :: 0 <= k < |ys| ==> ys[k] in xs)
    && (forall i, j :: 0 <= i < j < |ys| ==> FirstPos(xs, ys[i]) < FirstPos(xs, ys[j]))
  }

  lemma {:induction false} TailDistinct(xs: seq<string>)
    requires |xs| > 0 && NoDuplicates(xs)
    ensures NoDuplicates(xs[1..]) && xs[0] !in xs[1..]
  {
    var tail := xs[1..];
    forall i, j | 0 <= i < j < |tail|
      ensures tail[i] != tail[j]
    {
      assert tail[i] == xs[i + 1] && tail[j] == xs[j + 1];
    }
  }

  lemma FirstPosTail(xs: seq<string>, y: string)
    requires |xs| > 0 && y in xs[1..] && y != xs[0]
    ensures FirstPos(xs, y) == 1 + FirstPos(xs[1..], y)
  {
  }

  /** Dropping the head of `xs` from consideration keeps the order. */
  lemma {:induction false} OrderSkip(xs: seq<string>, ys: seq<string>)
    requires |xs| > 0 && xs[0] !in xs[1..]
    requires InFirstOrder(xs[1..], ys)
    ensures InFirstOrder(xs, ys)
  {
    forall i, j | 0 <= i < j < |ys|
      ensures FirstPos(xs, ys[i]) < FirstPos(xs, ys[j])
    {
      FirstPosTail(xs, ys[i]);
      FirstPosTail(xs, ys[j]);
    }
  }

  /** Putting the head of `xs` in front keeps the order and the distinctness. */
  lemma {:induction false} OrderCons(xs: seq<string>, ys: seq<string>)
    requires |xs| > 0 && xs[0] !in xs[1..]
    requires InFirstOrder(xs[1..], ys) && NoDuplicates(ys)
    ensures InFirstOrder(xs, [xs[0]] + ys) && NoDuplicates([xs[0]] + ys)
  {
    OrderSkip(xs, ys);
    var f := [xs[0]] + ys;
    forall i, j | 0 <= i < j < |f|
      ensures f[i] != f[j] && FirstPos(xs, f[i]) < FirstPos(xs, f[j])
    {
      assert f[j] == ys[j - 1];
      if i > 0 {
        assert f[i] == ys[i - 1];
      }
    }
  }

  /** Appends `x` unless it is already present (JS `Set.prototype.add`). */
  function AddIfNew<T(==)>(xs: seq<T>, x: T): seq<T>
  {
    if x in xs then xs else xs + [x]
  }

  /** Keeps the first occurrence of every element, in order of first occurrence. */
  function Dedup<T(==)>(xs: seq<T>): seq<T>
  {
    if |xs| == 0 then [] else AddIfNew(Dedup(xs[..|xs| - 1]), xs[|xs| - 1])
  }

  predicate NoDuplicates<T(==)>(xs: seq<T>) {
    forall i, j :: 0 <= i < j < |xs| ==> xs[i] != xs[j]
  }

  /** Position of the first occurrence of `x` in `xs`. */
  function FirstPos<T(==)>(xs: seq<T>, x: T): (r: nat)
    requires x in xs
    ensures r < |xs| && xs[r] == x
    ensures forall k :: 0 <= k < r ==> xs[k] != x
  {
    if xs[0] == x then 0 else 1 + FirstPos(xs[1..], x)
  }

  lemma {:induction false} FirstPosPrefix(xs: seq<string>, n: nat, x: string)
    requires n <= |xs| && x in xs[..n]
    ensures FirstPos(xs[..n], x) == FirstPos(xs, x)
  {
    var a := FirstPos(xs[..n], x);
    assert xs[a] == x;
    assert forall k :: 0 <= k < a ==> xs[k] == xs[..n][k] && xs[k] != x;
  }

  // The lemmas below are stated for strings, the only element type the model
  // de-duplicates.

  /** De-duplication keeps exactly the elements of its input, once each, in the
      order in which they first occur. */
  lemma {:induction false} DedupSpec(xs: seq<string>)
    ensures NoDuplicates(Dedup(xs))
    ensures forall x :: x in Dedup(xs) <==> x in xs
    ensures forall i, j :: 0 <= i < j < |Dedup(xs)| ==>
              FirstPos(xs, Dedup(xs)[i]) < FirstPos(xs, Dedup(xs)[j])
  {
    DedupMembers(xs);
    DedupDistinct(xs);
    DedupOrder(xs);
  }

  lemma {:induction false} DedupMembers(xs: seq<string>)
    ensures forall x :: x in Dedup(xs) <==> x in xs
    decreases |xs|
  {
    if |xs| > 0 {
      var n := |xs| - 1;
      DedupMembers(xs[..n]);
      assert xs == xs[..n] + [xs[n]];
    }
  }

  lemma {:induction false} DedupDistinct(xs: seq<string>)
    ensures NoDuplicates(Dedup(xs))
    decreases |xs|
  {
    if |xs| > 0 {
      DedupDistinct(xs[..|xs| - 1]);
    }
  }

  lemma {:induction false} DedupOrder(xs: seq<string>)
    ensures InFirstOrder(xs, Dedup(xs))
    decreases |xs|
  {
    if |xs| > 0 {
      var n := |xs| - 1;
      var pre := xs[..n];
      var x := xs[n];
      DedupOrder(pre);
      DedupMembers(pre);
      var d := Dedup(pre);
      assert Dedup(xs) == AddIfNew(d, x);
      OrderPrefix(xs, n, d);
      if x !in d {
        OrderSnoc(xs, d);
      }
    }
  }

  /** Order by first occurrence in a prefix is order in the whole sequence. */
  lemma {:induction false} OrderPrefix(xs: seq<string>, n: nat, ys: seq<string>)
    requires n <= |xs| && InFirstOrder(xs[..n], ys)
    ensures InFirstOrder(xs, ys)
  {
    forall k | 0 <= k < |ys|
      ensures ys[k] in xs && FirstPos(xs, ys[k]) == FirstPos(xs[..n], ys[k])
    {
      FirstPosPrefix(xs, n, ys[k]);
    }
  }

  /** An element first occurring last in `xs` can be appended. */
  lemma {:induction false} OrderSnoc(xs: seq<string>, ys: seq<string>)
    requires |xs| > 0 && xs[|xs| - 1] !in xs[..|xs| - 1]
    requires InFirstOrder(xs, ys)
    requires forall k :: 0 <= k < |ys| ==> ys[k] in xs[..|xs| - 1]
    ensures InFirstOrder(xs, ys + [xs[|xs| - 1]])
  {
    var n := |xs| - 1;
    assert FirstPos(xs, xs[n]) == n;
    forall k | 0 <= k < |ys|
      ensures FirstPos(xs, ys[k]) < n
    {
      assert ys[k] in xs[..n];
      var m :| 0 <= m < n && xs[..n][m] == ys[k];
      assert xs[m] == ys[k];
    }
  }
}

=== FILE: config.dfy ===
/** How the editor's `configValues` change (src/components/Flow.tsx): when
    the saved specification is loaded at start-up (330-347), when a file is
    imported (992-1005), and when the graph configuration dialog saves
    (921-938). */
module ConfigMerge {
  import opened Yaml

  /** JavaScript `a || b` on strings: "" is falsy. */
  function Or(a: string, b: string): (r: string)
    ensures r == a || r == b
    ensures r != "" <==> a != "" || b != ""
  {
    if a != "" then a else b
  }

  predicate SupportedLanguage(l: string) {
    l == "python" || l == "typescript"
  }

  /** Every field is set. */
  predicate Complete(c: Config) {
    forall k :: 0 <= k < |ConfigEntries(c)| ==> ConfigEntries(c)[k].1 != ""
  }

  /** The start-up gate: one of name, builder_name, compiled_name, config,
      state, input, output, implementation or language is set. prompts,
      pipeline and tools are not consulted. */
  predicate LoadGate(p: Config) {
    p.name != "" || p.builder_name != "" || p.compiled_name != "" || p.config != ""
    || p.state != "" || p.input != "" || p.output != "" || p.implementation != "" || p.language != ""
  }

  /** Start-up load: when the gate opens, every field the file sets replaces
      the current one, except that the language is taken only when it is
      'python' or 'typescript'. */
  function LoadConfig(parsed: Config, current: Config): Config {
    if !LoadGate(parsed) then current
    else Config(
      Or(parsed.name, current.name), Or(parsed.builder_name, current.builder_name),
      Or(parsed.compiled_name, current.compiled_name), Or(parsed.config, current.config),
      Or(parsed.state, current.state), Or(parsed.input, current.input), Or(parsed.output, current.output),
      Or(parsed.implementation, current.implementation),
      if SupportedLanguage(parsed.language) then parsed.language else current.language,
      Or(parsed.prompts, current.prompts), Or(parsed.pipeline, current.pipeline), Or(parsed.tools, current.tools))
  }

  /** File import: a field the file leaves unset falls back to the fixed
      default, not to the current value; the language falls back to the
      current one and is not checked. */
  function ImportConfig(parsed: Config, current: Config): Config {
    var d := DefaultConfig;
    Config(
      Or(parsed.name, d.name), Or(parsed.builder_name, d.builder_name),
      Or(parsed.compiled_name, d.compiled_name), Or(parsed.config, d.config),
      Or(parsed.state, d.state), Or(parsed.input, d.input), Or(parsed.output, d.output),
      Or(parsed.implementation, d.implementation), Or(parsed.language, current.language),
      Or(parsed.prompts, d.prompts), Or(parsed.pipeline, d.pipeline), Or(parsed.tools, d.tools))
  }

  /** `updateGraphConfig`: the dialog's eleven fields replace the current
      ones; the dialog has no language field, so the language is kept. */
  function UpdateGraphConfig(current: Config, next: Config): (r: Config)
    ensures r.language == current.language
    ensures forall k :: 0 <= k < 12 && k != 8 ==> ConfigEntries(r)[k] == ConfigEntries(next)[k]
  {
    next.(language := current.language)
  }

  // ---------------------------------------------------------------------------
  // Properties

  /** Field by field: the loaded value is the file's when the gate is open
      and the file sets it, the current one otherwise. */
  lemma {:induction false} LoadConfigSpec(parsed: Config, current: Config)
    ensures var r := LoadConfig(parsed, current);
            && (forall k :: 0 <= k < 12 && k != 8 ==>
                  ConfigEntries(r)[k].1 == (if LoadGate(parsed) && ConfigEntries(parsed)[k].1 != ""
                                            then ConfigEntries(parsed)[k].1 else ConfigEntries(current)[k].1))
            && r.language == (if LoadGate(parsed) && SupportedLanguage(parsed.language)
                              then parsed.language else current.language)
  {
    var r := LoadConfig(parsed, current);
    if LoadGate(parsed) {
      var es, ps, cs := ConfigEntries(r), ConfigEntries(parsed), ConfigEntries(current);
      forall k | 0 <= k < 12 && k != 8
        ensures es[k].1 == Or(ps[k].1, cs[k].1)
      {
        if k < 4 {
          assert k == 0 || k == 1 || k == 2 || k == 3;
        } else if k < 8 {
          assert k == 4 || k == 5 || k == 6 || k == 7;
        } else {
          assert k == 9 || k == 10 || k == 11;
        }
      }
    }
  }

  /** Loading never introduces an unsupported language. */
  lemma LoadKeepsLanguageSupported(parsed: Config, current: Config)
    requires SupportedLanguage(current.language)
    ensures SupportedLanguage(LoadConfig(parsed, current).language)
  {
  }

  /** Importing a file that sets nothing yields the defaults with the
      current language. */
  lemma ImportEmpty(current: Config)
    ensures ImportConfig(Config("", "", "", "", "", "", "", "", "", "", "", ""), current)
            == DefaultConfig.(language := current.language)
  {
  }

  /** Import fills every field except possibly the language, and importing
      the result again changes nothing. */
  lemma ImportSpec(parsed: Config, current: Config, later: Config)
    ensures var r := ImportConfig(parsed, current);
            && (forall k :: 0 <= k < 12 && k != 8 ==> ConfigEntries(r)[k].1 != "")
            && (parsed.language != "" || current.language != "" ==> Complete(r))
            && (r.language != "" ==> ImportConfig(r, later) == r)
  {
  }

  /** Import does not check the language: a file naming any other language
      imports it, where loading the same file at start-up keeps the current
      one. */
  lemma ImportAcceptsAnyLanguage()
    ensures var p := DefaultConfig.(language := "java");
            ImportConfig(p, DefaultConfig).language == "java"
            && LoadConfig(p, DefaultConfig).language == "python"
  {
  }

  /** Saving the dialog with the current values changes nothing, saving the
      same values twice is the same as saving them once, and of two saves
      in a row only the later one's fields remain. */
  lemma UpdateGraphConfigLaws(current: Config, a: Config, b: Config)
    ensures UpdateGraphConfig(current, current) == current
    ensures UpdateGraphConfig(UpdateGraphConfig(current, a), a) == UpdateGraphConfig(current, a)
    ensures UpdateGraphConfig(UpdateGraphConfig(current, a), b) == UpdateGraphConfig(current, b)
  {
  }

  /** Saving a complete configuration with a supported language into a
      specification and loading or importing it back restores it exactly. */
  lemma {:induction false} ConfigRoundTrip(c: Config, current: Config)
    requires Complete(c) && SupportedLanguage(c.language)
    ensures LoadConfig(c, current) == c
    ensures ImportConfig(c, current) == c
  {
    var es := ConfigEntries(c);
    assert es[0].1 != "" && es[1].1 != "" && es[2].1 != "" && es[3].1 != "" && es[4].1 != "" && es[5].1 != "";
    assert es[6].1 != "" && es[7].1 != "" && es[9].1 != "" && es[10].1 != "" && es[11].1 != "";
  }
}

=== FILE: custom_node.dfy ===
/** A processing-step node on the canvas (src/components/nodes/CustomNode.tsx):
    typing into it renames that node in the graph, and its box is sized from
    the measured width of the text. */
module CustomNode {
  import opened Base
  import opened Graph

  /** `handleInputChange`: map over the nodes and replace the label of the
      node whose id matches; every other node, and every other field, stays
      as it was. */
  function Rename(nodes: seq<Node>, id: string, text: string): (r: seq<Node>)
    ensures |r| == |nodes|
    ensures forall k :: 0 <= k < |nodes| ==>
              && r[k].id == nodes[k].id && r[k].kind == nodes[k].kind
              && r[k].pos == nodes[k].pos && r[k].selected == nodes[k].selected
              && r[k].name == (if nodes[k].id == id then text else nodes[k].name)
  {
    seq(|nodes|, k requires 0 <= k < |nodes| =>
      if nodes[k].id == id then nodes[k].(name := text) else nodes[k])
  }

  /** Renaming keeps ids, kinds, positions and selection, so lookups by id
      find the same node, with the new label when it is the renamed one. */
  lemma {:induction false} RenameLookup(nodes: seq<Node>, id: string, text: string, other: string)
    ensures NodeById(Rename(nodes, id, text), other).None? <==> NodeById(nodes, other).None?
    ensures NodeById(nodes, other).Some? && other != id ==>
              NodeById(Rename(nodes, id, text), other) == NodeById(nodes, other)
    ensures NodeById(nodes, id).Some? ==>
              NodeById(Rename(nodes, id, text), id) == Some(NodeById(nodes, id).value.(name := text))
  {
    FindRenamed(nodes, id, text, other);
    FindRenamed(nodes, id, text, id);
  }

  lemma {:induction false} FindRenamed(nodes: seq<Node>, id: string, text: string, other: string)
    ensures var before := NodeById(nodes, other);
            var after := NodeById(Rename(nodes, id, text), other);
            && (before.None? <==> after.None?)
            && (before.Some? ==> after == Some(if other == id then before.value.(name := text) else before.value))
    decreases |nodes|
  {
    if |nodes| > 0 {
      var r := Rename(nodes, id, text);
      assert Rename(nodes, id, text)[1..] == Rename(nodes[1..], id, text);
      FindRenamed(nodes[1..], id, text, other);
      assert Find(nodes, (n: Node) => n.id == other)
             == if nodes[0].id == other then Some(nodes[0]) else Find(nodes[1..], (n: Node) => n.id == other);
      assert Find(r, (n: Node) => n.id == other)
             == if r[0].id == other then Some(r[0]) else Find(r[1..], (n: Node) => n.id == other);
    }
  }

  /** Typing the previous label back restores the node list when ids are unique. */
  lemma {:induction false} RenameBack(nodes: seq<Node>, id: string, text: string)
    requires forall i, j :: 0 <= i < j < |nodes| ==> nodes[i].id != nodes[j].id
    requires NodeById(nodes, id).Some?
    ensures Rename(Rename(nodes, id, text), id, NodeById(nodes, id).value.name) == nodes
  {
    var prev := NodeById(nodes, id).value;
    var r := Rename(Rename(nodes, id, text), id, prev.name);
    forall k | 0 <= k < |nodes|
      ensures r[k] == nodes[k]
    {
      if nodes[k].id == id {
        var j :| 0 <= j < |nodes| && nodes[j] == prev;
        assert nodes[j].id == id;
        assert j == k;
      }
    }
  }

  /** `Math.max(150, textWidth + 30)`: the box is never narrower than 150
      pixels and grows with the text. */
  function NodeWidth(textWidth: real): (w: real)
    ensures w >= 150.0
    ensures w >= textWidth + 30.0
    ensures w == 150.0 || w == textWidth + 30.0
  {
    if 150.0 >= textWidth + 30.0 then 150.0 else textWidth + 30.0
  }

  /** A wider text never gives a narrower box, and beyond 120 pixels of text
      the box is exactly 30 pixels wider than the text. */
  lemma NodeWidthMonotone(a: real, b: real)
    requires a <= b
    ensures NodeWidth(a) <= NodeWidth(b)
    ensures b >= 120.0 ==> NodeWidth(b) == b + 30.0
  {
  }
}

=== FILE: decoder.dfy ===
/** The spec → graph rebuild that src/components/Flow.tsx runs when it loads
    the saved specification (372-480) and when it imports a file (1030-1134).
    Both copies build nodes and edges identically; they are modelled once
    here, starting from the parsed `YamlConfig`. What differs between the two
    call sites (configuration merge, counters) is in module Editor. */
module Decoder {
  import opened Base
  import opened Graph
  import opened Yaml
  import EdgeLabels

  const SourceNode: Node := Node("source", Entry, "source", Pos(0.0, 0.0), false)
  const EndNode: Node := Node("end", Terminal, "end", Pos(0.0, 600.0), false)

  /** `node-${k}` */
  function StepId(k: nat): string {
    "node-" + NatToString(k)
  }

  /** `edge-${i}` */
  function EdgeId(i: nat): string {
    "edge-" + NatToString(i)
  }

  /** `edge-${i}-${j}` */
  function PathEdgeId(i: nat, j: nat): string {
    "edge-" + NatToString(i) + "-" + NatToString(j)
  }

  /** Position of the `i`-th of `n` step nodes: alternately 200 left and
      right of the axis, evenly spaced over the 500 units below the Entry
      node, offset by 50. */
  function Layout(i: nat, n: nat): Pos
    requires i < n
  {
    Pos(if i % 2 == 0 then -200.0 else 200.0,
        (500.0 / (n + 1) as real) * (i + 1) as real + 50.0)
  }

  function StepNode(ys: seq<YamlNode>, i: nat): Node
    requires i < |ys|
  {
    Node(StepId(i + 1), Step, ys[i].name, Layout(i, |ys|), false)
  }

  /** `source`, `end`, then `node-(i+1)` for the `i`-th YAML node. */
  function DecodeNodes(ys: seq<YamlNode>): (r: seq<Node>)
    ensures |r| == |ys| + 2
    ensures r[0] == SourceNode && r[1] == EndNode
    ensures forall i :: 0 <= i < |ys| ==> r[i + 2] == StepNode(ys, i)
  {
    [SourceNode, EndNode] + seq(|ys|, i requires 0 <= i < |ys| => StepNode(ys, i))
  }

  /** `edge.from === '__start__' ? 'source' : edge.from === '__end__' ? 'end'
      : sourceNode?.id || ''` */
  function ResolveSource(nodes: seq<Node>, from: string): string {
    if from == "__start__" then "source"
    else if from == "__end__" then "end"
    else match NodeByLabel(nodes, from)
      case Some(n) => n.id
      case None => ""
  }

  /** The same for a target, except that an unresolved target falls back to
      'end'. An absent `to` matches no label. */
  function ResolveTarget(nodes: seq<Node>, to: Option<string>): string {
    match to
    case None => "end"
    case Some(t) =>
      if t == "__start__" then "source"
      else if t == "__end__" then "end"
      else match NodeByLabel(nodes, t)
        case Some(n) => if n.id != "" then n.id else "end"
        case None => "end"
  }

  /** The edges rebuilt from the `i`-th YAML edge. */
  function DecodeEntry(nodes: seq<Node>, i: nat, y: YamlEdge): seq<Edge> {
    if IsBranchEntry(y) then
      var src := ResolveSource(nodes, y.from);
      var ps := y.paths.value;
      seq(|ps|, j requires 0 <= j < |ps| =>
        Edge(PathEdgeId(i, j), src, ResolveTarget(nodes, Some(ps[j])), true, y.condition.value))
    else
      [Edge(EdgeId(i), ResolveSource(nodes, y.from), ResolveTarget(nodes, y.to), false, "")]
  }

  /** Decodes `ys`, whose first element is the `start`-th YAML edge. */
  function DecodeEdges(nodes: seq<Node>, ys: seq<YamlEdge>, start: nat): seq<Edge>
    decreases |ys|
  {
    if |ys| == 0 then []
    else DecodeEntry(nodes, start, ys[0]) + DecodeEdges(nodes, ys[1..], start + 1)
  }

  /** The `updateEdgeLabel(sourceId, edge.condition)` calls one entry
      makes: one per path of a branch entry whose condition and resolved
      source are both non-empty, all writing the same value. */
  function EntryLabels(labels: map<string, string>, nodes: seq<Node>, y: YamlEdge): map<string, string> {
    var src := ResolveSource(nodes, y.from);
    if IsBranchEntry(y) && |y.paths.value| > 0 && y.condition.value != "" && src != ""
    then EdgeLabels.Update(labels, src, y.condition.value) else labels
  }

  function DecodeLabels(labels: map<string, string>, nodes: seq<Node>, ys: seq<YamlEdge>): map<string, string>
    decreases |ys|
  {
    if |ys| == 0 then labels
    else DecodeLabels(EntryLabels(labels, nodes, ys[0]), nodes, ys[1..])
  }

  datatype Decoded = Decoded(nodes: seq<Node>, edges: seq<Edge>, nodeCount: nat, labels: map<string, string>)

  /** The rebuild: nodes, edges, the node counter (`setMaxNodeLength`) and
      the per-source label map. */
  function Decode(spec: YamlConfig, labels: map<string, string>): Decoded {
    var nodes := DecodeNodes(spec.nodes);
    Decoded(nodes, DecodeEdges(nodes, spec.edges, 0), |spec.nodes|, DecodeLabels(labels, nodes, spec.edges))
  }

  // ---------------------------------------------------------------------------
  // Properties

  function NodeIds(nodes: seq<Node>): (r: seq<string>)
    ensures |r| == |nodes|
    ensures forall k :: 0 <= k < |nodes| ==> r[k] == nodes[k].id
  {
    seq(|nodes|, k requires 0 <= k < |nodes| => nodes[k].id)
  }

  function EdgeIds(edges: seq<Edge>): (r: seq<string>)
    ensures |r| == |edges|
    ensures forall k :: 0 <= k < |edges| ==> r[k] == edges[k].id
  {
    seq(|edges|, k requires 0 <= k < |edges| => edges[k].id)
  }

  lemma {:induction false} StepIdInjective(a: nat, b: nat)
    ensures StepId(a) == StepId(b) <==> a == b
  {
    if StepId(a) == StepId(b) {
      assert NatToString(a) == StepId(a)[5..];
      assert NatToString(b) == StepId(b)[5..];
      NatToStringInjective(a, b);
    }
  }

  lemma {:induction false} StepIdNotReserved(k: nat)
    ensures StepId(k) != "source" && StepId(k) != "end" && StepId(k) != ""
  {
    assert StepId(k)[0] == 'n';
  }

  /** The id of the `i`-th rebuilt node. */
  function IdAt(i: nat): string {
    if i == 0 then "source" else if i == 1 then "end" else StepId(i - 1)
  }

  lemma {:induction false} IdAtDistinct(i: nat, j: nat)
    requires i < j
    ensures IdAt(i) != IdAt(j)
  {
    StepIdNotReserved(j - 1);
    if i >= 2 {
      StepIdInjective(i - 1, j - 1);
    }
  }

  lemma {:induction false} DecodedNodeId(ys: seq<YamlNode>, i: nat)
    requires i < |ys| + 2
    ensures NodeIds(DecodeNodes(ys))[i] == IdAt(i)
  {
    if i >= 2 {
      assert DecodeNodes(ys)[i] == StepNode(ys, i - 2);
    }
  }

  /** The rebuilt nodes carry pairwise distinct ids. */
  lemma {:induction false} DecodedNodeIdsDistinct(ys: seq<YamlNode>)
    ensures NoDuplicates(NodeIds(DecodeNodes(ys)))
  {
    var ids := NodeIds(DecodeNodes(ys));
    forall i, j | 0 <= i < j < |ids|
      ensures ids[i] != ids[j]
    {
      DecodedNodeId(ys, i);
      DecodedNodeId(ys, j);
      IdAtDistinct(i, j);
    }
  }

  /** With distinct ids, looking up a node's own id finds that node. */
  lemma {:induction false} NodeByIdDistinct(nodes: seq<Node>, k: nat)
    requires k < |nodes|
    requires NoDuplicates(NodeIds(nodes))
    ensures NodeById(nodes, nodes[k].id) == Some(nodes[k])
  {
    var r := NodeById(nodes, nodes[k].id);
    assert r.Some?;
    var j :| 0 <= j < |nodes| && nodes[j] == r.value && nodes[j].id == nodes[k].id
             && forall i :: 0 <= i < j ==> nodes[i].id != nodes[k].id;
    assert NodeIds(nodes)[j] == NodeIds(nodes)[k];
  }

  lemma {:induction false} EdgeIdInjective(i: nat, i': nat)
    ensures EdgeId(i) == EdgeId(i') <==> i == i'
  {
    NatToStringInjective(i, i');
    if EdgeId(i) == EdgeId(i') {
      assert NatToString(i) == EdgeId(i)[5..];
      assert NatToString(i') == EdgeId(i')[5..];
    }
  }

  lemma {:induction false} PathEdgeIdInjective(i: nat, j: nat, i': nat, j': nat)
    ensures PathEdgeId(i, j) == PathEdgeId(i', j') <==> i == i' && j == j'
  {
    if PathEdgeId(i, j) == PathEdgeId(i', j') {
      var a, b, a', b' := NatToString(i), NatToString(j), NatToString(i'), NatToString(j');
      NatToStringNoChar(i, '-');
      NatToStringNoChar(i', '-');
      PathEdgeIdParts(i, j);
      PathEdgeIdParts(i', j');
      PrefixCancel("edge-", a + ['-'] + b, a' + ['-'] + b');
      SplitAtFirst(a, b, a', b', '-');
      NatToStringInjective(i, i');
      NatToStringInjective(j, j');
    }
  }

  lemma {:induction false} PathEdgeIdParts(i: nat, j: nat)
    ensures PathEdgeId(i, j) == "edge-" + (NatToString(i) + ['-'] + NatToString(j))
  {
  }

  lemma {:induction false} EdgeIdNotPath(i: nat, i': nat, j': nat)
    ensures EdgeId(i) != PathEdgeId(i', j')
  {
    NatToStringNoChar(i, '-');
    var p := PathEdgeId(i', j')[5..];
    assert p[|NatToString(i')|] == '-';
    assert EdgeId(i)[5..] == NatToString(i);
  }

  lemma {:induction false} EdgeIdShapes(i: nat, j: nat, i': nat, j': nat)
    ensures EdgeId(i) == EdgeId(i') <==> i == i'
    ensures PathEdgeId(i, j) == PathEdgeId(i', j') <==> i == i' && j == j'
    ensures EdgeId(i) != PathEdgeId(i', j')
  {
    EdgeIdInjective(i, i');
    PathEdgeIdInjective(i, j, i', j');
    EdgeIdNotPath(i, i', j');
  }

  /** Ids of edges rebuilt from entry `i` all mention index `i`. */
  ghost predicate IdOfEntry(id: string, i: nat) {
    id == EdgeId(i) || exists j: nat :: id == PathEdgeId(i, j)
  }

  lemma {:induction false} DecodeEntryIds(nodes: seq<Node>, i: nat, y: YamlEdge)
    ensures NoDuplicates(EdgeIds(DecodeEntry(nodes, i, y)))
    ensures forall k :: 0 <= k < |DecodeEntry(nodes, i, y)| ==> IdOfEntry(DecodeEntry(nodes, i, y)[k].id, i)
  {
    var es := DecodeEntry(nodes, i, y);
    if IsBranchEntry(y) {
      forall a, b | 0 <= a < b < |es|
        ensures es[a].id != es[b].id
      {
        EdgeIdShapes(i, a, i, b);
      }
      forall k | 0 <= k < |es|
        ensures IdOfEntry(es[k].id, i)
      {
        assert es[k].id == PathEdgeId(i, k);
      }
    }
  }

  lemma {:induction false} IdOfEntryUnique(id: string, i: nat, i': nat)
    ensures IdOfEntry(id, i) && IdOfEntry(id, i') ==> i == i'
  {
    if IdOfEntry(id, i) && IdOfEntry(id, i') {
      IdOfEntryDistinct(id, i, i');
    }
  }

  lemma {:induction false} IdOfEntryDistinct(id: string, i: nat, i': nat)
    requires IdOfEntry(id, i) && IdOfEntry(id, i')
    ensures i == i'
  {
    if id == EdgeId(i) {
      if id == EdgeId(i') {
        EdgeIdShapes(i, 0, i', 0);
      } else {
        var j' :| id == PathEdgeId(i', j');
        EdgeIdShapes(i, 0, i', j');
      }
    } else {
      var j :| id == PathEdgeId(i, j);
      if id == EdgeId(i') {
        EdgeIdShapes(i', 0, i, j);
      } else {
        var j' :| id == PathEdgeId(i', j');
        EdgeIdShapes(i, j, i', j');
      }
    }
  }

  ghost predicate IdFromRange(id: string, lo: nat, hi: nat) {
    exists i :: lo <= i < hi && IdOfEntry(id, i)
  }

  lemma {:induction false} ConcatIdsDistinct(head: seq<Edge>, tail: seq<Edge>)
    requires NoDuplicates(EdgeIds(head)) && NoDuplicates(EdgeIds(tail))
    requires forall a, b :: 0 <= a < |head| && 0 <= b < |tail| ==> head[a].id != tail[b].id
    ensures NoDuplicates(EdgeIds(head + tail))
  {
    var all := head + tail;
    forall a, b | 0 <= a < b < |all|
      ensures all[a].id != all[b].id
    {
      if b < |head| {
        assert EdgeIds(head)[a] != EdgeIds(head)[b];
      } else if a >= |head| {
        assert EdgeIds(tail)[a - |head|] != EdgeIds(tail)[b - |head|];
      }
    }
  }

  lemma {:induction false} HeadTailIdsDisjoint(head: seq<Edge>, tail: seq<Edge>, start: nat, hi: nat)
    requires forall a :: 0 <= a < |head| ==> IdOfEntry(head[a].id, start)
    requires forall b :: 0 <= b < |tail| ==> IdFromRange(tail[b].id, start + 1, hi)
    ensures forall a, b :: 0 <= a < |head| && 0 <= b < |tail| ==> head[a].id != tail[b].id
  {
    forall a, b | 0 <= a < |head| && 0 <= b < |tail|
      ensures head[a].id != tail[b].id
    {
      var i :| start + 1 <= i < hi && IdOfEntry(tail[b].id, i);
      IdOfEntryUnique(tail[b].id, start, i);
    }
  }

  /** Every id rebuilt from `ys` names the index of its own entry. */
  lemma {:induction false} DecodedEdgeIdsRange(nodes: seq<Node>, ys: seq<YamlEdge>, start: nat)
    ensures forall k :: 0 <= k < |DecodeEdges(nodes, ys, start)| ==>
              IdFromRange(DecodeEdges(nodes, ys, start)[k].id, start, start + |ys|)
    decreases |ys|
  {
    if |ys| > 0 {
      var head := DecodeEntry(nodes, start, ys[0]);
      var tail := DecodeEdges(nodes, ys[1..], start + 1);
      assert DecodeEdges(nodes, ys, start) == head + tail;
      DecodeEntryIds(nodes, start, ys[0]);
      DecodedEdgeIdsRange(nodes, ys[1..], start + 1);
      forall k | 0 <= k < |head|
        ensures IdFromRange(head[k].id, start, start + |ys|)
      {
        assert IdOfEntry(head[k].id, start);
      }
      forall k | 0 <= k < |tail|
        ensures IdFromRange(tail[k].id, start, start + |ys|)
      {
        var i :| start + 1 <= i < start + |ys| && IdOfEntry(tail[k].id, i);
      }
    }
  }

  /** The rebuilt edges carry pairwise distinct ids: `edge-i` and `edge-i-j`
      never collide. */
  lemma {:induction false} DecodedEdgeIdsDistinct(nodes: seq<Node>, ys: seq<YamlEdge>, start: nat)
    ensures NoDuplicates(EdgeIds(DecodeEdges(nodes, ys, start)))
    decreases |ys|
  {
    if |ys| > 0 {
      var head := DecodeEntry(nodes, start, ys[0]);
      var tail := DecodeEdges(nodes, ys[1..], start + 1);
      assert DecodeEdges(nodes, ys, start) == head + tail;
      DecodeEntryIds(nodes, start, ys[0]);
      DecodedEdgeIdsDistinct(nodes, ys[1..], start + 1);
      DecodedEdgeIdsRange(nodes, ys[1..], start + 1);
      HeadTailIdsDisjoint(head, tail, start, start + |ys|);
      ConcatIdsDistinct(head, tail);
    }
  }

  /** When every branch entry lists a path, each entry yields at least one
      edge. */
  lemma {:induction false} DecodeEdgesLength(nodes: seq<Node>, ys: seq<YamlEdge>, start: nat)
    requires PathsNonEmpty(ys)
    ensures |DecodeEdges(nodes, ys, start)| >= |ys|
    decreases |ys|
  {
    if |ys| > 0 {
      assert PathsNonEmpty(ys[1..]) by {
        forall k | 0 <= k < |ys[1..]| && IsBranchEntry(ys[1..][k])
          ensures |ys[1..][k].paths.value| > 0
        {
          assert ys[1..][k] == ys[k + 1];
        }
      }
      DecodeEdgesLength(nodes, ys[1..], start + 1);
      assert |DecodeEntry(nodes, start, ys[0])| >= 1;
    }
  }

  /** No rebuilt edge carries `edge-n` for an `n` at or beyond the end of
      the entry range. */
  lemma {:induction false} DecodedEdgeIdsFree(nodes: seq<Node>, ys: seq<YamlEdge>, start: nat, n: nat)
    requires n >= start + |ys|
    ensures forall k :: 0 <= k < |DecodeEdges(nodes, ys, start)| ==> DecodeEdges(nodes, ys, start)[k].id != EdgeId(n)
  {
    var es := DecodeEdges(nodes, ys, start);
    DecodedEdgeIdsRange(nodes, ys, start);
    forall k | 0 <= k < |es|
      ensures es[k].id != EdgeId(n)
    {
      var i :| start <= i < start + |ys| && IdOfEntry(es[k].id, i);
      if es[k].id == EdgeId(n) {
        IdOfEntryDistinct(es[k].id, i, n);
      }
    }
  }

  /** A branch entry yields one animated edge per path, in path order,
      labelled with the condition; any other entry yields one plain edge. */
  lemma DecodeEntryShape(nodes: seq<Node>, i: nat, y: YamlEdge)
    ensures IsBranchEntry(y) ==>
              && |DecodeEntry(nodes, i, y)| == |y.paths.value|
              && forall j :: 0 <= j < |y.paths.value| ==>
                   var e := DecodeEntry(nodes, i, y)[j];
                   e.id == PathEdgeId(i, j) && e.animated && e.condLabel == y.condition.value
                   && e.source == ResolveSource(nodes, y.from)
                   && e.target == ResolveTarget(nodes, Some(y.paths.value[j]))
    ensures !IsBranchEntry(y) ==>
              && |DecodeEntry(nodes, i, y)| == 1
              && var e := DecodeEntry(nodes, i, y)[0];
                 e.id == EdgeId(i) && !e.animated
                 && e.source == ResolveSource(nodes, y.from) && e.target == ResolveTarget(nodes, y.to)
  {
  }

  lemma {:induction false} DecodeEdgesAppend(nodes: seq<Node>, a: seq<YamlEdge>, b: seq<YamlEdge>, start: nat)
    ensures DecodeEdges(nodes, a + b, start) == DecodeEdges(nodes, a, start) + DecodeEdges(nodes, b, start + |a|)
  {
    var mid: nat := start + |a|;
    DecodeEdgesAppendAt(nodes, a, b, start, mid);
  }

  /** The same with the first index of `b` named, so that the induction
      never has to match `start + |a|` against a shifted sum. */
  lemma {:induction false} DecodeEdgesAppendAt(nodes: seq<Node>, a: seq<YamlEdge>, b: seq<YamlEdge>, start: nat, mid: nat)
    requires mid == start + |a|
    ensures DecodeEdges(nodes, a + b, start) == DecodeEdges(nodes, a, start) + DecodeEdges(nodes, b, mid)
    decreases |a|
  {
    if |a| == 0 {
      assert a + b == b;
      assert DecodeEdges(nodes, a, start) == [];
      assert [] + DecodeEdges(nodes, b, start) == DecodeEdges(nodes, b, start);
    } else {
      var head := DecodeEntry(nodes, start, a[0]);
      var ta := DecodeEdges(nodes, a[1..], start + 1);
      var tb := DecodeEdges(nodes, b, mid);
      var rest := DecodeEdges(nodes, a[1..] + b, start + 1);
      assert DecodeEdges(nodes, a + b, start) == head + rest by {
        TailOfAppend(a, b);
      }
      DecodeEdgesAppendAt(nodes, a[1..], b, start + 1, mid);
      assert DecodeEdges(nodes, a, start) == head + ta;
      AppendChain(DecodeEdges(nodes, a + b, start), head, rest, DecodeEdges(nodes, a, start), ta, tb);
    }
  }

  /** Endpoint resolution: the reserved words map to the reserved nodes, a
      listed label to the first node carrying it (so the reserved nodes
      labelled 'source' and 'end' win), an unresolved source to '' and an
      unresolved target to 'end'. */
  lemma {:induction false} ResolveSpec(ys: seq<YamlNode>, name: string)
    ensures ResolveSource(DecodeNodes(ys), "__start__") == "source"
    ensures ResolveTarget(DecodeNodes(ys), Some("__end__")) == "end"
    ensures name != "__start__" && name != "__end__" && (name == "source" || name == "end") ==>
              ResolveSource(DecodeNodes(ys), name) == name && ResolveTarget(DecodeNodes(ys), Some(name)) == name
    ensures name != "__start__" && name != "__end__" && name != "source" && name != "end" ==>
              (name !in NodeNamesOf(ys) <==> ResolveSource(DecodeNodes(ys), name) == "")
    ensures name != "__start__" && name != "__end__" && name != "source" && name != "end" && name !in NodeNamesOf(ys) ==>
              ResolveTarget(DecodeNodes(ys), Some(name)) == "end"
    ensures ResolveTarget(DecodeNodes(ys), None) == "end"
  {
    if name != "__start__" && name != "__end__" && name != "source" && name != "end" {
      if name in NodeNamesOf(ys) {
        ResolveListedSource(ys, name);
      } else {
        ResolveUnlisted(ys, name);
      }
    }
  }

  lemma {:induction false} ResolveListedSource(ys: seq<YamlNode>, name: string)
    requires name in NodeNamesOf(ys) && name != "source" && name != "end"
    ensures ResolveSource(DecodeNodes(ys), name) != ""
  {
    if name != "__start__" && name != "__end__" {
      var k := DecodedStepLookup(ys, name);
      assert ResolveSource(DecodeNodes(ys), name) == DecodeNodes(ys)[k].id;
      DecodedIdNonEmpty(ys, k);
    }
  }

  lemma {:induction false} DecodedIdNonEmpty(ys: seq<YamlNode>, k: nat)
    requires k < |ys| + 2
    ensures DecodeNodes(ys)[k].id != ""
  {
    if k >= 2 {
      assert DecodeNodes(ys)[k] == StepNode(ys, k - 2);
      StepIdNotReserved(k - 1);
    }
  }

  lemma {:induction false} ResolveUnlisted(ys: seq<YamlNode>, name: string)
    requires name != "__start__" && name != "__end__" && name != "source" && name != "end"
    requires name !in NodeNamesOf(ys)
    ensures ResolveSource(DecodeNodes(ys), name) == ""
    ensures ResolveTarget(DecodeNodes(ys), Some(name)) == "end"
  {
    var ns := DecodeNodes(ys);
    forall k | 0 <= k < |ns|
      ensures ns[k].name != name
    {
      if k >= 2 {
        assert NodeNamesOf(ys)[k - 2] == ns[k].name;
      }
    }
  }

  /** A listed step name is found on the first rebuilt step carrying it. */
  lemma {:induction false} DecodedStepLookup(ys: seq<YamlNode>, name: string) returns (k: nat)
    requires name in NodeNamesOf(ys) && name != "source" && name != "end"
    ensures 2 <= k < |DecodeNodes(ys)|
    ensures NodeByLabel(DecodeNodes(ys), name) == Some(DecodeNodes(ys)[k])
    ensures DecodeNodes(ys)[k].kind == Step && DecodeNodes(ys)[k].name == name
  {
    var ns := DecodeNodes(ys);
    var i :| 0 <= i < |ys| && NodeNamesOf(ys)[i] == name;
    assert ns[i + 2].name == name;
    var n := NodeByLabel(ns, name).value;
    k :| 0 <= k < |ns| && ns[k] == n;
  }

  lemma {:induction false} ResolveReserved(ys: seq<YamlNode>, name: string)
    requires name == "__start__" || name == "__end__"
    ensures EndpointName(DecodeNodes(ys), ResolveSource(DecodeNodes(ys), name)) == name
    ensures EndpointName(DecodeNodes(ys), ResolveTarget(DecodeNodes(ys), Some(name))) == name
  {
    DecodedNodeIdsDistinct(ys);
    NodeByIdDistinct(DecodeNodes(ys), if name == "__start__" then 0 else 1);
  }

  lemma {:induction false} ResolveStep(ys: seq<YamlNode>, name: string)
    requires name in NodeNamesOf(ys) && name != "source" && name != "end"
    requires name != "__start__" && name != "__end__"
    ensures EndpointName(DecodeNodes(ys), ResolveSource(DecodeNodes(ys), name)) == name
    ensures EndpointName(DecodeNodes(ys), ResolveTarget(DecodeNodes(ys), Some(name))) == name
  {
    var ns := DecodeNodes(ys);
    var k := DecodedStepLookup(ys, name);
    assert ResolveSource(ns, name) == ns[k].id;
    assert ResolveTarget(ns, Some(name)) == ns[k].id by {
      DecodedIdNonEmpty(ys, k);
    }
    DecodedEndpointName(ys, k);
  }

  /** Looking a rebuilt node up by its id finds that node. */
  lemma {:induction false} DecodedEndpointName(ys: seq<YamlNode>, k: nat)
    requires 2 <= k < |ys| + 2
    ensures EndpointName(DecodeNodes(ys), DecodeNodes(ys)[k].id) == DecodeNodes(ys)[k].name
  {
    var ns := DecodeNodes(ys);
    DecodedNodeIdsDistinct(ys);
    NodeByIdDistinct(ns, k);
    assert ns[k] == StepNode(ys, k - 2);
    StepEndpointName(ns, k);
  }

  /** A listed step name resolves, as source and as target, to a node whose
      endpoint name is that same name; so do the reserved words. */
  lemma {:induction false} ResolveListedName(ys: seq<YamlNode>, name: string)
    requires name == "__start__" || name == "__end__"
             || (name in NodeNamesOf(ys) && name != "source" && name != "end")
    ensures EndpointName(DecodeNodes(ys), ResolveSource(DecodeNodes(ys), name)) == name
    ensures EndpointName(DecodeNodes(ys), ResolveTarget(DecodeNodes(ys), Some(name))) == name
  {
    if name == "__start__" || name == "__end__" {
      ResolveReserved(ys, name);
    } else {
      ResolveStep(ys, name);
    }
  }

  /** Layout: steps alternate 200 left and right, and descend strictly
      between the Entry anchor (y = 0, offset 50) and the Terminal anchor
      (y = 600). */
  lemma {:induction false} LayoutSpec(i: nat, j: nat, n: nat)
    requires i < j < n
    ensures 50.0 < Layout(i, n).y < Layout(j, n).y < 550.0
    ensures Layout(i, n).x == (if i % 2 == 0 then -200.0 else 200.0)
  {
    var step := 500.0 / (n + 1) as real;
    assert step > 0.0;
    assert step * (j + 1) as real < step * (n + 1) as real;
    assert step * (i + 1) as real < step * (j + 1) as real;
  }

  /** Entry `y` writes `key` in the label map. */
  predicate LabelSetter(nodes: seq<Node>, y: YamlEdge, key: string) {
    IsBranchEntry(y) && |y.paths.value| > 0 && y.condition.value != ""
    && ResolveSource(nodes, y.from) != "" && ResolveSource(nodes, y.from) == key
  }

  /** The label map keeps every key no entry writes. */
  lemma {:induction false} DecodeLabelsKeep(labels: map<string, string>, nodes: seq<Node>, ys: seq<YamlEdge>, key: string)
    requires forall k :: 0 <= k < |ys| ==> !LabelSetter(nodes, ys[k], key)
    ensures key in DecodeLabels(labels, nodes, ys) <==> key in labels
    ensures key in labels ==> DecodeLabels(labels, nodes, ys)[key] == labels[key]
    decreases |ys|
  {
    if |ys| > 0 {
      assert !LabelSetter(nodes, ys[0], key);
      assert forall m :: 1 <= m < |ys| ==> ys[m] == ys[1..][m - 1];
      DecodeLabelsKeep(EntryLabels(labels, nodes, ys[0]), nodes, ys[1..], key);
    }
  }

  /** A key written by some entry ends up holding the condition of the last
      entry that writes it. */
  lemma {:induction false} DecodeLabelsLast(labels: map<string, string>, nodes: seq<Node>, ys: seq<YamlEdge>, key: string, k: nat)
    requires k < |ys| && LabelSetter(nodes, ys[k], key)
    requires forall m :: k < m < |ys| ==> !LabelSetter(nodes, ys[m], key)
    ensures key in DecodeLabels(labels, nodes, ys)
    ensures DecodeLabels(labels, nodes, ys)[key] == ys[k].condition.value
    decreases |ys|
  {
    var labels' := EntryLabels(labels, nodes, ys[0]);
    assert forall m :: 1 <= m < |ys| ==> ys[m] == ys[1..][m - 1];
    if k == 0 {
      DecodeLabelsKeep(labels', nodes, ys[1..], key);
    } else {
      DecodeLabelsLast(labels', nodes, ys[1..], key, k - 1);
    }
  }
}

=== FILE: download.dfy ===
/** Which files `downloadAsZip` puts into the archive
    (src/utils/downloadUtils.ts:47-104): the specification, then each
    generated file of the chosen language that has content. */
module Download {
  import opened Base

  /** The generator's output for one language: file type → content; a type
      the server did not return is absent. */
  type LanguageFiles = map<string, string>

  datatype GeneratedFiles = GeneratedFiles(python: Option<LanguageFiles>, typescript: Option<LanguageFiles>)

  /** The file types in the order they are added. */
  const FileTypes: seq<string> :=
    ["stub", "implementation", "graph", "state", "config", "prompts", "pipeline", "tools"]

  const SpecName: string := "spec.yml"

  /** `generatedFiles.<lang>?.<type>` is truthy. */
  predicate HasContent(files: LanguageFiles, t: string) {
    t in files && files[t] != ""
  }

  function Present(files: LanguageFiles): string -> bool {
    (t: string) => HasContent(files, t)
  }

  /** The types of `types` whose content is non-empty, in order. */
  function KeptOf(types: seq<string>, files: LanguageFiles): (r: seq<string>)
    ensures forall k :: 0 <= k < |r| ==> r[k] in types && HasContent(files, r[k])
    ensures forall t :: t in types && HasContent(files, t) ==> t in r
    ensures |r| <= |types|
  {
    var r := Filter(types, Present(files));
    assert forall k :: 0 <= k < |r| ==> Present(files)(r[k]);
    r
  }

  /** The file types whose content is non-empty, in adding order. */
  function Kept(files: LanguageFiles): seq<string> {
    KeptOf(FileTypes, files)
  }

  /** One archive entry per kept type of `types`: `<type><ext>` and its content. */
  function EntriesOf(types: seq<string>, files: LanguageFiles, ext: string): (r: seq<(string, string)>)
    ensures |r| == |KeptOf(types, files)|
    ensures forall k :: 0 <= k < |r| ==>
              r[k] == (KeptOf(types, files)[k] + ext, files[KeptOf(types, files)[k]])
  {
    var kept := KeptOf(types, files);
    seq(|kept|, k requires 0 <= k < |kept| => (kept[k] + ext, files[kept[k]]))
  }

  function Entries(files: LanguageFiles, ext: string): seq<(string, string)> {
    EntriesOf(FileTypes, files, ext)
  }

  /** The archive's entries, name and content, in the order they are added:
      `spec.yml` always; then, for `python`, the Python files named
      `<type>.py`, and for any other language the TypeScript files named
      `<type>.ts`, each only when its content is non-empty. */
  function Manifest(g: GeneratedFiles, spec: string, language: string): seq<(string, string)> {
    [(SpecName, spec)] + Entries(Chosen(g, language), Ext(language))
  }

  /** The chosen language's files; a language the server returned nothing
      for behaves like one with no files, since every `?.` read is then
      undefined. */
  function Chosen(g: GeneratedFiles, language: string): LanguageFiles {
    var files := if language == "python" then g.python else g.typescript;
    if files.Some? then files.value else map[]
  }

  function Ext(language: string): string {
    if language == "python" then ".py" else ".ts"
  }

  function Names(es: seq<(string, string)>): (r: seq<string>)
    ensures |r| == |es|
    ensures forall k :: 0 <= k < |es| ==> r[k] == es[k].0
  {
    seq(|es|, k requires 0 <= k < |es| => es[k].0)
  }

  lemma {:induction false} SuffixCancel(a: string, b: string, ext: string)
    requires a + ext == b + ext
    ensures a == b
  {
    assert a == (a + ext)[..|a|];
    assert b == (b + ext)[..|b|];
  }

  lemma {:induction false} NotSpecName(t: string, language: string)
    ensures t + Ext(language) != SpecName
  {
    var s := t + Ext(language);
    assert s[|s| - 1] == Ext(language)[2];
  }

  function Suffixed(xs: seq<string>, ext: string): (r: seq<string>)
    ensures |r| == |xs|
    ensures forall k :: 0 <= k < |xs| ==> r[k] == xs[k] + ext
  {
    seq(|xs|, k requires 0 <= k < |xs| => xs[k] + ext)
  }

  lemma {:induction false} SuffixedDistinct(xs: seq<string>, ext: string)
    requires NoDuplicates(xs)
    ensures NoDuplicates(Suffixed(xs, ext))
  {
    var r := Suffixed(xs, ext);
    forall i, j | 0 <= i < j < |r|
      ensures r[i] != r[j]
    {
      if r[i] == r[j] {
        SuffixCancel(xs[i], xs[j], ext);
      }
    }
  }

  lemma EntriesNames(files: LanguageFiles, ext: string)
    ensures Names(Entries(files, ext)) == Suffixed(Kept(files), ext)
  {
  }

  lemma {:induction false} KeptDistinct(files: LanguageFiles)
    ensures NoDuplicates(Kept(files))
  {
    assert NoDuplicates(FileTypes);
    FilterOrder(FileTypes, Present(files));
  }

  lemma NamesCons(e: (string, string), es: seq<(string, string)>)
    ensures Names([e] + es) == [e.0] + Names(es)
  {
  }

  lemma {:induction false} ConsDistinct(x: string, xs: seq<string>)
    requires NoDuplicates(xs) && x !in xs
    ensures NoDuplicates([x] + xs)
  {
    var ys := [x] + xs;
    forall i, j | 0 <= i < j < |ys|
      ensures ys[i] != ys[j]
    {
      assert ys[j] == xs[j - 1];
      if i > 0 {
        assert ys[i] == xs[i - 1];
      }
    }
  }

  /** `spec.yml` comes first with the given text; the manifest has at most
      nine entries and never two with the same name. */
  lemma {:induction false} ManifestShape(g: GeneratedFiles, spec: string, language: string)
    ensures var m := Manifest(g, spec, language);
            && 1 <= |m| <= 9
            && m[0] == (SpecName, spec)
            && Names(m) == [SpecName] + Suffixed(Kept(Chosen(g, language)), Ext(language))
            && NoDuplicates(Names(m))
  {
    var files := Chosen(g, language);
    var sx := Suffixed(Kept(files), Ext(language));
    KeptDistinct(files);
    SuffixedDistinct(Kept(files), Ext(language));
    EntriesNames(files, Ext(language));
    var m := Manifest(g, spec, language);
    NamesCons((SpecName, spec), Entries(files, Ext(language)));
    forall k | 0 <= k < |sx|
      ensures sx[k] != SpecName
    {
      NotSpecName(Kept(files)[k], language);
    }
    ConsDistinct(SpecName, sx);
  }

  /** A file of the chosen language is in the archive, under `<type><ext>`
      and with its content, exactly when the generator returned non-empty
      content for that type. */
  lemma {:induction false} ManifestContents(g: GeneratedFiles, spec: string, language: string, t: string, c: string)
    requires t in FileTypes
    ensures (t + Ext(language), c) in Manifest(g, spec, language)[1..]
            <==> HasContent(Chosen(g, language), t) && Chosen(g, language)[t] == c
  {
    assert Manifest(g, spec, language)[1..] == Entries(Chosen(g, language), Ext(language));
    EntriesContents(Chosen(g, language), Ext(language), t, c);
  }

  lemma {:induction false} EntriesContents(files: LanguageFiles, ext: string, t: string, c: string)
    requires t in FileTypes
    ensures (t + ext, c) in Entries(files, ext) <==> HasContent(files, t) && files[t] == c
  {
    EntriesOfContents(FileTypes, files, ext, t, c);
  }

  lemma {:induction false} EntriesOfContents(types: seq<string>, files: LanguageFiles, ext: string, t: string, c: string)
    requires t in types
    ensures (t + ext, c) in EntriesOf(types, files, ext) <==> HasContent(files, t) && files[t] == c
  {
    var kept := KeptOf(types, files);
    var es := EntriesOf(types, files, ext);
    if (t + ext, c) in es {
      var k :| 0 <= k < |es| && es[k] == (t + ext, c);
      SuffixCancel(t, kept[k], ext);
    }
    if HasContent(files, t) && files[t] == c {
      var k :| 0 <= k < |kept| && kept[k] == t;
      assert es[k] == (t + ext, c);
    }
  }

  /** Any language other than `python` is packed as TypeScript. */
  lemma NonPythonIsTypeScript(g: GeneratedFiles, spec: string, language: string)
    requires language != "python"
    ensures Manifest(g, spec, language) == Manifest(g, spec, "typescript")
  {
  }
}

=== FILE: edge_labels.dfy ===
/** The per-source condition labels of src/contexts/EdgeLabelContext.tsx:
    a map from source node id to label, where "" reads as absent. */
module EdgeLabels {
  type Labels = map<string, string>

  /** `updateEdgeLabel(sourceNodeId, label)` */
  function Update(m: Labels, source: string, text: string): (r: Labels)
    ensures source in r && r[source] == text
    ensures forall k :: k in m && k != source ==> k in r && r[k] == m[k]
    ensures forall k :: k in r ==> k in m || k == source
  {
    m[source := text]
  }

  /** `getEdgeLabel(sourceNodeId, defaultLabel)`: `edgeLabels[id] || default`. */
  function Get(m: Labels, source: string, default: string): (r: string)
    ensures source in m && m[source] != "" ==> r == m[source]
    ensures !(source in m && m[source] != "") ==> r == default
  {
    if source in m && m[source] != "" then m[source] else default
  }

  /** A stored non-empty label is what a lookup returns; an empty one reads
      as absent. */
  lemma GetAfterUpdate(m: Labels, source: string, other: string, text: string, default: string)
    ensures Get(Update(m, source, text), source, default) == (if text != "" then text else default)
    ensures other != source ==> Get(Update(m, source, text), other, default) == Get(m, other, default)
  {
  }

  /** Of two updates to one key, the later wins. */
  lemma LaterUpdateWins(m: Labels, source: string, first: string, second: string)
    ensures Update(Update(m, source, first), source, second) == Update(m, source, second)
  {
  }

  /** Clear Graph: `updateEdgeLabel(key, '')` for every key, in `keys` order. */
  function ClearKeys(m: Labels, keys: seq<string>): Labels
    decreases |keys|
  {
    if |keys| == 0 then m else ClearKeys(Update(m, keys[0], ""), keys[1..])
  }

  /** Clearing keeps the key set and empties every listed key; with `keys`
      listing all keys, every lookup then returns its default. */
  lemma {:induction false} ClearKeysSpec(m: Labels, keys: seq<string>)
    ensures ClearKeys(m, keys).Keys == m.Keys + set k | k in keys
    ensures forall k :: k in keys ==> ClearKeys(m, keys)[k] == ""
    ensures forall k :: k in m && k !in keys ==> ClearKeys(m, keys)[k] == m[k]
    decreases |keys|
  {
    if |keys| > 0 {
      ClearKeysSpec(Update(m, keys[0], ""), keys[1..]);
      assert forall k :: k in keys ==> k == keys[0] || k in keys[1..];
    }
  }

  lemma {:induction false} ClearAllDefaults(m: Labels, keys: seq<string>, source: string, default: string)
    requires forall k :: k in m ==> k in keys
    ensures Get(ClearKeys(m, keys), source, default) == default
  {
    ClearKeysSpec(m, keys);
  }
}

=== FILE: editor.dfy ===
/** The editor operations of src/components/Flow.tsx that shape the graph
    before it is compiled: connecting two nodes (`onConnect`, 542-604),
    adding a node (`addNode`, 610-640), ctrl-clicking an edge (`onEdgeClick`,
    662-670), the start/end check (`hasValidSourceToEndPath`, 281-293), and
    the two ways a specification replaces the graph (start-up load, 310-480,
    and file import, 984-1134). React state is one immutable `State`; each
    operation maps a state to the next. */
module Editor {
  import opened Base
  import opened Graph
  import opened Yaml
  import opened Encoder
  import opened Decoder
  import opened ConfigMerge
  import opened RoundTrip
  import EdgeLabels

  /** `maxNodeLength`, `maxEdgeLength` and `conditionalGroupCount` are the
      three counters; `labels` is the edge-label context; `connecting` is
      `isConnecting`. */
  datatype State = State(nodes: seq<Node>, edges: seq<Edge>, config: Config,
                         nodeCount: nat, edgeCount: nat, groupCount: nat,
                         labels: map<string, string>, connecting: bool)

  const GroupPrefix: string := "conditional_edge"

  // ---------------------------------------------------------------------------
  // onConnect

  datatype LabelChoice = LabelChoice(text: string, groupCount: nat)

  /** The label a new edge from a source gets, given the source's existing
      edges `siblings`, and the group counter afterwards. */
  function ChooseLabel(siblings: seq<Edge>, groupCount: nat): LabelChoice {
    if |siblings| == 0 then LabelChoice(GroupPrefix, groupCount)
    else
      var first := siblings[0].condLabel;
      if first != "" && !StartsWith(first, GroupPrefix) then LabelChoice(first, groupCount)
      else
        var n := if exists k :: 0 <= k < |siblings| && siblings[k].animated then groupCount else groupCount + 1;
        LabelChoice(GroupPrefix + "_" + NatToString(n), n)
  }

  /** Every edge leaving `source` becomes an animated edge labelled `text`. */
  function Promote(edges: seq<Edge>, source: string, text: string): (r: seq<Edge>)
    ensures |r| == |edges|
    ensures forall k :: 0 <= k < |edges| ==>
              r[k] == (if edges[k].source == source then edges[k].(animated := true, condLabel := text) else edges[k])
  {
    seq(|edges|, k requires 0 <= k < |edges| =>
      if edges[k].source == source then edges[k].(animated := true, condLabel := text) else edges[k])
  }

  /** `onConnect({source, target})`. `addEdge` appends. */
  function Connect(st: State, source: string, target: string): State {
    var choice := ChooseLabel(EdgesFrom(st.edges, source), st.groupCount);
    var added := st.edges + [NewEdge(st, source, target)];
    var edges := if |EdgesFrom(added, source)| > 1 then Promote(added, source, choice.text) else added;
    var labels := if source != "" then EdgeLabels.Update(st.labels, source, choice.text) else st.labels;
    st.(edges := edges, edgeCount := st.edgeCount + 1, groupCount := choice.groupCount,
        labels := labels, connecting := false)
  }

  /** The label rule: no siblings gives the bare prefix; a first sibling with
      a non-generic label passes it on; otherwise the counter grows by one
      exactly when no sibling is animated yet, and the label names the
      counter. The label is never empty and the counter grows by at most one. */
  lemma ChooseLabelSpec(siblings: seq<Edge>, groupCount: nat)
    ensures var r := ChooseLabel(siblings, groupCount);
            && r.text != ""
            && (r.groupCount == groupCount || r.groupCount == groupCount + 1)
            && (|siblings| == 0 ==> r.text == GroupPrefix && r.groupCount == groupCount)
            && (|siblings| > 0 && siblings[0].condLabel != "" && !StartsWith(siblings[0].condLabel, GroupPrefix) ==>
                  r.text == siblings[0].condLabel && r.groupCount == groupCount)
            && (|siblings| > 0 && (siblings[0].condLabel == "" || StartsWith(siblings[0].condLabel, GroupPrefix)) ==>
                  && r.text == GroupPrefix + "_" + NatToString(r.groupCount)
                  && (r.groupCount == groupCount + 1 <==> forall k :: 0 <= k < |siblings| ==> !siblings[k].animated))
  {
  }

  /** Distinct counter values name distinct groups. */
  lemma {:induction false} MintedLabelsDistinct(a: nat, b: nat)
    ensures GroupPrefix + "_" + NatToString(a) == GroupPrefix + "_" + NatToString(b) <==> a == b
  {
    var pa, pb := GroupPrefix + "_" + NatToString(a), GroupPrefix + "_" + NatToString(b);
    if pa == pb {
      assert NatToString(a) == pa[17..];
      assert NatToString(b) == pb[17..];
      NatToStringInjective(a, b);
    }
  }

  lemma {:induction false} EdgesFromAppendOne(edges: seq<Edge>, e: Edge, source: string)
    ensures |EdgesFrom(edges + [e], source)| == |EdgesFrom(edges, source)| + (if e.source == source then 1 else 0)
  {
    EdgesFromSnoc(edges, e, source);
  }

  /** The edge a connection appends. */
  function NewEdge(st: State, source: string, target: string): Edge {
    Edge(EdgeId(st.edgeCount + 1), source, target, source == target,
         ChooseLabel(EdgesFrom(st.edges, source), st.groupCount).text)
  }

  /** The promotion step runs exactly when the source already had edges. */
  lemma {:induction false} ConnectEdges(st: State, source: string, target: string)
    ensures var added := st.edges + [NewEdge(st, source, target)];
            var text := ChooseLabel(EdgesFrom(st.edges, source), st.groupCount).text;
            Connect(st, source, target).edges
            == if |EdgesFrom(st.edges, source)| > 0 then Promote(added, source, text) else added
  {
    EdgesFromAppendOne(st.edges, NewEdge(st, source, target), source);
  }

  /** The appended edge: next id, given endpoints, chosen label, animated
      unless it is the source's first edge and not a self-loop. */
  lemma {:induction false} ConnectAppends(st: State, source: string, target: string)
    ensures var r := Connect(st, source, target);
            var siblings := EdgesFrom(st.edges, source);
            var n := |st.edges|;
            && r.edgeCount == st.edgeCount + 1
            && |r.edges| == n + 1
            && r.edges[n].id == EdgeId(st.edgeCount + 1)
            && r.edges[n].source == source && r.edges[n].target == target
            && r.edges[n].condLabel == ChooseLabel(siblings, st.groupCount).text
            && r.edges[n].animated == (|siblings| > 0 || source == target)
  {
    var e := NewEdge(st, source, target);
    var text := ChooseLabel(EdgesFrom(st.edges, source), st.groupCount).text;
    var promote := |EdgesFrom(st.edges, source)| > 0;
    var edges := if promote then Promote(st.edges + [e], source, text) else st.edges + [e];
    assert Connect(st, source, target).edges == edges by {
      ConnectEdges(st, source, target);
    }
    assert e.id == EdgeId(st.edgeCount + 1) && e.source == source && e.target == target;
    assert e.condLabel == text && e.animated == (source == target);
    PromotedLast(st.edges, e, source, text, promote);
  }

  /** The appended edge after the optional promotion of its source's edges:
      same id and endpoints, animated when promoted, labelled `text`. */
  lemma {:induction false} PromotedLast(edges: seq<Edge>, e: Edge, source: string, text: string, promote: bool)
    requires e.source == source && e.condLabel == text
    ensures var added := edges + [e];
            var r := if promote then Promote(added, source, text) else added;
            && |r| == |edges| + 1
            && r[|edges|].id == e.id && r[|edges|].source == e.source && r[|edges|].target == e.target
            && r[|edges|].condLabel == text && r[|edges|].animated == (promote || e.animated)
  {
    var added := edges + [e];
    assert added[|edges|] == e;
  }

  /** Existing edges keep id and endpoints; those from other sources are
      untouched, and without siblings nothing existing changes. */
  lemma {:induction false} ConnectKeeps(st: State, source: string, target: string)
    ensures var r := Connect(st, source, target);
            var n := |st.edges|;
            && |r.edges| == n + 1
            && (forall k :: 0 <= k < n ==>
                  r.edges[k].id == st.edges[k].id && r.edges[k].source == st.edges[k].source
                  && r.edges[k].target == st.edges[k].target)
            && (forall k :: 0 <= k < n && st.edges[k].source != source ==> r.edges[k] == st.edges[k])
            && (|EdgesFrom(st.edges, source)| == 0 ==> r.edges[..n] == st.edges)
  {
    ConnectEdges(st, source, target);
    var added := st.edges + [NewEdge(st, source, target)];
    assert added[..|st.edges|] == st.edges;
  }

  /** With siblings, every edge from the source ends animated with the
      chosen label. */
  lemma {:induction false} ConnectPromotes(st: State, source: string, target: string)
    requires |EdgesFrom(st.edges, source)| > 0
    ensures var r := Connect(st, source, target);
            forall k :: 0 <= k < |r.edges| && r.edges[k].source == source ==>
              r.edges[k].animated && r.edges[k].condLabel == ChooseLabel(EdgesFrom(st.edges, source), st.groupCount).text
  {
    ConnectEdges(st, source, target);
  }

  /** What a connection does to the edge list: one edge is appended, with
      the next edge id and the chosen label, animated only as a self-loop
      unless the source already had edges; then all of the source's edges
      are animated and share the label; edges from other sources and all
      ids, sources and targets are untouched. */
  lemma {:induction false} ConnectSpec(st: State, source: string, target: string)
    ensures var r := Connect(st, source, target);
            var siblings := EdgesFrom(st.edges, source);
            var choice := ChooseLabel(siblings, st.groupCount);
            var n := |st.edges|;
            && r.edgeCount == st.edgeCount + 1
            && |r.edges| == n + 1
            && r.edges[n].id == EdgeId(st.edgeCount + 1)
            && r.edges[n].source == source && r.edges[n].target == target
            && r.edges[n].condLabel == choice.text
            && r.edges[n].animated == (|siblings| > 0 || source == target)
            && (forall k :: 0 <= k < n ==>
                  r.edges[k].id == st.edges[k].id && r.edges[k].source == st.edges[k].source
                  && r.edges[k].target == st.edges[k].target)
            && (forall k :: 0 <= k < n && st.edges[k].source != source ==> r.edges[k] == st.edges[k])
            && (|siblings| > 0 ==> forall k :: 0 <= k <= n && r.edges[k].source == source ==>
                  r.edges[k].animated && r.edges[k].condLabel == choice.text)
            && (|siblings| == 0 ==> r.edges[..n] == st.edges)
  {
    ConnectAppends(st, source, target);
    ConnectKeeps(st, source, target);
    if |EdgesFrom(st.edges, source)| > 0 {
      ConnectPromotes(st, source, target);
    }
  }

  /** The label map records the new edge's label for its source, and the
      other state parts are as before apart from the counters. */
  lemma {:induction false} ConnectLabels(st: State, source: string, target: string)
    ensures var r := Connect(st, source, target);
            && (source != "" ==> EdgeLabels.Get(r.labels, source, "") == NewEdge(st, source, target).condLabel)
            && (forall k :: k != source ==> EdgeLabels.Get(r.labels, k, "") == EdgeLabels.Get(st.labels, k, ""))
            && r.nodes == st.nodes && r.nodeCount == st.nodeCount && !r.connecting
  {
    ChooseLabelSpec(EdgesFrom(st.edges, source), st.groupCount);
  }

  /** Any source with two or more edges has all of them animated. */
  predicate Grouped(edges: seq<Edge>) {
    forall i, j :: 0 <= i < |edges| && 0 <= j < |edges| && i != j && edges[i].source == edges[j].source ==>
      edges[i].animated
  }

  /** Connecting keeps branch groups whole: the two invariants the encoder's
      grouping relies on (siblings are animated, animated siblings share a
      condition) survive every connection. */
  lemma {:induction false} ConnectPreservesGroups(st: State, source: string, target: string)
    requires Grouped(st.edges) && SharedConditions(st.edges)
    ensures Grouped(Connect(st, source, target).edges)
    ensures SharedConditions(Connect(st, source, target).edges)
  {
    ConnectKeepsGrouped(st, source, target);
    ConnectKeepsShared(st, source, target);
  }

  /** With no sibling, the new edge is the only one leaving its source. */
  lemma {:induction false} NoSiblings(edges: seq<Edge>, source: string)
    requires |EdgesFrom(edges, source)| == 0
    ensures forall k :: 0 <= k < |edges| ==> edges[k].source != source
  {
    forall k | 0 <= k < |edges|
      ensures edges[k].source != source
    {
      assert edges[k] !in EdgesFrom(edges, source);
    }
  }

  lemma {:induction false} ConnectKeepsGrouped(st: State, source: string, target: string)
    requires Grouped(st.edges)
    ensures Grouped(Connect(st, source, target).edges)
  {
    var r := Connect(st, source, target);
    var siblings := EdgesFrom(st.edges, source);
    ConnectSpec(st, source, target);
    if |siblings| == 0 {
      NoSiblings(st.edges, source);
    }
    forall i, j | 0 <= i < |r.edges| && 0 <= j < |r.edges| && i != j && r.edges[i].source == r.edges[j].source
      ensures r.edges[i].animated
    {
      if r.edges[i].source != source {
        assert r.edges[i] == st.edges[i] && r.edges[j] == st.edges[j];
      } else {
        assert |siblings| > 0;
      }
    }
  }

  lemma {:induction false} ConnectKeepsShared(st: State, source: string, target: string)
    requires Grouped(st.edges) && SharedConditions(st.edges)
    ensures SharedConditions(Connect(st, source, target).edges)
  {
    var r := Connect(st, source, target);
    ConnectSpec(st, source, target);
    ConnectSourceLabels(st, source, target);
    SharedOneSource(st.edges, r.edges, source, ChooseLabel(EdgesFrom(st.edges, source), st.groupCount).text);
  }

  /** After connecting, every animated edge of `source` carries the chosen
      label. */
  lemma {:induction false} ConnectSourceLabels(st: State, source: string, target: string)
    ensures var r := Connect(st, source, target);
            var text := ChooseLabel(EdgesFrom(st.edges, source), st.groupCount).text;
            forall k :: 0 <= k < |r.edges| && r.edges[k].source == source && r.edges[k].animated ==>
              r.edges[k].condLabel == text
  {
    ConnectSpec(st, source, target);
    if |EdgesFrom(st.edges, source)| == 0 {
      NoSiblings(st.edges, source);
    }
  }

  /** Edges of other sources unchanged and the animated edges of `source`
      all labelled alike keep the shared-condition invariant. */
  lemma {:induction false} SharedOneSource(before: seq<Edge>, after: seq<Edge>, source: string, text: string)
    requires SharedConditions(before) && |after| == |before| + 1
    requires after[|before|].source == source
    requires forall k :: 0 <= k < |before| && after[k].source != source ==> after[k] == before[k]
    requires forall k :: 0 <= k < |after| && after[k].source == source && after[k].animated ==>
               after[k].condLabel == text
    ensures SharedConditions(after)
  {
    forall i, j | 0 <= i < |after| && 0 <= j < |after| && after[i].animated && after[j].animated
                  && after[i].source == after[j].source
      ensures after[i].condLabel == after[j].condLabel
    {
      if after[i].source != source {
        assert after[i] == before[i] && after[j] == before[j];
      }
    }
  }

  /** Every edge id minted from now on (`edge-n` for n beyond the counter) is
      still unused. */
  ghost predicate EdgeIdsBelow(edges: seq<Edge>, count: nat) {
    forall k, n: nat :: 0 <= k < |edges| && n > count ==> edges[k].id != EdgeId(n)
  }

  /** Under that invariant the connected edge's id is new, and the invariant
      holds again afterwards. */
  lemma {:induction false} ConnectFreshId(st: State, source: string, target: string)
    requires EdgeIdsBelow(st.edges, st.edgeCount)
    ensures var r := Connect(st, source, target);
            && (forall k :: 0 <= k < |st.edges| ==> st.edges[k].id != r.edges[|st.edges|].id)
            && EdgeIdsBelow(r.edges, r.edgeCount)
  {
    var r := Connect(st, source, target);
    ConnectSpec(st, source, target);
    MintedIdStep(st.edges, r.edges, st.edgeCount);
  }

  /** Appending an edge with the next minted id to edges that keep their
      ids: the new id is unused and the invariant moves to the next count. */
  lemma {:induction false} MintedIdStep(before: seq<Edge>, after: seq<Edge>, count: nat)
    requires EdgeIdsBelow(before, count)
    requires |after| == |before| + 1 && after[|before|].id == EdgeId(count + 1)
    requires forall k :: 0 <= k < |before| ==> after[k].id == before[k].id
    ensures forall k :: 0 <= k < |before| ==> before[k].id != after[|before|].id
    ensures EdgeIdsBelow(after, count + 1)
  {
    forall k, n: nat | 0 <= k < |after| && n > count + 1
      ensures after[k].id != EdgeId(n)
    {
      if k == |before| {
        EdgeIdShapes(count + 1, 0, n, 0);
      }
    }
  }

  // ---------------------------------------------------------------------------
  // addNode

  /** `addNode` at a canvas position. While a connection is being drawn the
      click only ends it; otherwise a selected step `node-(k+1)` labelled
      `Node (k+1)` is appended. */
  function AddNode(st: State, pos: Pos): State {
    if st.connecting then st.(connecting := false)
    else
      var k := st.nodeCount + 1;
      st.(nodes := st.nodes + [Node(StepId(k), Step, "Node " + NatToString(k), pos, true)], nodeCount := k)
  }

  /** Every node id minted from now on is still unused. */
  ghost predicate NodeIdsBelow(nodes: seq<Node>, count: nat) {
    forall k, n: nat :: 0 <= k < |nodes| && n > count ==> nodes[k].id != StepId(n)
  }

  /** Adding a node mints an id no existing node has, bumps the counter by
      one, changes nothing else, and keeps the invariant. */
  lemma {:induction false} AddNodeFresh(st: State, pos: Pos)
    requires NodeIdsBelow(st.nodes, st.nodeCount)
    ensures var r := AddNode(st, pos);
            && NodeIdsBelow(r.nodes, r.nodeCount)
            && (st.connecting ==> r == st.(connecting := false))
            && (!st.connecting ==>
                  && |r.nodes| == |st.nodes| + 1 && r.nodes[..|st.nodes|] == st.nodes
                  && r.nodeCount == st.nodeCount + 1
                  && r.nodes[|st.nodes|] == Node(StepId(r.nodeCount), Step, "Node " + NatToString(r.nodeCount), pos, true)
                  && (forall k :: 0 <= k < |st.nodes| ==> st.nodes[k].id != r.nodes[|st.nodes|].id)
                  && r.(nodes := st.nodes, nodeCount := st.nodeCount) == st)
  {
    var r := AddNode(st, pos);
    if !st.connecting {
      forall k, n: nat | 0 <= k < |r.nodes| && n > r.nodeCount
        ensures r.nodes[k].id != StepId(n)
      {
        if k == |st.nodes| {
          StepIdInjective(r.nodeCount, n);
        }
      }
    }
  }

  /** The rebuilt nodes leave every id beyond the decoded count free. */
  lemma {:induction false} DecodedNodeIdsBelow(ys: seq<YamlNode>)
    ensures NodeIdsBelow(DecodeNodes(ys), |ys|)
  {
    var ns := DecodeNodes(ys);
    forall k, n: nat | 0 <= k < |ns| && n > |ys|
      ensures ns[k].id != StepId(n)
    {
      if k >= 2 {
        StepIdInjective(k - 1, n);
      } else {
        StepIdNotReserved(n);
      }
    }
  }

  // ---------------------------------------------------------------------------
  // onEdgeClick

  /** Ctrl-click on the edge with id `id`: flip `animated` of every edge
      carrying that id. */
  function ToggleEdge(edges: seq<Edge>, id: string): (r: seq<Edge>)
    ensures |r| == |edges|
  {
    seq(|edges|, k requires 0 <= k < |edges| =>
      if edges[k].id == id then edges[k].(animated := !edges[k].animated) else edges[k])
  }

  /** Only the clicked edge's flag changes, and clicking twice restores the
      list. */
  lemma ToggleEdgeSpec(edges: seq<Edge>, id: string)
    ensures forall k :: 0 <= k < |edges| && edges[k].id != id ==> ToggleEdge(edges, id)[k] == edges[k]
    ensures forall k :: 0 <= k < |edges| && edges[k].id == id ==>
              ToggleEdge(edges, id)[k].animated == !edges[k].animated
              && ToggleEdge(edges, id)[k].(animated := edges[k].animated) == edges[k]
    ensures ToggleEdge(ToggleEdge(edges, id), id) == edges
  {
  }

  // ---------------------------------------------------------------------------
  // hasValidSourceToEndPath

  function HasValidSourceToEndPath(nodes: seq<Node>, edges: seq<Edge>): bool {
    if |edges| == 0 then false
    else
      var entry := Find(nodes, (n: Node) => n.kind == Entry);
      var terminal := Find(nodes, (n: Node) => n.kind == Terminal);
      if entry.None? || terminal.None? then false
      else EdgeLeaves(edges, entry.value.id) && EdgeEnters(edges, terminal.value.id)
  }

  /** `edges.some((edge) => edge.source === id)` */
  predicate EdgeLeaves(edges: seq<Edge>, id: string) {
    exists k :: 0 <= k < |edges| && edges[k].source == id
  }

  /** `edges.some((edge) => edge.target === id)` */
  predicate EdgeEnters(edges: seq<Edge>, id: string) {
    exists k :: 0 <= k < |edges| && edges[k].target == id
  }

  /** `nodes[i]` is the first node of `kind`. */
  predicate FirstOfKind(nodes: seq<Node>, i: nat, kind: NodeKind) {
    i < |nodes| && nodes[i].kind == kind && forall m :: 0 <= m < i ==> nodes[m].kind != kind
  }

  lemma {:induction false} FindKind(nodes: seq<Node>, kind: NodeKind) returns (i: nat)
    requires exists k :: 0 <= k < |nodes| && nodes[k].kind == kind
    ensures FirstOfKind(nodes, i, kind)
    ensures Find(nodes, (n: Node) => n.kind == kind) == Some(nodes[i])
    ensures forall j: nat :: FirstOfKind(nodes, j, kind) ==> j == i
  {
    var r := Find(nodes, (n: Node) => n.kind == kind);
    i :| 0 <= i < |nodes| && nodes[i] == r.value && nodes[i].kind == kind
         && forall m :: 0 <= m < i ==> nodes[m].kind != kind;
    forall j: nat | FirstOfKind(nodes, j, kind)
      ensures j == i
    {
      assert !(j < i) && !(i < j);
    }
  }

  /** The check holds exactly when both reserved kinds exist, some edge
      leaves the first Entry node and some edge enters the first Terminal
      node. */
  lemma {:induction false} ValidPathSpec(nodes: seq<Node>, edges: seq<Edge>)
    ensures HasValidSourceToEndPath(nodes, edges) <==>
              exists i: nat, j: nat :: FirstOfKind(nodes, i, Entry) && FirstOfKind(nodes, j, Terminal)
                && EdgeLeaves(edges, nodes[i].id) && EdgeEnters(edges, nodes[j].id)
  {
    if (exists k :: 0 <= k < |nodes| && nodes[k].kind == Entry)
       && (exists k :: 0 <= k < |nodes| && nodes[k].kind == Terminal) {
      var i := FindKind(nodes, Entry);
      var j := FindKind(nodes, Terminal);
      if HasValidSourceToEndPath(nodes, edges) {
        assert FirstOfKind(nodes, i, Entry) && FirstOfKind(nodes, j, Terminal);
      }
    }
  }

  /** The check is not reachability: Entry→A and B→Terminal pass it though
      no path leads from Entry to Terminal. */
  lemma {:induction false} ValidPathIsNotReachability()
    ensures var nodes := [Node("source", Entry, "source", Pos(0.0, 0.0), false),
                          Node("end", Terminal, "end", Pos(0.0, 600.0), false),
                          Node("a", Step, "A", Pos(0.0, 0.0), false),
                          Node("b", Step, "B", Pos(0.0, 0.0), false)];
            var edges := [Edge("e1", "source", "a", false, ""), Edge("e2", "b", "end", false, "")];
            HasValidSourceToEndPath(nodes, edges)
            && forall k :: 0 <= k < |edges| ==> edges[k].source != "a"
  {
    var nodes := [Node("source", Entry, "source", Pos(0.0, 0.0), false),
                  Node("end", Terminal, "end", Pos(0.0, 600.0), false),
                  Node("a", Step, "A", Pos(0.0, 0.0), false),
                  Node("b", Step, "B", Pos(0.0, 0.0), false)];
    var edges := [Edge("e1", "source", "a", false, ""), Edge("e2", "b", "end", false, "")];
    assert Find(nodes, (n: Node) => n.kind == Entry) == Some(nodes[0]);
    assert Find(nodes, (n: Node) => n.kind == Terminal) == Some(nodes[1]);
    assert edges[0].source == "source" && edges[1].target == "end";
  }

  // ---------------------------------------------------------------------------
  // The grouping example

  lemma {:induction false} StartsWithPrefix(suffix: string)
    ensures StartsWith(GroupPrefix + suffix, GroupPrefix)
  {
    assert (GroupPrefix + suffix)[..|GroupPrefix|] == GroupPrefix;
  }

  /** A first edge from `a` to another node: plain, labelled with the bare
      prefix, and the only edge from `a`. */
  lemma {:induction false} FirstConnect(st: State, a: string, b: string)
    requires a != b
    requires forall k :: 0 <= k < |st.edges| ==> st.edges[k].source != a
    ensures var s1 := Connect(st, a, b);
            && s1.groupCount == st.groupCount
            && EdgesFrom(s1.edges, a) == [s1.edges[|st.edges|]]
            && !s1.edges[|st.edges|].animated && s1.edges[|st.edges|].condLabel == GroupPrefix
  {
    var s1 := Connect(st, a, b);
    EdgesFromAbsent(st.edges, a);
    ConnectAppends(st, a, b);
    ConnectKeeps(st, a, b);
    ChooseLabelSpec([], st.groupCount);
    assert s1.edges == st.edges + [s1.edges[|st.edges|]];
    EdgesFromSnoc(st.edges, s1.edges[|st.edges|], a);
  }

  /** A second edge from `a` while the first is plain and generic: the
      counter grows by one and both edges carry the minted label. */
  lemma {:induction false} SecondConnect(s1: State, a: string, c: string, e: Edge)
    requires EdgesFrom(s1.edges, a) == [e] && !e.animated && e.condLabel == GroupPrefix
    ensures var s2 := Connect(s1, a, c);
            && s2.groupCount == s1.groupCount + 1
            && forall k :: 0 <= k < |s2.edges| && s2.edges[k].source == a ==>
                 s2.edges[k].animated && s2.edges[k].condLabel == GroupPrefix + "_" + NatToString(s1.groupCount + 1)
  {
    StartsWithPrefix("");
    assert GroupPrefix + "" == GroupPrefix;
    ChooseLabelSpec([e], s1.groupCount);
    ConnectPromotes(s1, a, c);
  }

  /** A further edge from `a` once its edges are animated with a generic
      label: nothing is minted and the label is kept. */
  lemma {:induction false} ThirdConnect(s2: State, a: string, d: string, minted: string, n: nat)
    requires minted == GroupPrefix + "_" + NatToString(n)
    requires |EdgesFrom(s2.edges, a)| > 0
    requires forall k :: 0 <= k < |s2.edges| && s2.edges[k].source == a ==>
               s2.edges[k].animated && s2.edges[k].condLabel == minted
    requires s2.groupCount == n
    ensures var s3 := Connect(s2, a, d);
            && s3.groupCount == n
            && forall k :: 0 <= k < |s3.edges| && s3.edges[k].source == a ==>
                 s3.edges[k].animated && s3.edges[k].condLabel == minted
  {
    var sib := EdgesFrom(s2.edges, a);
    assert sib[0] in s2.edges && sib[0].source == a;
    StartsWithPrefix("_" + NatToString(n));
    assert GroupPrefix + ("_" + NatToString(n)) == minted;
    ChooseLabelSpec(sib, s2.groupCount);
    ConnectPromotes(s2, a, d);
  }

  // ---------------------------------------------------------------------------
  // Replacing the graph from a specification

  /** Start-up load of the saved specification (`parsed` is None when
      nothing is saved or it does not parse): the configuration is merged,
      nodes, edges and labels are rebuilt, and the node counter is set to
      the number of step nodes. The edge counter is left as it was. */
  function LoadSaved(st: State, parsed: Option<YamlConfig>): State {
    match parsed
    case None => st
    case Some(p) =>
      var d := Decode(p, st.labels);
      st.(config := LoadConfig(p.config, st.config), nodes := d.nodes, edges := d.edges,
          nodeCount := d.nodeCount, labels := d.labels)
  }

  /** The start-up load with the edge counter set to the number of edge
      entries, past every `edge-i` the rebuilt edges can carry. */
  function LoadSavedCorrected(st: State, parsed: Option<YamlConfig>): State {
    match parsed
    case None => st
    case Some(p) => LoadSaved(st, parsed).(edgeCount := |p.edges|)
  }

  /** File import (`parsed` is None when the file does not parse, and the
      graph is then left alone): defaults fill the configuration, nodes,
      edges and labels are rebuilt, and both counters are set from what
      was rebuilt. */
  function ImportFile(st: State, parsed: Option<YamlConfig>): State {
    match parsed
    case None => st
    case Some(p) =>
      var d := Decode(p, st.labels);
      st.(config := ImportConfig(p.config, st.config), nodes := d.nodes, edges := d.edges,
          nodeCount := d.nodeCount, edgeCount := |d.edges|, labels := d.labels)
  }

  /** The file import with the edge counter set to the number of edge
      entries rather than the number of rebuilt edges. */
  function ImportFileCorrected(st: State, parsed: Option<YamlConfig>): State {
    match parsed
    case None => st
    case Some(p) => ImportFile(st, parsed).(edgeCount := |p.edges|)
  }

  /** As written, loading at start-up (edge counter 0) a specification whose
      first two entries are plain edges and then connecting two nodes mints
      `edge-1`, which the rebuilt second edge already carries. */
  lemma {:induction false} LoadThenConnectReusesId(st: State, p: YamlConfig, a: string, b: string)
    requires st.edgeCount == 0
    requires |p.edges| >= 2 && !IsBranchEntry(p.edges[0]) && !IsBranchEntry(p.edges[1])
    ensures var l := LoadSaved(st, Some(p));
            var r := Connect(l, a, b);
            && 2 <= |l.edges| && |r.edges| == |l.edges| + 1
            && r.edges[1].id == r.edges[|l.edges|].id == "edge-1"
            && !EdgeIdsBelow(l.edges, l.edgeCount)
  {
    var l := LoadSaved(st, Some(p));
    SecondPlainEdgeId(DecodeNodes(p.nodes), p.edges);
    assert l.edges == DecodeEdges(DecodeNodes(p.nodes), p.edges, 0);
    ConnectAppends(l, a, b);
    ConnectKeeps(l, a, b);
  }

  /** Two plain entries in front rebuild to `edge-0` and `edge-1`. */
  lemma {:induction false} SecondPlainEdgeId(ns: seq<Node>, ys: seq<YamlEdge>)
    requires |ys| >= 2 && !IsBranchEntry(ys[0]) && !IsBranchEntry(ys[1])
    ensures |DecodeEdges(ns, ys, 0)| >= 2 && DecodeEdges(ns, ys, 0)[1].id == "edge-1"
  {
    assert ys == [ys[0]] + ([ys[1]] + ys[2..]);
    DecodeEdgesAppend(ns, [ys[0]], [ys[1]] + ys[2..], 0);
    DecodeEdgesAppend(ns, [ys[1]], ys[2..], 1);
    DecodeEntryShape(ns, 0, ys[0]);
    DecodeEntryShape(ns, 1, ys[1]);
    assert DecodeEdges(ns, [ys[0]], 0) == DecodeEntry(ns, 0, ys[0]);
    assert DecodeEdges(ns, [ys[1]], 1) == DecodeEntry(ns, 1, ys[1]);
    assert DecodeEdges(ns, ys, 0)[1] == DecodeEntry(ns, 1, ys[1])[0];
    assert NatToString(1) == "1";
  }

  /** As written, a file import whose first two entries are branch entries
      with no paths and whose third is a plain entry rebuilds one edge,
      `edge-2`, and sets the edge counter to 1; the next connection mints
      `edge-2` again. */
  lemma {:induction false} ImportThenConnectReusesId(st: State, p: YamlConfig, a: string, b: string)
    requires |p.edges| == 3 && !IsBranchEntry(p.edges[2])
    requires IsBranchEntry(p.edges[0]) && p.edges[0].paths.value == []
    requires IsBranchEntry(p.edges[1]) && p.edges[1].paths.value == []
    ensures var l := ImportFile(st, Some(p));
            var r := Connect(l, a, b);
            && |l.edges| == 1 && l.edgeCount == 1 && |r.edges| == 2
            && r.edges[0].id == r.edges[1].id == "edge-2"
            && !EdgeIdsBelow(l.edges, l.edgeCount)
  {
    var l := ImportFile(st, Some(p));
    EmptyBranchesDecode(DecodeNodes(p.nodes), p.edges);
    assert l.edges == DecodeEdges(DecodeNodes(p.nodes), p.edges, 0);
    assert EdgeId(2) == "edge-2" by { assert NatToString(2) == "2"; }
    ConnectAppends(l, a, b);
    ConnectKeeps(l, a, b);
  }

  /** Two branch entries with no paths ahead of a plain entry rebuild only
      that entry's edge, `edge-2`. */
  lemma {:induction false} EmptyBranchesDecode(ns: seq<Node>, ys: seq<YamlEdge>)
    requires |ys| == 3 && !IsBranchEntry(ys[2])
    requires IsBranchEntry(ys[0]) && ys[0].paths.value == []
    requires IsBranchEntry(ys[1]) && ys[1].paths.value == []
    ensures |DecodeEdges(ns, ys, 0)| == 1 && DecodeEdges(ns, ys, 0)[0].id == EdgeId(2)
  {
    assert ys == [ys[0]] + ([ys[1]] + [ys[2]]);
    DecodeEdgesAppend(ns, [ys[0]], [ys[1]] + [ys[2]], 0);
    DecodeEdgesAppend(ns, [ys[1]], [ys[2]], 1);
    assert DecodeEdges(ns, [ys[0]], 0) == [];
    assert DecodeEdges(ns, [ys[1]], 1) == [];
    assert DecodeEdges(ns, [ys[2]], 2) == DecodeEntry(ns, 2, ys[2]);
  }

  /** After the corrected load or the corrected file import, every later
      minted node and edge id is unused, whatever the entries hold. */
  lemma {:induction false} ReplacedGraphFreshIds(st: State, p: YamlConfig)
    ensures var r := LoadSavedCorrected(st, Some(p));
            NodeIdsBelow(r.nodes, r.nodeCount) && EdgeIdsBelow(r.edges, r.edgeCount)
    ensures var r := ImportFileCorrected(st, Some(p));
            NodeIdsBelow(r.nodes, r.nodeCount) && EdgeIdsBelow(r.edges, r.edgeCount)
  {
    var ns := DecodeNodes(p.nodes);
    var es := DecodeEdges(ns, p.edges, 0);
    DecodedNodeIdsBelow(p.nodes);
    forall k, n: nat | 0 <= k < |es| && n > |p.edges|
      ensures es[k].id != EdgeId(n)
    {
      DecodedEdgeIdsFree(ns, p.edges, 0, n);
    }
  }

  /** The file import as written also leaves every later id unused when each
      branch entry lists a path, since there are then at least as many
      rebuilt edges as entries. */
  lemma {:induction false} ImportFreshIds(st: State, p: YamlConfig)
    requires PathsNonEmpty(p.edges)
    ensures var r := ImportFile(st, Some(p));
            NodeIdsBelow(r.nodes, r.nodeCount) && EdgeIdsBelow(r.edges, r.edgeCount)
  {
    var ns := DecodeNodes(p.nodes);
    var es := DecodeEdges(ns, p.edges, 0);
    DecodedNodeIdsBelow(p.nodes);
    DecodeEdgesLength(ns, p.edges, 0);
    forall k, n: nat | 0 <= k < |es| && n > |es|
      ensures es[k].id != EdgeId(n)
    {
      DecodedEdgeIdsFree(ns, p.edges, 0, n);
    }
  }

  /** Any graph the editor saves satisfies that proviso, so re-importing it
      restores fresh counters. */
  lemma {:induction false} ImportEncodedFreshIds(st: State, nodes: seq<Node>, edges: seq<Edge>, config: Config)
    ensures var r := ImportFile(st, Some(Encode(nodes, edges, config)));
            NodeIdsBelow(r.nodes, r.nodeCount) && EdgeIdsBelow(r.edges, r.edgeCount)
  {
    EncodedPathsNonEmpty(nodes, edges);
    ImportFreshIds(st, Encode(nodes, edges, config));
  }

  /** Importing the specification the encoder built, as the parsed
      structure handed to the import (the text itself is not re-read here),
      restores the edges as the multiset of their views, and the
      configuration when it is complete with a supported language. */
  lemma {:induction false} ImportRoundTrip(st: State, nodes: seq<Node>, edges: seq<Edge>, config: Config)
    requires Ready(nodes, edges)
    requires Complete(config) && SupportedLanguage(config.language)
    ensures var r := ImportFile(st, Some(Encode(nodes, edges, config)));
            && multiset(Views(r.nodes, r.edges)) == multiset(Views(nodes, edges))
            && r.config == config
    ensures var r := LoadSavedCorrected(st, Some(Encode(nodes, edges, config)));
            && multiset(Views(r.nodes, r.edges)) == multiset(Views(nodes, edges))
            && r.config == config
  {
    RoundTripViews(nodes, edges, config, st.labels);
    ConfigRoundTrip(config, st.config);
  }

  // ---------------------------------------------------------------------------
  // Clear Graph

  /** The Clear Graph button: once confirmed, the canvas goes back to the
      initial nodes and edges and every stored label is overwritten with ""
      (`keys` is `Object.keys(edgeLabels)`); the configuration and the three
      counters are left as they were. */
  function ClearGraph(st: State, confirmed: bool, initialNodes: seq<Node>, initialEdges: seq<Edge>,
                      keys: seq<string>): State
  {
    if !confirmed then st
    else st.(nodes := initialNodes, edges := initialEdges, labels := EdgeLabels.ClearKeys(st.labels, keys))
  }

  /** After a confirmed clear every label lookup falls back to its default,
      no label key is lost, and only nodes, edges and labels change. */
  lemma {:induction false} ClearGraphSpec(st: State, initialNodes: seq<Node>, initialEdges: seq<Edge>, keys: seq<string>,
                       source: string, default: string)
    requires forall k :: k in st.labels <==> k in keys
    ensures var r := ClearGraph(st, true, initialNodes, initialEdges, keys);
            && r.nodes == initialNodes && r.edges == initialEdges
            && r.labels.Keys == st.labels.Keys
            && EdgeLabels.Get(r.labels, source, default) == default
            && r.(nodes := st.nodes, edges := st.edges, labels := st.labels) == st
    ensures ClearGraph(st, false, initialNodes, initialEdges, keys) == st
  {
    EdgeLabels.ClearKeysSpec(st.labels, keys);
    EdgeLabels.ClearAllDefaults(st.labels, keys, source, default);
  }
}

=== FILE: encoder.dfy ===
/** `generateSpec` (src/utils/yamlUtils.ts) up to the structure it serialises:
    the edge partition, the grouping of branch edges by source, the step-node
    list, the three direct passes and the branch entries. The text it prints
    is in module SpecText. */
module Encoder {
  import opened Base
  import opened Graph
  import opened Yaml

  // ---------------------------------------------------------------------------
  // Step 1: partition by the `animated` flag

  /** `edges.filter((edge) => !edge.animated)` */
  function DirectEdges(edges: seq<Edge>): seq<Edge> {
    Filter(edges, (e: Edge) => !e.animated)
  }

  /** `edges.filter((edge) => edge.animated === true)` */
  function AnimatedEdges(edges: seq<Edge>): seq<Edge> {
    Filter(edges, (e: Edge) => e.animated)
  }

  /** Every edge lands in exactly one of the two lists, and together they
      hold each edge as often as the input does. */
  lemma {:induction false} PartitionEdges(edges: seq<Edge>)
    ensures multiset(DirectEdges(edges)) + multiset(AnimatedEdges(edges)) == multiset(edges)
    ensures forall e :: e in DirectEdges(edges) ==> !e.animated && e in edges
    ensures forall e :: e in AnimatedEdges(edges) ==> e.animated && e in edges
    ensures forall k :: 0 <= k < |edges| ==>
              (edges[k] in DirectEdges(edges) <==> !edges[k].animated) &&
              (edges[k] in AnimatedEdges(edges) <==> edges[k].animated)
  {
    FilterPartition(edges, (e: Edge) => !e.animated, (e: Edge) => e.animated);
  }

  /** Both lists keep the input's order: cutting the edge list anywhere cuts
      each list at the matching place, and a single edge goes to its own
      list alone. */
  lemma {:induction false} PartitionOrder(edges: seq<Edge>, k: nat)
    requires k <= |edges|
    ensures DirectEdges(edges) == DirectEdges(edges[..k]) + DirectEdges(edges[k..])
    ensures AnimatedEdges(edges) == AnimatedEdges(edges[..k]) + AnimatedEdges(edges[k..])
    ensures k < |edges| ==> DirectEdges([edges[k]]) == (if edges[k].animated then [] else [edges[k]])
    ensures k < |edges| ==> AnimatedEdges([edges[k]]) == (if edges[k].animated then [edges[k]] else [])
  {
    assert edges == edges[..k] + edges[k..];
    FilterAppend(edges[..k], edges[k..], (e: Edge) => !e.animated);
    FilterAppend(edges[..k], edges[k..], (e: Edge) => e.animated);
    if k < |edges| {
      FilterLast([edges[k]], (e: Edge) => !e.animated);
      FilterLast([edges[k]], (e: Edge) => e.animated);
    }
  }

  // ---------------------------------------------------------------------------
  // Step 2: group branch edges by source, in order of first appearance

  datatype Group = Group(source: string, members: seq<Edge>)

  function SourceIds(edges: seq<Edge>): (r: seq<string>)
    ensures |r| == |edges|
    ensures forall k :: 0 <= k < |edges| ==> r[k] == edges[k].source
  {
    seq(|edges|, k requires 0 <= k < |edges| => edges[k].source)
  }

  function GroupSources(gs: seq<Group>): (r: seq<string>)
    ensures |r| == |gs|
    ensures forall k :: 0 <= k < |gs| ==> r[k] == gs[k].source
  {
    seq(|gs|, k requires 0 <= k < |gs| => gs[k].source)
  }

  function GroupMembers(gs: seq<Group>): (r: seq<seq<Edge>>)
    ensures |r| == |gs|
    ensures forall k :: 0 <= k < |gs| ==> r[k] == gs[k].members
  {
    seq(|gs|, k requires 0 <= k < |gs| => gs[k].members)
  }

  /** The edges leaving `source`, in stored order. */
  function EdgesFrom(edges: seq<Edge>, source: string): seq<Edge> {
    Filter(edges, (e: Edge) => e.source == source)
  }

  /** Index of the group for `source`, if one exists. */
  function GroupIndex(gs: seq<Group>, source: string): (r: Option<nat>)
    ensures r.Some? ==> r.value < |gs| && gs[r.value].source == source
    ensures r.None? ==> source !in GroupSources(gs)
  {
    if |gs| == 0 then None
    else if gs[|gs| - 1].source == source then Some(|gs| - 1)
    else
      var r := GroupIndex(gs[..|gs| - 1], source);
      assert GroupSources(gs[..|gs| - 1]) == GroupSources(gs)[..|gs| - 1];
      r
  }

  /** One step of the `forEach` that fills `animatedEdgesBySource`. */
  function AddToGroups(gs: seq<Group>, e: Edge): seq<Group> {
    match GroupIndex(gs, e.source)
    case None => gs + [Group(e.source, [e])]
    case Some(i) => gs[i := Group(e.source, gs[i].members + [e])]
  }

  function GroupBySource(edges: seq<Edge>): seq<Group> {
    if |edges| == 0 then []
    else AddToGroups(GroupBySource(edges[..|edges| - 1]), edges[|edges| - 1])
  }

  /** The group sources are the distinct sources of the edges, in order of
      first appearance. */
  lemma {:induction false} GroupSourcesSpec(edges: seq<Edge>)
    ensures GroupSources(GroupBySource(edges)) == Dedup(SourceIds(edges))
    decreases |edges|
  {
    if |edges| > 0 {
      var n := |edges| - 1;
      var pre := edges[..n];
      var e := edges[n];
      GroupSourcesSpec(pre);
      var gs := GroupBySource(pre);
      assert SourceIds(edges)[..n] == SourceIds(pre);
      match GroupIndex(gs, e.source)
      case None =>
        assert GroupSources(gs + [Group(e.source, [e])]) == GroupSources(gs) + [e.source];
      case Some(i) =>
        assert GroupSources(gs[i := Group(e.source, gs[i].members + [e])]) == GroupSources(gs);
    }
  }

  lemma {:induction false} EdgesFromSnoc(pre: seq<Edge>, e: Edge, s: string)
    ensures EdgesFrom(pre + [e], s) == EdgesFrom(pre, s) + (if e.source == s then [e] else [])
  {
    FilterAppend(pre, [e], (x: Edge) => x.source == s);
  }

  lemma {:induction false} EdgesFromAbsent(edges: seq<Edge>, s: string)
    requires forall k :: 0 <= k < |edges| ==> edges[k].source != s
    ensures EdgesFrom(edges, s) == []
    decreases |edges|
  {
    if |edges| > 0 {
      EdgesFromAbsent(edges[1..], s);
    }
  }

  /** Each group holds exactly its source's edges, in stored order. */
  lemma {:induction false} GroupMembersSpec(edges: seq<Edge>)
    ensures forall k :: 0 <= k < |GroupBySource(edges)| ==>
              GroupBySource(edges)[k].members == EdgesFrom(edges, GroupBySource(edges)[k].source)
    decreases |edges|
  {
    if |edges| > 0 {
      var n := |edges| - 1;
      var pre := edges[..n];
      var e := edges[n];
      assert edges == pre + [e];
      GroupMembersSpec(pre);
      GroupSourcesSpec(pre);
      DedupSpec(SourceIds(pre));
      var gs := GroupBySource(pre);
      match GroupIndex(gs, e.source)
      case None =>
        assert e.source !in SourceIds(pre);
        assert forall k :: 0 <= k < |pre| ==> SourceIds(pre)[k] == pre[k].source;
        EdgesFromAbsent(pre, e.source);
        NewGroupMembers(pre, gs, e);
      case Some(i) =>
        JoinGroupMembers(pre, gs, e, i);
    }
  }

  /** A fresh source gets a new group at the end holding just the edge. */
  lemma {:induction false} NewGroupMembers(pre: seq<Edge>, gs: seq<Group>, e: Edge)
    requires forall k :: 0 <= k < |gs| ==> gs[k].members == EdgesFrom(pre, gs[k].source)
    requires e.source !in GroupSources(gs)
    requires EdgesFrom(pre, e.source) == []
    ensures var r := gs + [Group(e.source, [e])];
            forall k :: 0 <= k < |r| ==> r[k].members == EdgesFrom(pre + [e], r[k].source)
  {
    var r := gs + [Group(e.source, [e])];
    EdgesFromSnoc(pre, e, e.source);
    forall k | 0 <= k < |gs|
      ensures r[k].members == EdgesFrom(pre + [e], r[k].source)
    {
      EdgesFromSnoc(pre, e, gs[k].source);
      assert GroupSources(gs)[k] == gs[k].source;
    }
  }

  /** A known source's group gains the edge at its end; the other groups,
      whose sources differ, are unchanged. */
  lemma {:induction false} JoinGroupMembers(pre: seq<Edge>, gs: seq<Group>, e: Edge, i: nat)
    requires forall k :: 0 <= k < |gs| ==> gs[k].members == EdgesFrom(pre, gs[k].source)
    requires NoDuplicates(GroupSources(gs))
    requires i < |gs| && gs[i].source == e.source
    ensures var r := gs[i := Group(e.source, gs[i].members + [e])];
            forall k :: 0 <= k < |r| ==> r[k].members == EdgesFrom(pre + [e], r[k].source)
  {
    var r := gs[i := Group(e.source, gs[i].members + [e])];
    forall k | 0 <= k < |r|
      ensures r[k].members == EdgesFrom(pre + [e], r[k].source)
    {
      EdgesFromSnoc(pre, e, gs[k].source);
      if k != i {
        assert GroupSources(gs)[k] != GroupSources(gs)[i];
      }
    }
  }

  /** Together the groups hold every edge exactly once. */
  lemma {:induction false} GroupPermutation(edges: seq<Edge>)
    ensures multiset(Flatten(GroupMembers(GroupBySource(edges)))) == multiset(edges)
    decreases |edges|
  {
    if |edges| > 0 {
      var n := |edges| - 1;
      var pre := edges[..n];
      assert edges == pre + [edges[n]];
      GroupPermutation(pre);
      AddToGroupsMembers(GroupBySource(pre), edges[n]);
    }
  }

  /** Adding one edge to the groups adds exactly that edge to their members. */
  lemma {:induction false} AddToGroupsMembers(gs: seq<Group>, e: Edge)
    ensures multiset(Flatten(GroupMembers(AddToGroups(gs, e))))
            == multiset(Flatten(GroupMembers(gs))) + multiset{e}
  {
    match GroupIndex(gs, e.source)
    case None =>
      assert GroupMembers(gs + [Group(e.source, [e])]) == GroupMembers(gs) + [[e]];
      FlattenAppend(GroupMembers(gs), [[e]]);
      assert Flatten([[e]]) == [e];
    case Some(i) =>
      assert GroupMembers(gs[i := Group(e.source, gs[i].members + [e])])
          == GroupMembers(gs)[i := gs[i].members + [e]];
      FlattenUpdate(GroupMembers(gs), i, e);
  }

  lemma {:induction false} FlattenUpdate(xss: seq<seq<Edge>>, i: nat, e: Edge)
    requires i < |xss|
    ensures multiset(Flatten(xss[i := xss[i] + [e]])) == multiset(Flatten(xss)) + multiset{e}
    decreases |xss|
  {
    var yss := xss[i := xss[i] + [e]];
    var rest := Flatten(xss[1..]);
    if i == 0 {
      assert yss[1..] == xss[1..];
      BagSnocMiddle(xss[0], rest, e);
    } else {
      assert yss[1..] == xss[1..][i - 1 := xss[i] + [e]];
      FlattenUpdate(xss[1..], i - 1, e);
      BagConcatAdd(xss[0], Flatten(yss[1..]), rest, e);
    }
  }

  // ---------------------------------------------------------------------------
  // Step 3: the list of step-node names

  /** A node whose label enters the `nodes` list: present, neither 'source'
      nor 'end', with a non-empty label. */
  predicate IsNamedStep(n: Option<Node>) {
    n.Some? && n.value.kind == Step && n.value.name != ""
  }

  /** The labels one edge contributes, source before target. */
  function EdgeNameCandidates(nodes: seq<Node>, e: Edge): seq<string> {
    var s := NodeById(nodes, e.source);
    var t := NodeById(nodes, e.target);
    (if IsNamedStep(s) then [s.value.name] else []) + (if IsNamedStep(t) then [t.value.name] else [])
  }

  function NameCandidates(nodes: seq<Node>, edges: seq<Edge>): seq<string> {
    if |edges| == 0 then []
    else EdgeNameCandidates(nodes, edges[0]) + NameCandidates(nodes, edges[1..])
  }

  /** The `nodeNames` set, in insertion order. */
  function NodeNames(nodes: seq<Node>, edges: seq<Edge>): seq<string> {
    Dedup(NameCandidates(nodes, edges))
  }

  /** `x` is the label of a named step at an endpoint of some edge. */
  predicate TouchedStepLabel(nodes: seq<Node>, edges: seq<Edge>, x: string) {
    exists k :: 0 <= k < |edges| &&
      ((IsNamedStep(NodeById(nodes, edges[k].source)) && NodeById(nodes, edges[k].source).value.name == x) ||
       (IsNamedStep(NodeById(nodes, edges[k].target)) && NodeById(nodes, edges[k].target).value.name == x))
  }

  lemma {:induction false} NameCandidatesSpec(nodes: seq<Node>, edges: seq<Edge>)
    ensures forall x :: x in NameCandidates(nodes, edges) <==> TouchedStepLabel(nodes, edges, x)
    decreases |edges|
  {
    if |edges| > 0 {
      NameCandidatesSpec(nodes, edges[1..]);
      forall x
        ensures x in NameCandidates(nodes, edges) <==> TouchedStepLabel(nodes, edges, x)
      {
        if TouchedStepLabel(nodes, edges[1..], x) {
          var k :| 0 <= k < |edges[1..]| &&
            ((IsNamedStep(NodeById(nodes, edges[1..][k].source)) && NodeById(nodes, edges[1..][k].source).value.name == x) ||
             (IsNamedStep(NodeById(nodes, edges[1..][k].target)) && NodeById(nodes, edges[1..][k].target).value.name == x));
          assert edges[k + 1] == edges[1..][k];
        }
        if TouchedStepLabel(nodes, edges, x) {
          var k :| 0 <= k < |edges| &&
            ((IsNamedStep(NodeById(nodes, edges[k].source)) && NodeById(nodes, edges[k].source).value.name == x) ||
             (IsNamedStep(NodeById(nodes, edges[k].target)) && NodeById(nodes, edges[k].target).value.name == x));
          if k > 0 {
            assert edges[1..][k - 1] == edges[k];
          }
        }
      }
    }
  }

  /** The `nodes` list has no duplicates, holds exactly the non-empty labels
      of step nodes at an endpoint of some edge, and lists them in order of
      first occurrence scanning edges in order, source before target. */
  lemma {:induction false} NodeNamesSpec(nodes: seq<Node>, edges: seq<Edge>)
    ensures NoDuplicates(NodeNames(nodes, edges))
    ensures forall x :: x in NodeNames(nodes, edges) <==> x in NameCandidates(nodes, edges)
    ensures forall x :: x in NodeNames(nodes, edges) <==> TouchedStepLabel(nodes, edges, x)
    ensures forall x :: x in NodeNames(nodes, edges) ==> x != ""
    ensures forall i, j :: 0 <= i < j < |NodeNames(nodes, edges)| ==>
              FirstPos(NameCandidates(nodes, edges), NodeNames(nodes, edges)[i]) <
              FirstPos(NameCandidates(nodes, edges), NodeNames(nodes, edges)[j])
  {
    DedupSpec(NameCandidates(nodes, edges));
    NameCandidatesSpec(nodes, edges);
  }

  // ---------------------------------------------------------------------------
  // Step 4: the entries

  predicate SourceIsEntry(nodes: seq<Node>, e: Edge) {
    HasKind(NodeById(nodes, e.source), Entry)
  }

  predicate TargetIsTerminal(nodes: seq<Node>, e: Edge) {
    HasKind(NodeById(nodes, e.target), Terminal)
  }

  /** First pass: direct edges leaving the Entry node. */
  function FromEntry(nodes: seq<Node>, direct: seq<Edge>): seq<Edge> {
    Filter(direct, (e: Edge) => SourceIsEntry(nodes, e))
  }

  /** Second pass: direct edges entering the Terminal node. */
  function IntoTerminal(nodes: seq<Node>, direct: seq<Edge>): seq<Edge> {
    Filter(direct, (e: Edge) => TargetIsTerminal(nodes, e))
  }

  /** Third pass: the remaining direct edges. */
  function BetweenSteps(nodes: seq<Node>, direct: seq<Edge>): seq<Edge> {
    Filter(direct, (e: Edge) => !SourceIsEntry(nodes, e) && !TargetIsTerminal(nodes, e))
  }

  /** `{ from: '__start__', to: targetNode?.data?.label || '' }`: the target's
      raw label, even when the target is the Terminal node. */
  function StartEntry(nodes: seq<Node>, e: Edge): YamlEdge {
    DirectEntry("__start__", LabelOr(NodeById(nodes, e.target)))
  }

  function EndEntry(nodes: seq<Node>, e: Edge): YamlEdge {
    DirectEntry(LabelOr(NodeById(nodes, e.source)), "__end__")
  }

  function StepEntry(nodes: seq<Node>, e: Edge): YamlEdge {
    DirectEntry(LabelOr(NodeById(nodes, e.source)), LabelOr(NodeById(nodes, e.target)))
  }

  function StartEntries(nodes: seq<Node>, es: seq<Edge>): (r: seq<YamlEdge>)
    ensures |r| == |es|
    ensures forall k :: 0 <= k < |es| ==> r[k] == StartEntry(nodes, es[k])
  {
    seq(|es|, k requires 0 <= k < |es| => StartEntry(nodes, es[k]))
  }

  function EndEntries(nodes: seq<Node>, es: seq<Edge>): (r: seq<YamlEdge>)
    ensures |r| == |es|
    ensures forall k :: 0 <= k < |es| ==> r[k] == EndEntry(nodes, es[k])
  {
    seq(|es|, k requires 0 <= k < |es| => EndEntry(nodes, es[k]))
  }

  function StepEntries(nodes: seq<Node>, es: seq<Edge>): (r: seq<YamlEdge>)
    ensures |r| == |es|
    ensures forall k :: 0 <= k < |es| ==> r[k] == StepEntry(nodes, es[k])
  {
    seq(|es|, k requires 0 <= k < |es| => StepEntry(nodes, es[k]))
  }

  /** A branch source is written `__start__` when it is the Entry node. */
  function BranchFrom(nodes: seq<Node>, source: string): string {
    var n := NodeById(nodes, source);
    if HasKind(n, Entry) then "__start__" else LabelOr(n)
  }

  /** A path is written `__end__` when it is the Terminal node. */
  function PathName(nodes: seq<Node>, e: Edge): string {
    var n := NodeById(nodes, e.target);
    if HasKind(n, Terminal) then "__end__" else LabelOr(n)
  }

  function PathNames(nodes: seq<Node>, es: seq<Edge>): (r: seq<string>)
    ensures |r| == |es|
    ensures forall k :: 0 <= k < |es| ==> r[k] == PathName(nodes, es[k])
  {
    seq(|es|, k requires 0 <= k < |es| => PathName(nodes, es[k]))
  }

  /** `String(edges[0].label || '')`; a group is never empty. */
  function GroupCondition(members: seq<Edge>): string {
    if |members| == 0 then "" else members[0].condLabel
  }

  function BranchEntryOf(nodes: seq<Node>, g: Group): YamlEdge {
    BranchEntry(BranchFrom(nodes, g.source), GroupCondition(g.members), PathNames(nodes, g.members))
  }

  function BranchEntries(nodes: seq<Node>, gs: seq<Group>): (r: seq<YamlEdge>)
    ensures |r| == |gs|
    ensures forall k :: 0 <= k < |gs| ==> r[k] == BranchEntryOf(nodes, gs[k])
  {
    seq(|gs|, k requires 0 <= k < |gs| => BranchEntryOf(nodes, gs[k]))
  }

  lemma BranchEntriesTail(nodes: seq<Node>, gs: seq<Group>)
    requires |gs| > 0
    ensures BranchEntries(nodes, gs)[1..] == BranchEntries(nodes, gs[1..])
  {
  }

  lemma {:induction false} GroupMembersTail(gs: seq<Group>)
    requires |gs| > 0
    ensures Flatten(GroupMembers(gs)) == gs[0].members + Flatten(GroupMembers(gs[1..]))
  {
    assert GroupMembers(gs)[1..] == GroupMembers(gs[1..]);
  }

  function StartBlock(nodes: seq<Node>, edges: seq<Edge>): seq<YamlEdge> {
    StartEntries(nodes, FromEntry(nodes, DirectEdges(edges)))
  }

  function EndBlock(nodes: seq<Node>, edges: seq<Edge>): seq<YamlEdge> {
    EndEntries(nodes, IntoTerminal(nodes, DirectEdges(edges)))
  }

  function StepBlock(nodes: seq<Node>, edges: seq<Edge>): seq<YamlEdge> {
    StepEntries(nodes, BetweenSteps(nodes, DirectEdges(edges)))
  }

  function BranchBlock(nodes: seq<Node>, edges: seq<Edge>): seq<YamlEdge> {
    BranchEntries(nodes, GroupBySource(AnimatedEdges(edges)))
  }

  /** The `edges` list: the three direct passes, then one entry per branch
      group. */
  function SpecEdges(nodes: seq<Node>, edges: seq<Edge>): seq<YamlEdge> {
    StartBlock(nodes, edges) + EndBlock(nodes, edges) + StepBlock(nodes, edges) + BranchBlock(nodes, edges)
  }

  function SpecNodes(nodes: seq<Node>, edges: seq<Edge>): (r: seq<YamlNode>)
    ensures |r| == |NodeNames(nodes, edges)|
    ensures forall k :: 0 <= k < |r| ==> r[k].name == NodeNames(nodes, edges)[k]
  {
    var names := NodeNames(nodes, edges);
    seq(|names|, k requires 0 <= k < |names| => YamlNode(names[k]))
  }

  /** `generateSpec` before serialisation: `{...configValues, nodes, edges}`.
      It never fails. */
  function Encode(nodes: seq<Node>, edges: seq<Edge>, config: Config): YamlConfig {
    YamlConfig(config, SpecNodes(nodes, edges), SpecEdges(nodes, edges))
  }

  // ---------------------------------------------------------------------------
  // Properties of the entries

  /** 1 if `b` else 0. */
  function Count(b: bool): nat {
    if b then 1 else 0
  }

  predicate EntryToTerminal(nodes: seq<Node>, e: Edge) {
    SourceIsEntry(nodes, e) && TargetIsTerminal(nodes, e)
  }

  /** The three passes together emit every direct edge once, except that a
      direct Entry→Terminal edge is emitted twice (in the first and the
      second pass) and so counts twice. */
  lemma {:induction false} DirectPassCount(nodes: seq<Node>, direct: seq<Edge>)
    ensures |FromEntry(nodes, direct)| + |IntoTerminal(nodes, direct)| + |BetweenSteps(nodes, direct)|
            == |direct| + |Filter(direct, (e: Edge) => EntryToTerminal(nodes, e))|
    decreases |direct|
  {
    if |direct| > 0 {
      DirectPassCount(nodes, direct[1..]);
    }
  }

  /** The first two passes of a direct Entry→Terminal edge. */
  lemma {:induction false} EntryToTerminalTwice(nodes: seq<Node>, edges: seq<Edge>, e: Edge)
    requires e in edges && !e.animated && EntryToTerminal(nodes, e)
    ensures StartEntry(nodes, e) in SpecEdges(nodes, edges)
    ensures EndEntry(nodes, e) in SpecEdges(nodes, edges)
    ensures StartEntry(nodes, e) == DirectEntry("__start__", NodeById(nodes, e.target).value.name)
    ensures EndEntry(nodes, e) == DirectEntry(NodeById(nodes, e.source).value.name, "__end__")
  {
    var direct := DirectEdges(edges);
    var i :| 0 <= i < |edges| && edges[i] == e;
    assert e in direct;
    var a := FromEntry(nodes, direct);
    var b := IntoTerminal(nodes, direct);
    assert e in a;
    assert e in b;
    var i1 :| 0 <= i1 < |a| && a[i1] == e;
    var i2 :| 0 <= i2 < |b| && b[i2] == e;
    assert StartBlock(nodes, edges)[i1] == StartEntry(nodes, e);
    assert EndBlock(nodes, edges)[i2] == EndEntry(nodes, e);
  }

  /** Branch entries: one per distinct source of an animated edge, in order of
      first appearance; each lists that source's animated edges in stored
      order, takes its condition from the first of them, and writes the
      Entry source as `__start__` and Terminal targets as `__end__`. */
  lemma {:induction false} BranchEntriesSpec(nodes: seq<Node>, edges: seq<Edge>)
    ensures var anim := AnimatedEdges(edges);
            var srcs := Dedup(SourceIds(anim));
            var es := BranchEntries(nodes, GroupBySource(anim));
            && NoDuplicates(srcs)
            && |es| == |srcs|
            && forall k :: 0 <= k < |srcs| ==>
                 var members := EdgesFrom(anim, srcs[k]);
                 && |members| > 0
                 && es[k].from == (if SourceIsEntry(nodes, members[0]) then "__start__"
                                   else LabelOr(NodeById(nodes, srcs[k])))
                 && es[k].to.None?
                 && es[k].condition == Some(members[0].condLabel)
                 && es[k].paths == Some(PathNames(nodes, members))
  {
    var anim := AnimatedEdges(edges);
    var gs := GroupBySource(anim);
    var srcs := Dedup(SourceIds(anim));
    assert GroupSources(gs) == srcs by {
      GroupSourcesSpec(anim);
    }
    assert NoDuplicates(srcs) by {
      DedupSpec(SourceIds(anim));
    }
    GroupHeads(anim);
    GroupMembersSpec(anim);
  }

  /** Every distinct source has at least one edge leaving it, and the first
      such edge does leave it. */
  lemma {:induction false} GroupHeads(edges: seq<Edge>)
    ensures var srcs := Dedup(SourceIds(edges));
            forall k :: 0 <= k < |srcs| ==>
              |EdgesFrom(edges, srcs[k])| > 0 && EdgesFrom(edges, srcs[k])[0].source == srcs[k]
  {
    var srcs := Dedup(SourceIds(edges));
    DedupSpec(SourceIds(edges));
    forall k | 0 <= k < |srcs|
      ensures |EdgesFrom(edges, srcs[k])| > 0
      ensures EdgesFrom(edges, srcs[k])[0].source == srcs[k]
    {
      assert srcs[k] in SourceIds(edges);
      var j :| 0 <= j < |edges| && SourceIds(edges)[j] == srcs[k];
      assert edges[j] in EdgesFrom(edges, srcs[k]);
    }
  }

  /** Each branch entry lists one path per member of a non-empty group. */
  lemma {:induction false} BranchBlockPaths(nodes: seq<Node>, edges: seq<Edge>)
    ensures forall k :: 0 <= k < |BranchBlock(nodes, edges)| ==>
              IsBranchEntry(BranchBlock(nodes, edges)[k]) && |BranchBlock(nodes, edges)[k].paths.value| > 0
  {
    BranchEntriesSpec(nodes, edges);
    var anim := AnimatedEdges(edges);
    GroupSourcesSpec(anim);
    DedupSpec(SourceIds(anim));
  }

  /** The three direct passes hold no branch entry. */
  lemma DirectBlocksPlain(nodes: seq<Node>, edges: seq<Edge>)
    ensures forall k :: 0 <= k < |StartBlock(nodes, edges) + EndBlock(nodes, edges) + StepBlock(nodes, edges)| ==>
              !IsBranchEntry((StartBlock(nodes, edges) + EndBlock(nodes, edges) + StepBlock(nodes, edges))[k])
  {
  }

  lemma {:induction false} PlainThenBranches(direct: seq<YamlEdge>, branch: seq<YamlEdge>)
    requires forall k :: 0 <= k < |direct| ==> !IsBranchEntry(direct[k])
    requires forall k :: 0 <= k < |branch| ==> IsBranchEntry(branch[k]) && |branch[k].paths.value| > 0
    ensures PathsNonEmpty(direct + branch)
    ensures forall k :: 0 <= k < |direct + branch| ==> (IsBranchEntry((direct + branch)[k]) <==> k >= |direct|)
  {
    var all := direct + branch;
    forall k | 0 <= k < |all|
      ensures IsBranchEntry(all[k]) <==> k >= |direct|
    {
      if k >= |direct| {
        assert all[k] == branch[k - |direct|];
      }
    }
  }

  /** Only the branch block holds branch entries, and each of them lists at
      least one path. */
  lemma {:induction false} EncodedPathsNonEmpty(nodes: seq<Node>, edges: seq<Edge>)
    ensures PathsNonEmpty(SpecEdges(nodes, edges))
    ensures forall k :: 0 <= k < |SpecEdges(nodes, edges)| ==>
              (IsBranchEntry(SpecEdges(nodes, edges)[k]) <==>
                 k >= |SpecEdges(nodes, edges)| - |BranchBlock(nodes, edges)|)
  {
    var direct := StartBlock(nodes, edges) + EndBlock(nodes, edges) + StepBlock(nodes, edges);
    BranchBlockPaths(nodes, edges);
    DirectBlocksPlain(nodes, edges);
    PlainThenBranches(direct, BranchBlock(nodes, edges));
  }

  // ---------------------------------------------------------------------------
  // The direct passes as evidently intended

  /** The first pass with a Terminal target written `__end__`, as the branch
      paths already write it. */
  function StartEntryCorrected(nodes: seq<Node>, e: Edge): YamlEdge {
    DirectEntry("__start__", PathName(nodes, e))
  }

  function StartEntriesCorrected(nodes: seq<Node>, es: seq<Edge>): (r: seq<YamlEdge>)
    ensures |r| == |es|
    ensures forall k :: 0 <= k < |es| ==> r[k] == StartEntryCorrected(nodes, es[k])
  {
    seq(|es|, k requires 0 <= k < |es| => StartEntryCorrected(nodes, es[k]))
  }

  /** The second pass without the edges the first pass already wrote. */
  function IntoTerminalCorrected(nodes: seq<Node>, direct: seq<Edge>): seq<Edge> {
    Filter(direct, (e: Edge) => TargetIsTerminal(nodes, e) && !SourceIsEntry(nodes, e))
  }

  function StartBlockCorrected(nodes: seq<Node>, edges: seq<Edge>): seq<YamlEdge> {
    StartEntriesCorrected(nodes, FromEntry(nodes, DirectEdges(edges)))
  }

  function EndBlockCorrected(nodes: seq<Node>, edges: seq<Edge>): seq<YamlEdge> {
    EndEntries(nodes, IntoTerminalCorrected(nodes, DirectEdges(edges)))
  }

  function SpecEdgesCorrected(nodes: seq<Node>, edges: seq<Edge>): seq<YamlEdge> {
    StartBlockCorrected(nodes, edges) + EndBlockCorrected(nodes, edges) + StepBlock(nodes, edges) + BranchBlock(nodes, edges)
  }

  /** `generateSpec` with each plain edge written once. */
  function EncodeCorrected(nodes: seq<Node>, edges: seq<Edge>, config: Config): YamlConfig {
    YamlConfig(config, SpecNodes(nodes, edges), SpecEdgesCorrected(nodes, edges))
  }

  /** The corrected passes together hold every plain edge exactly once. */
  lemma {:induction false} DirectPassesOnce(nodes: seq<Node>, direct: seq<Edge>)
    ensures multiset(FromEntry(nodes, direct) + IntoTerminalCorrected(nodes, direct) + BetweenSteps(nodes, direct))
            == multiset(direct)
    ensures |FromEntry(nodes, direct)| + |IntoTerminalCorrected(nodes, direct)| + |BetweenSteps(nodes, direct)| == |direct|
  {
    FilterPartition3(direct, (e: Edge) => SourceIsEntry(nodes, e),
                     (e: Edge) => TargetIsTerminal(nodes, e) && !SourceIsEntry(nodes, e),
                     (e: Edge) => !SourceIsEntry(nodes, e) && !TargetIsTerminal(nodes, e));
    assert |multiset(direct)| == |direct|;
  }

  /** A plain Entry→Terminal edge is written once, as `__start__` to
      `__end__`, and the second pass skips it. */
  lemma {:induction false} EntryToTerminalOnce(nodes: seq<Node>, edges: seq<Edge>, e: Edge)
    requires e in edges && !e.animated && EntryToTerminal(nodes, e)
    ensures DirectEntry("__start__", "__end__") in SpecEdgesCorrected(nodes, edges)
    ensures StartEntryCorrected(nodes, e) == DirectEntry("__start__", "__end__")
    ensures e !in IntoTerminalCorrected(nodes, DirectEdges(edges))
  {
    var direct := DirectEdges(edges);
    var i :| 0 <= i < |edges| && edges[i] == e;
    assert e in direct;
    var a := FromEntry(nodes, direct);
    assert e in a;
    var i1 :| 0 <= i1 < |a| && a[i1] == e;
    assert StartBlockCorrected(nodes, edges)[i1] == StartEntryCorrected(nodes, e);
  }

  /** Without plain Entry→Terminal edges the corrected encoder writes what
      `generateSpec` writes. */
  lemma {:induction false} CorrectedAgrees(nodes: seq<Node>, edges: seq<Edge>, config: Config)
    requires forall k :: 0 <= k < |edges| && !edges[k].animated ==> !EntryToTerminal(nodes, edges[k])
    ensures EncodeCorrected(nodes, edges, config) == Encode(nodes, edges, config)
  {
    var direct := DirectEdges(edges);
    PartitionEdges(edges);
    forall k | 0 <= k < |direct|
      ensures TargetIsTerminal(nodes, direct[k]) == (TargetIsTerminal(nodes, direct[k]) && !SourceIsEntry(nodes, direct[k]))
    {
      var m :| 0 <= m < |edges| && edges[m] == direct[k];
    }
    FilterCongruent(direct, (e: Edge) => TargetIsTerminal(nodes, e),
                    (e: Edge) => TargetIsTerminal(nodes, e) && !SourceIsEntry(nodes, e));
    var a := FromEntry(nodes, direct);
    forall k | 0 <= k < |a|
      ensures StartEntryCorrected(nodes, a[k]) == StartEntry(nodes, a[k])
    {
      assert a[k] in direct;
      var m :| 0 <= m < |edges| && edges[m] == a[k];
    }
    assert StartBlockCorrected(nodes, edges) == StartBlock(nodes, edges);
  }
}

=== FILE: graph.dfy ===
/** The editor's graph: React Flow nodes and edges reduced to the fields the
    compiler and the editor operations read or write. */
module Graph {
  import opened Base

  /** A node's `type`: 'source' is the Entry node, 'end' the Terminal node and
      every other type ('custom' in practice) a processing step. */
  datatype NodeKind = Entry | Terminal | Step

  /** Canvas position; only the decoder's layout computes one. */
  datatype Pos = Pos(x: real, y: real)

  /** `name` is `data.label`; an absent label and "" are treated alike
      everywhere in the source (both are falsy), so "" stands for both. */
  datatype Node = Node(id: string, kind: NodeKind, name: string, pos: Pos, selected: bool)

  /** `animated` marks a conditional (branch) edge; `condLabel` is the edge's
      `label`, its condition, "" when absent. */
  datatype Edge = Edge(id: string, source: string, target: string, animated: bool, condLabel: string)

  /** `nodes.find((n) => n.id === id)` */
  function NodeById(nodes: seq<Node>, id: string): (r: Option<Node>)
    ensures r.Some? ==> r.value in nodes && r.value.id == id
    ensures r.None? <==> forall k :: 0 <= k < |nodes| ==> nodes[k].id != id
  {
    Find(nodes, (n: Node) => n.id == id)
  }

  /** `nodes.find((n) => n.data.label === text)` */
  function NodeByLabel(nodes: seq<Node>, text: string): (r: Option<Node>)
    ensures r.Some? ==> r.value in nodes && r.value.name == text
    ensures r.None? <==> forall k :: 0 <= k < |nodes| ==> nodes[k].name != text
  {
    Find(nodes, (n: Node) => n.name == text)
  }

  /** `node?.type === kind` for a possibly missing node. */
  predicate HasKind(n: Option<Node>, kind: NodeKind) {
    n.Some? && n.value.kind == kind
  }

  /** `node?.data?.label || ''` */
  function LabelOr(n: Option<Node>): string {
    if n.Some? then n.value.name else ""
  }

  /** The name under which an endpoint appears in a specification: the
      reserved words for the Entry and Terminal nodes, the label otherwise,
      and "" for an id no node carries. */
  function EndpointName(nodes: seq<Node>, id: string): string {
    match NodeById(nodes, id)
    case None => ""
    case Some(n) =>
      match n.kind
      case Entry => "__start__"
      case Terminal => "__end__"
      case Step => n.name
  }

  /** A step node found by its own id is written under its label. */
  lemma {:induction false} StepEndpointName(nodes: seq<Node>, k: nat)
    requires k < |nodes| && nodes[k].kind == Step
    requires NodeById(nodes, nodes[k].id) == Some(nodes[k])
    ensures EndpointName(nodes, nodes[k].id) == nodes[k].name
  {
  }

  /** What a graph says about one edge, independent of ids and layout:
      endpoints by name, whether it is a branch, and (for branches only) the
      condition label. */
  datatype EdgeView = EdgeView(from: string, to: string, branch: bool, condition: string)

  function ViewOf(nodes: seq<Node>, e: Edge): EdgeView {
    EdgeView(EndpointName(nodes, e.source), EndpointName(nodes, e.target),
             e.animated, if e.animated then e.condLabel else "")
  }

  function Views(nodes: seq<Node>, edges: seq<Edge>): (r: seq<EdgeView>)
    ensures |r| == |edges|
    ensures forall k :: 0 <= k < |edges| ==> r[k] == ViewOf(nodes, edges[k])
  {
    seq(|edges|, k requires 0 <= k < |edges| => ViewOf(nodes, edges[k]))
  }

  lemma ViewsAppend(nodes: seq<Node>, a: seq<Edge>, b: seq<Edge>)
    ensures Views(nodes, a + b) == Views(nodes, a) + Views(nodes, b)
  {
  }

  lemma ViewsCons(nodes: seq<Node>, es: seq<Edge>)
    requires |es| > 0
    ensures Views(nodes, es) == [ViewOf(nodes, es[0])] + Views(nodes, es[1..])
  {
  }

  /** Views depend only on which edges there are, not on their order: edge
      lists that are permutations of each other have permuted views. */
  lemma {:induction false} ViewsPermutation(nodes: seq<Node>, xs: seq<Edge>, ys: seq<Edge>)
    requires multiset(xs) == multiset(ys)
    ensures multiset(Views(nodes, xs)) == multiset(Views(nodes, ys))
    decreases |xs|
  {
    if |xs| == 0 {
      assert |ys| == |multiset(ys)| == 0;
    } else {
      var x := xs[0];
      assert x in multiset(ys);
      var j :| 0 <= j < |ys| && ys[j] == x;
      var before, after := ys[..j], ys[j + 1..];
      var rest := before + after;
      assert multiset(rest) == multiset(xs[1..]) by {
        RemoveOne(ys, j);
        assert xs == [x] + xs[1..];
      }
      ViewsPermutation(nodes, xs[1..], rest);
      ViewsAround(nodes, ys, j);
      assert Views(nodes, rest) == Views(nodes, before) + Views(nodes, after) by {
        ViewsAppend(nodes, before, after);
      }
      assert Views(nodes, xs) == Views(nodes, [x]) + Views(nodes, xs[1..]) by {
        ViewsAppend(nodes, [x], xs[1..]);
      }
      PermuteMiddle(Views(nodes, before), Views(nodes, [x]), Views(nodes, after), Views(nodes, xs[1..]));
    }
  }

  lemma {:induction false} ViewsAround(nodes: seq<Node>, ys: seq<Edge>, j: nat)
    requires j < |ys|
    ensures Views(nodes, ys) == Views(nodes, ys[..j]) + Views(nodes, [ys[j]]) + Views(nodes, ys[j + 1..])
  {
    assert ys == ys[..j] + [ys[j]] + ys[j + 1..];
    ViewsAppend(nodes, ys[..j], [ys[j]]);
    ViewsAppend(nodes, ys[..j] + [ys[j]], ys[j + 1..]);
  }

  /** Taking out the element at `j` removes one occurrence of it. */
  lemma {:induction false} RemoveOne<T>(ys: seq<T>, j: nat)
    requires j < |ys|
    ensures multiset(ys[..j] + ys[j + 1..]) == multiset(ys) - multiset{ys[j]}
  {
    assert ys == ys[..j] + [ys[j]] + ys[j + 1..];
  }

  /** A middle block can be moved to the front without changing the multiset. */
  lemma PermuteMiddle<T>(a: seq<T>, m: seq<T>, b: seq<T>, c: seq<T>)
    requires multiset(c) == multiset(a + b)
    ensures multiset(m + c) == multiset(a + m + b)
  {
  }
}

=== FILE: roundtrip.dfy ===
/** Saving a graph and loading it back: `generateSpec` (module Encoder)
    followed by the rebuild of src/components/Flow.tsx (module Decoder).
    Ids, positions and edge order change; what a reader of the graph sees
    of every edge (endpoints by name, branch or not, condition) survives, as
    a multiset, for every graph the editor can draw with unique-enough labels. */
module RoundTrip {
  import opened Base
  import opened Graph
  import opened Yaml
  import opened Encoder
  import opened Decoder

  /** A step label the decoder can find again: non-empty, not a reserved
      word, and not the label of the reserved rebuilt nodes (which the label
      lookup would find first). */
  predicate ValidStepName(x: string) {
    x != "" && x != "source" && x != "end" && x != "__start__" && x != "__end__"
  }

  /** An endpoint the encoder can name: an existing node, and a step with a
      valid label. */
  predicate Resolvable(nodes: seq<Node>, id: string) {
    var n := NodeById(nodes, id);
    n.Some? && (n.value.kind == Step ==> ValidStepName(n.value.name))
  }

  /** One edge's part of the round-trip condition: both endpoints resolve,
      and nothing enters the Entry node or leaves the Terminal node. */
  predicate EdgeReady(nodes: seq<Node>, e: Edge) {
    && Resolvable(nodes, e.source) && Resolvable(nodes, e.target)
    && !HasKind(NodeById(nodes, e.source), Terminal)
    && !HasKind(NodeById(nodes, e.target), Entry)
  }

  /** Branch edges leaving one source share one condition, as the editor's
      connect operation keeps them (the encoder writes only the first). */
  predicate SharedConditions(edges: seq<Edge>) {
    forall i, j :: (0 <= i < |edges| && 0 <= j < |edges| && edges[i].animated && edges[j].animated
                    && edges[i].source == edges[j].source) ==> edges[i].condLabel == edges[j].condLabel
  }

  /** Every edge is ready and branch conditions are shared: the graphs the
      corrected encoder round-trips. */
  predicate Nameable(nodes: seq<Node>, edges: seq<Edge>) {
    (forall k :: 0 <= k < |edges| ==> EdgeReady(nodes, edges[k])) && SharedConditions(edges)
  }

  /** No plain edge runs straight from Entry to Terminal: the encoder as
      written emits such an edge twice. */
  predicate NoPlainEntryToTerminal(nodes: seq<Node>, edges: seq<Edge>) {
    forall k :: 0 <= k < |edges| && !edges[k].animated ==> !EntryToTerminal(nodes, edges[k])
  }

  /** The graphs the encoder as written round-trips. */
  predicate Ready(nodes: seq<Node>, edges: seq<Edge>) {
    Nameable(nodes, edges) && NoPlainEntryToTerminal(nodes, edges)
  }

  /** The names the rebuilt graph resolves back to themselves. */
  predicate Listed(ys: seq<YamlNode>, name: string) {
    name == "__start__" || name == "__end__" || (name in NodeNamesOf(ys) && name != "source" && name != "end")
  }

  // ---------------------------------------------------------------------------
  // Names

  lemma SpecNodeNames(nodes: seq<Node>, edges: seq<Edge>)
    ensures NodeNamesOf(SpecNodes(nodes, edges)) == NodeNames(nodes, edges)
  {
  }

  /** Every endpoint of a ready edge is written under a name the rebuild
      resolves. */
  lemma {:induction false} EndpointsListed(nodes: seq<Node>, edges: seq<Edge>, k: nat)
    requires k < |edges| && EdgeReady(nodes, edges[k])
    ensures Listed(SpecNodes(nodes, edges), EndpointName(nodes, edges[k].source))
    ensures Listed(SpecNodes(nodes, edges), EndpointName(nodes, edges[k].target))
  {
    EndpointListed(nodes, edges, k, edges[k].source);
    EndpointListed(nodes, edges, k, edges[k].target);
  }

  lemma {:induction false} EndpointListed(nodes: seq<Node>, edges: seq<Edge>, k: nat, id: string)
    requires k < |edges| && (id == edges[k].source || id == edges[k].target)
    requires Resolvable(nodes, id)
    ensures Listed(SpecNodes(nodes, edges), EndpointName(nodes, id))
  {
    var n := NodeById(nodes, id);
    if n.value.kind == Step {
      assert TouchedStepLabel(nodes, edges, n.value.name);
      NodeNamesSpec(nodes, edges);
      SpecNodeNames(nodes, edges);
    }
  }

  /** Each direct pass writes a ready edge as the endpoint names of its two
      ends, except that the first two passes as written misname an edge
      from Entry straight to Terminal. */
  lemma DirectEntriesName(nodes: seq<Node>, e: Edge)
    requires EdgeReady(nodes, e) && !e.animated
    ensures SourceIsEntry(nodes, e) && !TargetIsTerminal(nodes, e) ==>
              StartEntry(nodes, e) == DirectEntry(EndpointName(nodes, e.source), EndpointName(nodes, e.target))
    ensures SourceIsEntry(nodes, e) ==>
              StartEntryCorrected(nodes, e) == DirectEntry(EndpointName(nodes, e.source), EndpointName(nodes, e.target))
    ensures TargetIsTerminal(nodes, e) && !SourceIsEntry(nodes, e) ==>
              EndEntry(nodes, e) == DirectEntry(EndpointName(nodes, e.source), EndpointName(nodes, e.target))
    ensures !SourceIsEntry(nodes, e) && !TargetIsTerminal(nodes, e) ==>
              StepEntry(nodes, e) == DirectEntry(EndpointName(nodes, e.source), EndpointName(nodes, e.target))
  {
  }

  /** A branch entry names its source and paths as endpoint names. */
  lemma BranchNames(nodes: seq<Node>, e: Edge)
    requires EdgeReady(nodes, e)
    ensures BranchFrom(nodes, e.source) == EndpointName(nodes, e.source)
    ensures PathName(nodes, e) == EndpointName(nodes, e.target)
  {
  }

  // ---------------------------------------------------------------------------
  // Decoding the blocks

  /** A direct entry between two listed names decodes to one plain edge
      between the same names. */
  lemma {:induction false} DecodeDirectView(ys: seq<YamlNode>, i: nat, a: string, b: string)
    requires Listed(ys, a) && Listed(ys, b)
    ensures Views(DecodeNodes(ys), DecodeEntry(DecodeNodes(ys), i, DirectEntry(a, b))) == [EdgeView(a, b, false, "")]
  {
    ResolveListedName(ys, a);
    ResolveListedName(ys, b);
  }

  /** Both endpoints of every edge in `es` are written under names `ys`
      resolves back. */
  predicate AllListed(nodes: seq<Node>, ys: seq<YamlNode>, es: seq<Edge>) {
    forall j :: 0 <= j < |es| ==>
      Listed(ys, EndpointName(nodes, es[j].source)) && Listed(ys, EndpointName(nodes, es[j].target))
  }

  /** `ds` are the entries the direct passes write for the plain edges `es`. */
  predicate DirectBlock(nodes: seq<Node>, es: seq<Edge>, ds: seq<YamlEdge>) {
    && |ds| == |es|
    && (forall j :: 0 <= j < |es| ==> !es[j].animated)
    && (forall j :: 0 <= j < |es| ==>
          ds[j] == DirectEntry(EndpointName(nodes, es[j].source), EndpointName(nodes, es[j].target)))
  }

  lemma {:induction false} DirectHeadView(nodes: seq<Node>, ys: seq<YamlNode>, es: seq<Edge>, ds: seq<YamlEdge>, start: nat)
    requires |es| > 0 && AllListed(nodes, ys, es) && DirectBlock(nodes, es, ds)
    ensures Views(DecodeNodes(ys), DecodeEntry(DecodeNodes(ys), start, ds[0])) == [ViewOf(nodes, es[0])]
  {
    DecodeDirectView(ys, start, EndpointName(nodes, es[0].source), EndpointName(nodes, es[0].target));
  }

  lemma {:induction false} DirectTail(nodes: seq<Node>, ys: seq<YamlNode>, es: seq<Edge>, ds: seq<YamlEdge>)
    requires |es| > 0 && AllListed(nodes, ys, es) && DirectBlock(nodes, es, ds)
    ensures AllListed(nodes, ys, es[1..]) && DirectBlock(nodes, es[1..], ds[1..])
  {
    assert forall j :: 0 <= j < |es| - 1 ==> es[1..][j] == es[j + 1];
  }

  lemma {:induction false} DirectBlockViews(nodes: seq<Node>, ys: seq<YamlNode>, es: seq<Edge>, ds: seq<YamlEdge>, start: nat)
    requires AllListed(nodes, ys, es) && DirectBlock(nodes, es, ds)
    ensures Views(DecodeNodes(ys), DecodeEdges(DecodeNodes(ys), ds, start)) == Views(nodes, es)
    decreases |es|
  {
    var d := DecodeNodes(ys);
    if |es| > 0 {
      var head := DecodeEntry(d, start, ds[0]);
      var tail := DecodeEdges(d, ds[1..], start + 1);
      assert DecodeEdges(d, ds, start) == head + tail;
      assert Views(d, head) == [ViewOf(nodes, es[0])] by {
        DirectHeadView(nodes, ys, es, ds, start);
      }
      assert Views(d, tail) == Views(nodes, es[1..]) by {
        DirectTail(nodes, ys, es, ds);
        DirectBlockViews(nodes, ys, es[1..], ds[1..], start + 1);
      }
      ViewsAppend(d, head, tail);
      ViewsCons(nodes, es);
    }
  }

  /** A group the encoder builds: non-empty, animated edges all leaving the
      group's source and sharing one condition, each ready and listed. */
  predicate GoodGroup(nodes: seq<Node>, ys: seq<YamlNode>, g: Group) {
    && |g.members| > 0
    && AllListed(nodes, ys, g.members)
    && forall j :: 0 <= j < |g.members| ==>
         && EdgeReady(nodes, g.members[j]) && g.members[j].animated && g.members[j].source == g.source
         && g.members[j].condLabel == g.members[0].condLabel
  }

  lemma {:induction false} BranchEntryViews(nodes: seq<Node>, ys: seq<YamlNode>, g: Group, i: nat)
    requires GoodGroup(nodes, ys, g)
    ensures Views(DecodeNodes(ys), DecodeEntry(DecodeNodes(ys), i, BranchEntryOf(nodes, g))) == Views(nodes, g.members)
  {
    var d := DecodeNodes(ys);
    var y := BranchEntryOf(nodes, g);
    var out := DecodeEntry(d, i, y);
    DecodeEntryShape(d, i, y);
    BranchNames(nodes, g.members[0]);
    ResolveListedName(ys, y.from);
    forall j | 0 <= j < |g.members|
      ensures ViewOf(d, out[j]) == ViewOf(nodes, g.members[j])
    {
      BranchNames(nodes, g.members[j]);
      ResolveListedName(ys, PathName(nodes, g.members[j]));
    }
  }

  lemma {:induction false} BranchBlockViews(nodes: seq<Node>, ys: seq<YamlNode>, gs: seq<Group>, start: nat)
    requires forall k :: 0 <= k < |gs| ==> GoodGroup(nodes, ys, gs[k])
    ensures Views(DecodeNodes(ys), DecodeEdges(DecodeNodes(ys), BranchEntries(nodes, gs), start))
            == Views(nodes, Flatten(GroupMembers(gs)))
    decreases |gs|
  {
    var d := DecodeNodes(ys);
    if |gs| > 0 {
      var bs := BranchEntries(nodes, gs);
      var head := DecodeEntry(d, start, bs[0]);
      var tail := DecodeEdges(d, bs[1..], start + 1);
      var rest := Flatten(GroupMembers(gs[1..]));
      assert Views(d, head) == Views(nodes, gs[0].members) by {
        BranchEntryViews(nodes, ys, gs[0], start);
      }
      assert Views(d, tail) == Views(nodes, rest) by {
        BranchEntriesTail(nodes, gs);
        BranchBlockViews(nodes, ys, gs[1..], start + 1);
      }
      GroupMembersTail(gs);
      ViewsAppend(d, head, tail);
      ViewsAppend(nodes, gs[0].members, rest);
    }
  }

  /** Edges of a ready graph are ready and listed. */
  lemma {:induction false} SubsetListed(nodes: seq<Node>, edges: seq<Edge>, es: seq<Edge>)
    requires Nameable(nodes, edges)
    requires forall j :: 0 <= j < |es| ==> es[j] in edges
    ensures AllListed(nodes, SpecNodes(nodes, edges), es)
    ensures forall j :: 0 <= j < |es| ==> EdgeReady(nodes, es[j])
  {
    forall j | 0 <= j < |es|
      ensures Listed(SpecNodes(nodes, edges), EndpointName(nodes, es[j].source))
      ensures Listed(SpecNodes(nodes, edges), EndpointName(nodes, es[j].target))
      ensures EdgeReady(nodes, es[j])
    {
      var m :| 0 <= m < |edges| && edges[m] == es[j];
      EndpointsListed(nodes, edges, m);
    }
  }

  /** Each group of the animated edges holds that source's animated edges,
      and at least one. */
  lemma {:induction false} GroupShape(edges: seq<Edge>, k: nat)
    requires k < |GroupBySource(AnimatedEdges(edges))|
    ensures var anim := AnimatedEdges(edges);
            var g := GroupBySource(anim)[k];
            g.members == EdgesFrom(anim, g.source) && |g.members| > 0
  {
    var anim := AnimatedEdges(edges);
    var gs := GroupBySource(anim);
    GroupMembersSpec(anim);
    GroupSourcesSpec(anim);
    DedupSpec(SourceIds(anim));
    assert GroupSources(gs)[k] == gs[k].source;
    assert gs[k].source in SourceIds(anim);
    var j :| 0 <= j < |anim| && SourceIds(anim)[j] == gs[k].source;
    assert anim[j] in EdgesFrom(anim, gs[k].source);
  }

  /** Animated edges of a graph with shared conditions that leave one source
      carry one condition. */
  lemma {:induction false} SameCondition(edges: seq<Edge>, es: seq<Edge>, source: string)
    requires SharedConditions(edges) && |es| > 0
    requires forall j :: 0 <= j < |es| ==> es[j] in edges && es[j].animated && es[j].source == source
    ensures forall j :: 0 <= j < |es| ==> es[j].condLabel == es[0].condLabel
  {
    assert es[0] in edges;
    var b :| 0 <= b < |edges| && edges[b] == es[0];
    forall j | 0 <= j < |es|
      ensures es[j].condLabel == es[0].condLabel
    {
      assert es[j] in edges;
      var a :| 0 <= a < |edges| && edges[a] == es[j];
    }
  }

  /** A group's members are animated edges of the graph leaving its source. */
  lemma {:induction false} GroupMembersIn(edges: seq<Edge>, k: nat)
    requires k < |GroupBySource(AnimatedEdges(edges))|
    ensures var g := GroupBySource(AnimatedEdges(edges))[k];
            && |g.members| > 0
            && forall j :: 0 <= j < |g.members| ==>
                 g.members[j] in edges && g.members[j].animated && g.members[j].source == g.source
  {
    var anim := AnimatedEdges(edges);
    var g := GroupBySource(anim)[k];
    GroupShape(edges, k);
    forall j | 0 <= j < |g.members|
      ensures g.members[j] in edges && g.members[j].animated && g.members[j].source == g.source
    {
      assert g.members[j] in anim && g.members[j].source == g.source;
      PartitionEdges(edges);
    }
  }

  lemma {:induction false} GroupGood(nodes: seq<Node>, edges: seq<Edge>, k: nat)
    requires Nameable(nodes, edges)
    requires k < |GroupBySource(AnimatedEdges(edges))|
    ensures GoodGroup(nodes, SpecNodes(nodes, edges), GroupBySource(AnimatedEdges(edges))[k])
  {
    var g := GroupBySource(AnimatedEdges(edges))[k];
    GroupMembersIn(edges, k);
    SubsetListed(nodes, edges, g.members);
    SameCondition(edges, g.members, g.source);
  }

  /** The groups of the animated edges of a ready graph are good groups. */
  lemma {:induction false} GroupsGood(nodes: seq<Node>, edges: seq<Edge>)
    requires Nameable(nodes, edges)
    ensures forall k :: 0 <= k < |GroupBySource(AnimatedEdges(edges))| ==>
              GoodGroup(nodes, SpecNodes(nodes, edges), GroupBySource(AnimatedEdges(edges))[k])
  {
    forall k | 0 <= k < |GroupBySource(AnimatedEdges(edges))|
      ensures GoodGroup(nodes, SpecNodes(nodes, edges), GroupBySource(AnimatedEdges(edges))[k])
    {
      GroupGood(nodes, edges, k);
    }
  }

  lemma {:induction false} DecodeEdgesAppend4(d: seq<Node>, b1: seq<YamlEdge>, b2: seq<YamlEdge>, b3: seq<YamlEdge>, b4: seq<YamlEdge>,
                                              s2: nat, s3: nat, s4: nat)
    requires s2 == |b1| && s3 == s2 + |b2| && s4 == s3 + |b3|
    ensures DecodeEdges(d, b1 + b2 + b3 + b4, 0)
            == DecodeEdges(d, b1, 0) + DecodeEdges(d, b2, s2) + DecodeEdges(d, b3, s3) + DecodeEdges(d, b4, s4)
  {
    DecodeEdgesSplit(d, b1 + b2 + b3, b4, s4);
    DecodeEdgesSplit(d, b1 + b2, b3, s3);
    DecodeEdgesSplit(d, b1, b2, s2);
  }

  lemma {:induction false} DecodeEdgesSplit(d: seq<Node>, a: seq<YamlEdge>, b: seq<YamlEdge>, mid: nat)
    requires mid == |a|
    ensures DecodeEdges(d, a + b, 0) == DecodeEdges(d, a, 0) + DecodeEdges(d, b, mid)
  {
    DecodeEdgesAppend(d, a, b, 0);
  }

  lemma {:induction false} Views4(nodes: seq<Node>, a: seq<Edge>, b: seq<Edge>, c: seq<Edge>, e: seq<Edge>)
    ensures Views(nodes, a + b + c + e) == Views(nodes, a) + Views(nodes, b) + Views(nodes, c) + Views(nodes, e)
  {
    ViewsAppend(nodes, a, b);
    ViewsAppend(nodes, a + b, c);
    ViewsAppend(nodes, a + b + c, e);
  }

  // ---------------------------------------------------------------------------
  // The theorem

  /** Four decoded blocks that each match their edges match them together. */
  lemma {:induction false} Combine4(d: seq<Node>, nodes: seq<Node>, x1: seq<Edge>, x2: seq<Edge>, x3: seq<Edge>, x4: seq<Edge>,
                 p1: seq<Edge>, p2: seq<Edge>, p3: seq<Edge>, p4: seq<Edge>)
    requires Views(d, x1) == Views(nodes, p1)
    requires Views(d, x2) == Views(nodes, p2)
    requires Views(d, x3) == Views(nodes, p3)
    requires Views(d, x4) == Views(nodes, p4)
    ensures Views(d, x1 + x2 + x3 + x4) == Views(nodes, p1 + p2 + p3 + p4)
  {
    Views4(d, x1, x2, x3, x4);
    Views4(nodes, p1, p2, p3, p4);
  }

  lemma {:induction false} StepBlockViews(nodes: seq<Node>, edges: seq<Edge>, start: nat)
    requires Nameable(nodes, edges)
    ensures var d := DecodeNodes(SpecNodes(nodes, edges));
            Views(d, DecodeEdges(d, StepBlock(nodes, edges), start)) == Views(nodes, BetweenSteps(nodes, DirectEdges(edges)))
  {
    StepPass(nodes, edges);
    DirectBlockViews(nodes, SpecNodes(nodes, edges), BetweenSteps(nodes, DirectEdges(edges)), StepBlock(nodes, edges), start);
  }

  lemma {:induction false} BranchBlockViewsOf(nodes: seq<Node>, edges: seq<Edge>, start: nat)
    requires Nameable(nodes, edges)
    ensures var d := DecodeNodes(SpecNodes(nodes, edges));
            Views(d, DecodeEdges(d, BranchBlock(nodes, edges), start))
            == Views(nodes, Flatten(GroupMembers(GroupBySource(AnimatedEdges(edges)))))
  {
    GroupsGood(nodes, edges);
    BranchBlockViews(nodes, SpecNodes(nodes, edges), GroupBySource(AnimatedEdges(edges)), start);
  }

  /** The rebuilt edges, seen by name, are the edges of the two first passes
      followed by those of the third pass and of the branch groups. */
  lemma {:induction false} DecodedBlockViews(nodes: seq<Node>, edges: seq<Edge>,
                                             p1: seq<Edge>, b1: seq<YamlEdge>, p2: seq<Edge>, b2: seq<YamlEdge>)
    requires Nameable(nodes, edges)
    requires AllListed(nodes, SpecNodes(nodes, edges), p1) && DirectBlock(nodes, p1, b1)
    requires AllListed(nodes, SpecNodes(nodes, edges), p2) && DirectBlock(nodes, p2, b2)
    ensures var d := DecodeNodes(SpecNodes(nodes, edges));
            Views(d, DecodeEdges(d, b1 + b2 + StepBlock(nodes, edges) + BranchBlock(nodes, edges), 0))
            == Views(nodes, p1 + p2 + BetweenSteps(nodes, DirectEdges(edges))
                            + Flatten(GroupMembers(GroupBySource(AnimatedEdges(edges)))))
  {
    var ys := SpecNodes(nodes, edges);
    var d := DecodeNodes(ys);
    var p3 := BetweenSteps(nodes, DirectEdges(edges));
    var p4 := Flatten(GroupMembers(GroupBySource(AnimatedEdges(edges))));
    var b3, b4 := StepBlock(nodes, edges), BranchBlock(nodes, edges);
    var s2: nat := |b1|;
    var s3: nat := s2 + |b2|;
    var s4: nat := s3 + |b3|;
    var x1, x2, x3, x4 := DecodeEdges(d, b1, 0), DecodeEdges(d, b2, s2), DecodeEdges(d, b3, s3), DecodeEdges(d, b4, s4);
    DirectBlockViews(nodes, ys, p1, b1, 0);
    DirectBlockViews(nodes, ys, p2, b2, s2);
    StepBlockViews(nodes, edges, s3);
    BranchBlockViewsOf(nodes, edges, s4);
    DecodeEdgesAppend4(d, b1, b2, b3, b4, s2, s3, s4);
    Combine4(d, nodes, x1, x2, x3, x4, p1, p2, p3, p4);
  }

  /** Plain edges of a nameable graph are listed and ready. */
  lemma {:induction false} DirectListed(nodes: seq<Node>, edges: seq<Edge>, es: seq<Edge>)
    requires Nameable(nodes, edges)
    requires forall j :: 0 <= j < |es| ==> es[j] in DirectEdges(edges)
    ensures AllListed(nodes, SpecNodes(nodes, edges), es)
    ensures forall j :: 0 <= j < |es| ==> EdgeReady(nodes, es[j]) && !es[j].animated
  {
    PartitionEdges(edges);
    SubsetListed(nodes, edges, es);
  }

  /** The corrected first pass writes each edge by its endpoint names. */
  lemma {:induction false} StartPassCorrected(nodes: seq<Node>, edges: seq<Edge>)
    requires Nameable(nodes, edges)
    ensures var p := FromEntry(nodes, DirectEdges(edges));
            AllListed(nodes, SpecNodes(nodes, edges), p) && DirectBlock(nodes, p, StartBlockCorrected(nodes, edges))
  {
    var p := FromEntry(nodes, DirectEdges(edges));
    DirectListed(nodes, edges, p);
    forall j | 0 <= j < |p|
      ensures StartBlockCorrected(nodes, edges)[j]
              == DirectEntry(EndpointName(nodes, p[j].source), EndpointName(nodes, p[j].target))
    {
      DirectEntriesName(nodes, p[j]);
    }
  }

  /** The corrected second pass writes each edge by its endpoint names. */
  lemma {:induction false} EndPassCorrected(nodes: seq<Node>, edges: seq<Edge>)
    requires Nameable(nodes, edges)
    ensures var p := IntoTerminalCorrected(nodes, DirectEdges(edges));
            AllListed(nodes, SpecNodes(nodes, edges), p) && DirectBlock(nodes, p, EndBlockCorrected(nodes, edges))
  {
    var p := IntoTerminalCorrected(nodes, DirectEdges(edges));
    DirectListed(nodes, edges, p);
    forall j | 0 <= j < |p|
      ensures EndBlockCorrected(nodes, edges)[j]
              == DirectEntry(EndpointName(nodes, p[j].source), EndpointName(nodes, p[j].target))
    {
      DirectEntriesName(nodes, p[j]);
    }
  }

  lemma {:induction false} StepPass(nodes: seq<Node>, edges: seq<Edge>)
    requires Nameable(nodes, edges)
    ensures var p := BetweenSteps(nodes, DirectEdges(edges));
            AllListed(nodes, SpecNodes(nodes, edges), p) && DirectBlock(nodes, p, StepBlock(nodes, edges))
  {
    var p := BetweenSteps(nodes, DirectEdges(edges));
    DirectListed(nodes, edges, p);
    forall j | 0 <= j < |p|
      ensures StepBlock(nodes, edges)[j] == DirectEntry(EndpointName(nodes, p[j].source), EndpointName(nodes, p[j].target))
    {
      DirectEntriesName(nodes, p[j]);
    }
  }

  /** The corrected passes and the groups together hold every edge once. */
  lemma {:induction false} BlocksPermutation(nodes: seq<Node>, edges: seq<Edge>)
    ensures var direct := DirectEdges(edges);
            multiset(FromEntry(nodes, direct) + IntoTerminalCorrected(nodes, direct) + BetweenSteps(nodes, direct)
                     + Flatten(GroupMembers(GroupBySource(AnimatedEdges(edges))))) == multiset(edges)
  {
    PartitionEdges(edges);
    DirectPassesOnce(nodes, DirectEdges(edges));
    GroupPermutation(AnimatedEdges(edges));
  }

  /** Round trip through the corrected encoder: saving a nameable graph,
      plain Entry→Terminal edges included, and loading the specification
      back yields the same edges by name, branch flag and condition, counted
      with multiplicity. */
  lemma {:induction false} RoundTripCorrected(nodes: seq<Node>, edges: seq<Edge>, config: Config, labels: map<string, string>)
    requires Nameable(nodes, edges)
    ensures var d := Decode(EncodeCorrected(nodes, edges, config), labels);
            multiset(Views(d.nodes, d.edges)) == multiset(Views(nodes, edges))
  {
    var direct := DirectEdges(edges);
    var p1, p2 := FromEntry(nodes, direct), IntoTerminalCorrected(nodes, direct);
    var all := p1 + p2 + BetweenSteps(nodes, direct) + Flatten(GroupMembers(GroupBySource(AnimatedEdges(edges))));
    StartPassCorrected(nodes, edges);
    EndPassCorrected(nodes, edges);
    DecodedBlockViews(nodes, edges, p1, StartBlockCorrected(nodes, edges), p2, EndBlockCorrected(nodes, edges));
    BlocksPermutation(nodes, edges);
    ViewsPermutation(nodes, all, edges);
  }

  /** Round trip: saving a ready graph and loading the specification back
      yields the same edges by name, branch flag and condition, counted
      with multiplicity. On ready graphs `generateSpec` writes what the
      corrected encoder writes. */
  lemma {:induction false} RoundTripViews(nodes: seq<Node>, edges: seq<Edge>, config: Config, labels: map<string, string>)
    requires Ready(nodes, edges)
    ensures var d := Decode(Encode(nodes, edges, config), labels);
            multiset(Views(d.nodes, d.edges)) == multiset(Views(nodes, edges))
  {
    CorrectedAgrees(nodes, edges, config);
    RoundTripCorrected(nodes, edges, config, labels);
  }

  // ---------------------------------------------------------------------------
  // What the entries name

  /** Entry `y` names edge `e`: a plain edge as a direct entry between its
      endpoint names, an animated one as a branch entry from its source's
      name with its target's name among the paths. */
  predicate Writes(nodes: seq<Node>, y: YamlEdge, e: Edge) {
    if e.animated then
      IsBranchEntry(y) && y.from == EndpointName(nodes, e.source) && EndpointName(nodes, e.target) in y.paths.value
    else
      y == DirectEntry(EndpointName(nodes, e.source), EndpointName(nodes, e.target))
  }

  /** Some entry of `ys` names edge `e`. */
  predicate WrittenIn(nodes: seq<Node>, ys: seq<YamlEdge>, e: Edge) {
    exists y :: y in ys && Writes(nodes, y, e)
  }

  /** Path `path` of a branch entry from `from` is the target of an animated
      edge leaving a source of that name. */
  predicate PathWritten(nodes: seq<Node>, edges: seq<Edge>, from: string, path: string) {
    exists e :: e in edges && e.animated && from == EndpointName(nodes, e.source) && path == EndpointName(nodes, e.target)
  }

  /** Entry `y` is made of the graph's edges: a direct entry names one plain
      edge; a branch entry has no `to`, lists at least one path, and each
      path is the target of an animated edge leaving a source of the entry's
      name. */
  predicate WrittenFrom(nodes: seq<Node>, edges: seq<Edge>, y: YamlEdge) {
    if IsBranchEntry(y) then
      && y.to.None? && |y.paths.value| > 0
      && forall p :: 0 <= p < |y.paths.value| ==> PathWritten(nodes, edges, y.from, y.paths.value[p])
    else
      exists e :: e in edges && Writes(nodes, y, e)
  }

  /** Every entry of `ys` is made of the graph's edges. */
  predicate AllWrittenFrom(nodes: seq<Node>, edges: seq<Edge>, ys: seq<YamlEdge>) {
    forall k :: 0 <= k < |ys| ==> WrittenFrom(nodes, edges, ys[k])
  }

  lemma {:induction false} AllWrittenFromConcat(nodes: seq<Node>, edges: seq<Edge>, a: seq<YamlEdge>, b: seq<YamlEdge>)
    requires AllWrittenFrom(nodes, edges, a) && AllWrittenFrom(nodes, edges, b)
    ensures AllWrittenFrom(nodes, edges, a + b)
  {
    forall k | 0 <= k < |a + b|
      ensures WrittenFrom(nodes, edges, (a + b)[k])
    {
      if k < |a| {
        assert (a + b)[k] == a[k];
      } else {
        assert (a + b)[k] == b[k - |a|];
      }
    }
  }

  lemma {:induction false} WrittenInConcat(nodes: seq<Node>, a: seq<YamlEdge>, b: seq<YamlEdge>, e: Edge)
    requires WrittenIn(nodes, a, e) || WrittenIn(nodes, b, e)
    ensures WrittenIn(nodes, a + b, e)
  {
    var y :| (y in a || y in b) && Writes(nodes, y, e);
    assert y in a + b;
  }

  lemma {:induction false} ReadyMember(nodes: seq<Node>, edges: seq<Edge>)
    requires forall k :: 0 <= k < |edges| ==> EdgeReady(nodes, edges[k])
    ensures forall e :: e in edges ==> EdgeReady(nodes, e)
  {
    forall e | e in edges
      ensures EdgeReady(nodes, e)
    {
      var k :| 0 <= k < |edges| && edges[k] == e;
    }
  }

  lemma {:induction false} DirectBlockWritten(nodes: seq<Node>, edges: seq<Edge>, p: seq<Edge>, b: seq<YamlEdge>)
    requires DirectBlock(nodes, p, b)
    requires forall i :: 0 <= i < |p| ==> p[i] in edges
    ensures AllWrittenFrom(nodes, edges, b)
  {
    forall k | 0 <= k < |b|
      ensures WrittenFrom(nodes, edges, b[k])
    {
      assert Writes(nodes, b[k], p[k]);
    }
  }

  lemma {:induction false} DirectBlockWrites(nodes: seq<Node>, p: seq<Edge>, b: seq<YamlEdge>, e: Edge)
    requires DirectBlock(nodes, p, b)
    requires e in p
    ensures WrittenIn(nodes, b, e)
  {
    var i :| 0 <= i < |p| && p[i] == e;
    assert b[i] in b && Writes(nodes, b[i], e);
  }

  /** A group's branch entry names each of its members. */
  lemma {:induction false} GroupWrites(nodes: seq<Node>, g: Group, m: nat)
    requires m < |g.members|
    requires EdgeReady(nodes, g.members[m]) && g.members[m].animated && g.members[m].source == g.source
    ensures Writes(nodes, BranchEntryOf(nodes, g), g.members[m])
  {
    BranchNames(nodes, g.members[m]);
    assert BranchEntryOf(nodes, g).paths.value[m] == EndpointName(nodes, g.members[m].target);
  }

  lemma {:induction false} GroupWritten(nodes: seq<Node>, edges: seq<Edge>, g: Group)
    requires |g.members| > 0
    requires forall j :: 0 <= j < |g.members| ==>
               g.members[j] in edges && g.members[j].animated && g.members[j].source == g.source
    requires forall e :: e in edges ==> EdgeReady(nodes, e)
    ensures WrittenFrom(nodes, edges, BranchEntryOf(nodes, g))
  {
    var y := BranchEntryOf(nodes, g);
    forall p | 0 <= p < |y.paths.value|
      ensures PathWritten(nodes, edges, y.from, y.paths.value[p])
    {
      var e := g.members[p];
      BranchNames(nodes, e);
      assert y.paths.value[p] == EndpointName(nodes, e.target);
    }
  }

  lemma {:induction false} BranchBlockWritten(nodes: seq<Node>, edges: seq<Edge>)
    requires forall e :: e in edges ==> EdgeReady(nodes, e)
    ensures AllWrittenFrom(nodes, edges, BranchBlock(nodes, edges))
  {
    var gs := GroupBySource(AnimatedEdges(edges));
    forall g | 0 <= g < |BranchBlock(nodes, edges)|
      ensures WrittenFrom(nodes, edges, BranchBlock(nodes, edges)[g])
    {
      GroupMembersIn(edges, g);
      GroupWritten(nodes, edges, gs[g]);
    }
  }

  /** Every entry the corrected encoder writes for a nameable graph (and so
      every entry `generateSpec` writes for a ready one) is made of the
      graph's edges, named by their endpoints. */
  lemma {:induction false} EntryOrigins(nodes: seq<Node>, edges: seq<Edge>)
    requires Nameable(nodes, edges)
    ensures AllWrittenFrom(nodes, edges, SpecEdgesCorrected(nodes, edges))
  {
    var direct := DirectEdges(edges);
    PartitionEdges(edges);
    ReadyMember(nodes, edges);
    StartPassCorrected(nodes, edges);
    EndPassCorrected(nodes, edges);
    StepPass(nodes, edges);
    DirectBlockWritten(nodes, edges, FromEntry(nodes, direct), StartBlockCorrected(nodes, edges));
    DirectBlockWritten(nodes, edges, IntoTerminalCorrected(nodes, direct), EndBlockCorrected(nodes, edges));
    DirectBlockWritten(nodes, edges, BetweenSteps(nodes, direct), StepBlock(nodes, edges));
    BranchBlockWritten(nodes, edges);
    AllWrittenFromConcat(nodes, edges, StartBlockCorrected(nodes, edges), EndBlockCorrected(nodes, edges));
    AllWrittenFromConcat(nodes, edges, StartBlockCorrected(nodes, edges) + EndBlockCorrected(nodes, edges), StepBlock(nodes, edges));
    AllWrittenFromConcat(nodes, edges, StartBlockCorrected(nodes, edges) + EndBlockCorrected(nodes, edges) + StepBlock(nodes, edges),
                         BranchBlock(nodes, edges));
  }

  lemma {:induction false} StartWrites(nodes: seq<Node>, direct: seq<Edge>, e: Edge)
    requires e in direct && !e.animated && EdgeReady(nodes, e) && SourceIsEntry(nodes, e)
    ensures WrittenIn(nodes, StartEntriesCorrected(nodes, FromEntry(nodes, direct)), e)
  {
    var p := FromEntry(nodes, direct);
    assert e in p;
    var i :| 0 <= i < |p| && p[i] == e;
    DirectEntriesName(nodes, e);
    assert StartEntriesCorrected(nodes, p)[i] in StartEntriesCorrected(nodes, p);
    assert Writes(nodes, StartEntriesCorrected(nodes, p)[i], e);
  }

  lemma {:induction false} EndWrites(nodes: seq<Node>, direct: seq<Edge>, e: Edge)
    requires e in direct && !e.animated && EdgeReady(nodes, e) && !SourceIsEntry(nodes, e) && TargetIsTerminal(nodes, e)
    ensures WrittenIn(nodes, EndEntries(nodes, IntoTerminalCorrected(nodes, direct)), e)
  {
    var p := IntoTerminalCorrected(nodes, direct);
    assert e in p;
    var i :| 0 <= i < |p| && p[i] == e;
    DirectEntriesName(nodes, e);
    assert EndEntries(nodes, p)[i] in EndEntries(nodes, p);
    assert Writes(nodes, EndEntries(nodes, p)[i], e);
  }

  lemma {:induction false} StepWrites(nodes: seq<Node>, direct: seq<Edge>, e: Edge)
    requires e in direct && !e.animated && EdgeReady(nodes, e) && !SourceIsEntry(nodes, e) && !TargetIsTerminal(nodes, e)
    ensures WrittenIn(nodes, StepEntries(nodes, BetweenSteps(nodes, direct)), e)
  {
    var p := BetweenSteps(nodes, direct);
    assert e in p;
    var i :| 0 <= i < |p| && p[i] == e;
    DirectEntriesName(nodes, e);
    assert StepEntries(nodes, p)[i] in StepEntries(nodes, p);
    assert Writes(nodes, StepEntries(nodes, p)[i], e);
  }

  lemma {:induction false} DirectMember(edges: seq<Edge>, e: Edge)
    requires e in edges && !e.animated
    ensures e in DirectEdges(edges)
  {
    PartitionEdges(edges);
    var k :| 0 <= k < |edges| && edges[k] == e;
  }

  /** A plain edge of a graph whose edges resolve is written by one of the
      corrected direct passes. */
  lemma {:induction false} PlainEdgeWritten(nodes: seq<Node>, edges: seq<Edge>, e: Edge)
    requires e in edges && !e.animated && EdgeReady(nodes, e)
    ensures WrittenIn(nodes, StartBlockCorrected(nodes, edges) + EndBlockCorrected(nodes, edges) + StepBlock(nodes, edges), e)
  {
    var direct := DirectEdges(edges);
    var b1, b2, b3 := StartBlockCorrected(nodes, edges), EndBlockCorrected(nodes, edges), StepBlock(nodes, edges);
    DirectMember(edges, e);
    if SourceIsEntry(nodes, e) {
      StartWrites(nodes, direct, e);
      WrittenInConcat(nodes, b1, b2, e);
    } else if TargetIsTerminal(nodes, e) {
      EndWrites(nodes, direct, e);
      WrittenInConcat(nodes, b1, b2, e);
    } else {
      StepWrites(nodes, direct, e);
    }
    WrittenInConcat(nodes, b1 + b2, b3, e);
  }

  /** An animated edge belongs to the group of its source. */
  lemma {:induction false} SourceGroup(edges: seq<Edge>, e: Edge) returns (g: nat)
    requires e in edges && e.animated
    ensures g < |GroupBySource(AnimatedEdges(edges))|
    ensures GroupBySource(AnimatedEdges(edges))[g].source == e.source
    ensures e in GroupBySource(AnimatedEdges(edges))[g].members
  {
    var anim := AnimatedEdges(edges);
    var gs := GroupBySource(anim);
    PartitionEdges(edges);
    var a :| 0 <= a < |anim| && anim[a] == e;
    assert SourceIds(anim)[a] == e.source;
    GroupSourcesSpec(anim);
    DedupSpec(SourceIds(anim));
    assert e.source in GroupSources(gs);
    g :| 0 <= g < |gs| && GroupSources(gs)[g] == e.source;
    GroupShape(edges, g);
    assert anim[a] in EdgesFrom(anim, e.source);
  }

  /** An animated edge of a graph whose edges resolve is listed by its
      source's branch entry. */
  lemma {:induction false} AnimatedEdgeWritten(nodes: seq<Node>, edges: seq<Edge>, e: Edge)
    requires e in edges && e.animated && EdgeReady(nodes, e)
    ensures WrittenIn(nodes, BranchBlock(nodes, edges), e)
  {
    var gs := GroupBySource(AnimatedEdges(edges));
    var g := SourceGroup(edges, e);
    var m :| 0 <= m < |gs[g].members| && gs[g].members[m] == e;
    GroupWrites(nodes, gs[g], m);
    assert BranchBlock(nodes, edges)[g] in BranchBlock(nodes, edges);
    assert Writes(nodes, BranchBlock(nodes, edges)[g], e);
  }

  /** Every edge of a nameable graph is named by some entry the corrected
      encoder writes (and so, for a ready graph, by `generateSpec`). */
  lemma {:induction false} EdgeEntries(nodes: seq<Node>, edges: seq<Edge>)
    requires Nameable(nodes, edges)
    ensures forall j :: 0 <= j < |edges| ==> WrittenIn(nodes, SpecEdgesCorrected(nodes, edges), edges[j])
  {
    var direct3 := StartBlockCorrected(nodes, edges) + EndBlockCorrected(nodes, edges) + StepBlock(nodes, edges);
    forall j | 0 <= j < |edges|
      ensures WrittenIn(nodes, SpecEdgesCorrected(nodes, edges), edges[j])
    {
      if edges[j].animated {
        AnimatedEdgeWritten(nodes, edges, edges[j]);
      } else {
        PlainEdgeWritten(nodes, edges, edges[j]);
      }
      WrittenInConcat(nodes, direct3, BranchBlock(nodes, edges), edges[j]);
    }
  }

  /** Under the round-trip condition an endpoint's name is reserved exactly
      when it stands for the Entry or Terminal node, and only on the side
      an edge may use it. */
  lemma ReservedEndpoints(nodes: seq<Node>, e: Edge)
    requires EdgeReady(nodes, e)
    ensures EndpointName(nodes, e.source) == "__start__" <==> SourceIsEntry(nodes, e)
    ensures EndpointName(nodes, e.source) != "__end__"
    ensures EndpointName(nodes, e.target) == "__end__" <==> TargetIsTerminal(nodes, e)
    ensures EndpointName(nodes, e.target) != "__start__"
  {
  }

  /** What the reserved names in entry `y` stand for: `__start__` only as a
      source, for an edge leaving the Entry node and of the entry's kind;
      `__end__` only as a target or path, for a plain or an animated edge
      entering the Terminal node. */
  predicate ReservedFor(nodes: seq<Node>, edges: seq<Edge>, y: YamlEdge) {
    && (y.from == "__start__" ==>
          exists e :: e in edges && SourceIsEntry(nodes, e) && e.animated == IsBranchEntry(y))
    && y.from != "__end__"
    && y.to != Some("__start__")
    && (y.to == Some("__end__") ==>
          exists e :: e in edges && TargetIsTerminal(nodes, e) && !e.animated)
    && (IsBranchEntry(y) ==> "__start__" !in y.paths.value)
    && (IsBranchEntry(y) && "__end__" in y.paths.value ==>
          exists e :: e in edges && TargetIsTerminal(nodes, e) && e.animated)
  }

  lemma {:induction false} PathReserved(nodes: seq<Node>, edges: seq<Edge>, y: YamlEdge, p: nat)
    requires forall e :: e in edges ==> EdgeReady(nodes, e)
    requires IsBranchEntry(y) && p < |y.paths.value| && PathWritten(nodes, edges, y.from, y.paths.value[p])
    ensures y.from == "__start__" ==> exists e :: e in edges && SourceIsEntry(nodes, e) && e.animated
    ensures y.from != "__end__" && y.paths.value[p] != "__start__"
    ensures y.paths.value[p] == "__end__" ==> exists e :: e in edges && TargetIsTerminal(nodes, e) && e.animated
  {
    var e :| e in edges && e.animated
             && y.from == EndpointName(nodes, e.source) && y.paths.value[p] == EndpointName(nodes, e.target);
    ReservedEndpoints(nodes, e);
  }

  lemma {:induction false} EntryReserved(nodes: seq<Node>, edges: seq<Edge>, y: YamlEdge)
    requires forall e :: e in edges ==> EdgeReady(nodes, e)
    requires WrittenFrom(nodes, edges, y)
    ensures ReservedFor(nodes, edges, y)
  {
    if IsBranchEntry(y) {
      BranchReserved(nodes, edges, y);
    } else {
      var e :| e in edges && Writes(nodes, y, e);
      ReservedEndpoints(nodes, e);
    }
  }

  lemma {:induction false} BranchReserved(nodes: seq<Node>, edges: seq<Edge>, y: YamlEdge)
    requires forall e :: e in edges ==> EdgeReady(nodes, e)
    requires IsBranchEntry(y) && |y.paths.value| > 0
    requires forall p :: 0 <= p < |y.paths.value| ==> PathWritten(nodes, edges, y.from, y.paths.value[p])
    ensures y.from == "__start__" ==> exists e :: e in edges && SourceIsEntry(nodes, e) && e.animated
    ensures y.from != "__end__"
    ensures "__start__" !in y.paths.value
    ensures "__end__" in y.paths.value ==> exists e :: e in edges && TargetIsTerminal(nodes, e) && e.animated
  {
    PathReserved(nodes, edges, y, 0);
    forall p | 0 <= p < |y.paths.value|
      ensures y.paths.value[p] != "__start__"
      ensures y.paths.value[p] == "__end__" ==> exists e :: e in edges && TargetIsTerminal(nodes, e) && e.animated
    {
      PathReserved(nodes, edges, y, p);
    }
  }

  lemma {:induction false} EdgeReserved(nodes: seq<Node>, y: YamlEdge, e: Edge)
    requires EdgeReady(nodes, e) && Writes(nodes, y, e)
    ensures SourceIsEntry(nodes, e) ==> y.from == "__start__" && IsBranchEntry(y) == e.animated
    ensures TargetIsTerminal(nodes, e) && e.animated ==> IsBranchEntry(y) && "__end__" in y.paths.value
    ensures TargetIsTerminal(nodes, e) && !e.animated ==> y.to == Some("__end__")
  {
    ReservedEndpoints(nodes, e);
  }

  /** Reserved names in the entries `es` written for `edges`: each entry's
      `__start__` and `__end__` stand for edges at the Entry and Terminal
      nodes, and each edge at those nodes is written under its reserved
      name. */
  predicate EntriesReserved(nodes: seq<Node>, edges: seq<Edge>, es: seq<YamlEdge>) {
    && (forall k :: 0 <= k < |es| ==> ReservedFor(nodes, edges, es[k]))
    && (forall e :: e in edges && SourceIsEntry(nodes, e) ==>
          exists y :: y in es && y.from == "__start__" && IsBranchEntry(y) == e.animated)
    && (forall e :: e in edges && TargetIsTerminal(nodes, e) ==>
          exists y :: y in es &&
            if e.animated then IsBranchEntry(y) && "__end__" in y.paths.value
            else y.to == Some("__end__"))
  }

  lemma {:induction false} ReservedEdges(nodes: seq<Node>, edges: seq<Edge>, es: seq<YamlEdge>)
    requires forall e :: e in edges ==> EdgeReady(nodes, e)
    requires forall j :: 0 <= j < |edges| ==> WrittenIn(nodes, es, edges[j])
    ensures forall e :: e in edges && SourceIsEntry(nodes, e) ==>
              exists y :: y in es && y.from == "__start__" && IsBranchEntry(y) == e.animated
    ensures forall e :: e in edges && TargetIsTerminal(nodes, e) ==>
              exists y :: y in es &&
                if e.animated then IsBranchEntry(y) && "__end__" in y.paths.value
                else y.to == Some("__end__")
  {
    forall e | e in edges
      ensures SourceIsEntry(nodes, e) ==>
                exists y :: y in es && y.from == "__start__" && IsBranchEntry(y) == e.animated
      ensures TargetIsTerminal(nodes, e) ==>
                exists y :: y in es &&
                  if e.animated then IsBranchEntry(y) && "__end__" in y.paths.value
                  else y.to == Some("__end__")
    {
      var j :| 0 <= j < |edges| && edges[j] == e;
      var y :| y in es && Writes(nodes, y, e);
      EdgeReserved(nodes, y, e);
    }
  }

  lemma {:induction false} ReservedIn(nodes: seq<Node>, edges: seq<Edge>, es: seq<YamlEdge>)
    requires forall e :: e in edges ==> EdgeReady(nodes, e)
    requires AllWrittenFrom(nodes, edges, es)
    requires forall j :: 0 <= j < |edges| ==> WrittenIn(nodes, es, edges[j])
    ensures EntriesReserved(nodes, edges, es)
  {
    forall k | 0 <= k < |es|
      ensures ReservedFor(nodes, edges, es[k])
    {
      EntryReserved(nodes, edges, es[k]);
    }
    ReservedEdges(nodes, edges, es);
  }

  lemma {:induction false} EncodedWritten(nodes: seq<Node>, edges: seq<Edge>, config: Config)
    requires Ready(nodes, edges)
    ensures forall e :: e in edges ==> EdgeReady(nodes, e)
    ensures AllWrittenFrom(nodes, edges, Encode(nodes, edges, config).edges)
    ensures forall j :: 0 <= j < |edges| ==> WrittenIn(nodes, Encode(nodes, edges, config).edges, edges[j])
  {
    var es := Encode(nodes, edges, config).edges;
    CorrectedAgrees(nodes, edges, config);
    assert es == SpecEdgesCorrected(nodes, edges);
    ReadyMember(nodes, edges);
    EntryOrigins(nodes, edges);
    EdgeEntries(nodes, edges);
  }

  /** `generateSpec` on a ready graph: every entry is made of the graph's
      edges and every edge is named by an entry; `__start__` appears only as
      a source and stands for an edge leaving the Entry node, `__end__` only
      as a target or path and stands for an edge entering the Terminal
      node; and each such edge shows up under its reserved name. */
  lemma {:induction false} ReservedNames(nodes: seq<Node>, edges: seq<Edge>, config: Config)
    requires Ready(nodes, edges)
    ensures AllWrittenFrom(nodes, edges, Encode(nodes, edges, config).edges)
    ensures forall j :: 0 <= j < |edges| ==> WrittenIn(nodes, Encode(nodes, edges, config).edges, edges[j])
    ensures EntriesReserved(nodes, edges, Encode(nodes, edges, config).edges)
  {
    EncodedWritten(nodes, edges, config);
    ReservedIn(nodes, edges, Encode(nodes, edges, config).edges);
  }

  lemma StartUpEncodes(config: Config)
    ensures var spec := Encode([SourceNode, EndNode], [Edge("edge-1", "source", "end", false, "")], config);
            && spec.config == config && spec.nodes == []
            && spec.edges == [DirectEntry("__start__", "end"), DirectEntry("source", "__end__")]
  {
    var nodes := [SourceNode, EndNode];
    var e := Edge("edge-1", "source", "end", false, "");
    var edges := [e];
    assert NodeById(nodes, "source") == Some(SourceNode);
    assert NodeById(nodes, "end") == Some(EndNode) by {
      assert nodes[0].id != "end" && nodes[1].id == "end";
    }
    assert DirectEdges(edges) == [e];
    assert AnimatedEdges(edges) == [];
    assert FromEntry(nodes, [e]) == [e];
    assert IntoTerminal(nodes, [e]) == [e];
    assert BetweenSteps(nodes, [e]) == [];
    assert NameCandidates(nodes, edges) == [];
  }

  lemma StartUpDecodes(config: Config, labels: map<string, string>)
    ensures var d := Decode(YamlConfig(config, [], [DirectEntry("__start__", "end"), DirectEntry("source", "__end__")]), labels);
            && d.nodes == [SourceNode, EndNode]
            && |d.edges| == 2
            && forall k :: 0 <= k < |d.edges| ==>
                 d.edges[k].source == "source" && d.edges[k].target == "end" && !d.edges[k].animated
    ensures var d := Decode(YamlConfig(config, [], [DirectEntry("__start__", "end"), DirectEntry("source", "__end__")]), labels);
            Views(d.nodes, d.edges) == [EdgeView("__start__", "__end__", false, ""), EdgeView("__start__", "__end__", false, "")]
  {
    var spec := YamlConfig(config, [], [DirectEntry("__start__", "end"), DirectEntry("source", "__end__")]);
    var d := DecodeNodes([]);
    assert d == [SourceNode, EndNode];
    assert NodeByLabel(d, "end") == Some(EndNode);
    assert NodeByLabel(d, "source") == Some(SourceNode);
    var out := Decode(spec, labels).edges;
    assert out == DecodeEntry(d, 0, spec.edges[0]) + DecodeEntry(d, 1, spec.edges[1]) by {
      assert spec.edges[1..] == [spec.edges[1]];
      assert DecodeEdges(d, spec.edges[1..], 1) == DecodeEntry(d, 1, spec.edges[1]) + DecodeEdges(d, [], 2);
    }
    StartUpViews(out);
  }

  /** On the start-up nodes, every plain edge from `source` to `end` is seen
      as a plain `__start__` to `__end__` edge. */
  lemma StartUpViews(es: seq<Edge>)
    requires forall k :: 0 <= k < |es| ==> es[k].source == "source" && es[k].target == "end" && !es[k].animated
    ensures forall k :: 0 <= k < |es| ==> Views([SourceNode, EndNode], es)[k] == EdgeView("__start__", "__end__", false, "")
  {
    var nodes := [SourceNode, EndNode];
    assert NodeById(nodes, "source") == Some(SourceNode);
    assert NodeById(nodes, "end") == Some(EndNode) by {
      assert nodes[0].id != "end" && nodes[1].id == "end";
    }
  }

  /** `generateSpec` as written, on the start-up graph with one plain edge
      from `source` to `end`: the edge is written twice, and loading the
      specification back gives two such edges. */
  lemma ReloadDoublesEdge(config: Config, labels: map<string, string>)
    ensures var nodes := [SourceNode, EndNode];
            var edges := [Edge("edge-1", "source", "end", false, "")];
            var d := Decode(Encode(nodes, edges, config), labels);
            && Views(nodes, edges) == [EdgeView("__start__", "__end__", false, "")]
            && Views(d.nodes, d.edges) == [EdgeView("__start__", "__end__", false, ""), EdgeView("__start__", "__end__", false, "")]
  {
    var nodes := [SourceNode, EndNode];
    var edges := [Edge("edge-1", "source", "end", false, "")];
    var spec := YamlConfig(config, [], [DirectEntry("__start__", "end"), DirectEntry("source", "__end__")]);
    StartUpViews(edges);
    StartUpEncodes(config);
    assert Encode(nodes, edges, config) == spec;
    StartUpDecodes(config, labels);
  }

  /** The rebuilt step nodes are exactly the step labels the graph's edges
      touch, in the encoder's order, and the configuration is carried over
      unchanged. */
  lemma {:induction false} RoundTripNodes(nodes: seq<Node>, edges: seq<Edge>, config: Config, labels: map<string, string>)
    ensures var spec := Encode(nodes, edges, config);
            var d := Decode(spec, labels);
            && spec.config == config
            && |d.nodes| == |NodeNames(nodes, edges)| + 2
            && d.nodeCount == |NodeNames(nodes, edges)|
            && forall k :: 0 <= k < |NodeNames(nodes, edges)| ==>
                 d.nodes[k + 2].kind == Step && d.nodes[k + 2].name == NodeNames(nodes, edges)[k]
  {
    var ys := SpecNodes(nodes, edges);
    var d := Decode(Encode(nodes, edges, config), labels);
    assert d.nodes == DecodeNodes(ys) && d.nodeCount == |ys|;
    forall k | 0 <= k < |NodeNames(nodes, edges)|
      ensures d.nodes[k + 2].kind == Step && d.nodes[k + 2].name == NodeNames(nodes, edges)[k]
    {
      assert d.nodes[k + 2] == StepNode(ys, k);
    }
  }
}

=== FILE: spec_text.dfy ===
/** The text `generateSpec` returns (src/utils/yamlUtils.ts:148-188): a fixed
    comment header naming the stub and implementation files of the chosen
    language, then one block per key of the specification object — the
    twelve configuration keys as `key: value`, then `nodes:` and `edges:`
    with one item per entry — joined by newlines. */
module SpecText {
  import opened Base
  import opened Graph
  import opened Yaml
  import opened Encoder

  /** `.py` for Python, `.ts` for anything else. */
  function FileExt(language: string): string {
    if language == "python" then ".py" else ".ts"
  }

  const HeaderStart: string :=
    "# This YAML was auto-generated based on an architecture \n"
    + "# designed in LangGraph Builder (https://build.langchain.com).\n"
    + "#\n"
    + "# The YAML was used by langgraph-gen (https://github.com/langchain-ai/langgraph-gen-py) \n"
    + "# to generate a code stub for a LangGraph application that follows the architecture.\n"
    + "#\n"
    + "# langgraph-gen is an open source CLI tool that converts YAML specifications into LangGraph code stubs.\n"
    + "#\n"
    + "# The code stub generated from this YAML can be found in stub"

  const HeaderMiddle: string :=
    ".\n"
    + "#\n"
    + "# A placeholder implementation for the generated stub can be found in implementation"

  /** The comment block naming `stub<ext>` and `implementation<ext>`, then a
      blank line. */
  function Header(language: string): string {
    HeaderStart + FileExt(language) + HeaderMiddle + FileExt(language) + ".\n\n"
  }

  /** `${value}` of an optional field: JavaScript prints `undefined`. */
  function Show(v: Option<string>): string {
    if v.Some? then v.value else "undefined"
  }

  function ConfigLines(c: Config): (r: seq<string>)
    ensures |r| == 12
    ensures forall k :: 0 <= k < 12 ==> r[k] == ConfigEntries(c)[k].0 + ": " + ConfigEntries(c)[k].1
  {
    var es := ConfigEntries(c);
    seq(12, k requires 0 <= k < 12 => es[k].0 + ": " + es[k].1)
  }

  function NodeLines(ns: seq<YamlNode>): (r: seq<string>)
    ensures |r| == |ns|
    ensures forall k :: 0 <= k < |ns| ==> r[k] == "  - name: " + ns[k].name
  {
    seq(|ns|, k requires 0 <= k < |ns| => "  - name: " + ns[k].name)
  }

  /** One edge item: three lines when the entry has a `condition` key, two
      otherwise. */
  function EntryLines(e: YamlEdge): (r: seq<string>)
    ensures |r| > 0
  {
    if e.condition.Some? then
      ["  - from: " + e.from, "    condition: " + e.condition.value,
       "    paths: [" + Show(if e.paths.Some? then Some(Join(e.paths.value, ", ")) else None) + "]"]
    else ["  - from: " + e.from, "    to: " + Show(e.to)]
  }

  function EntriesLines(es: seq<YamlEdge>): (r: seq<seq<string>>)
    ensures |r| == |es|
    ensures forall k :: 0 <= k < |es| ==> r[k] == EntryLines(es[k])
  {
    seq(|es|, k requires 0 <= k < |es| => EntryLines(es[k]))
  }

  /** The blocks the key/value map produces, in key order. */
  function Blocks(spec: YamlConfig): seq<string> {
    ConfigLines(spec.config)
    + ["nodes:\n" + Join(NodeLines(spec.nodes), "\n"),
       "edges:\n" + Join(JoinEach(EntriesLines(spec.edges), "\n"), "\n")]
  }

  /** Everything after the header. */
  function Body(spec: YamlConfig): string {
    Join(Blocks(spec), "\n")
  }

  function Serialise(spec: YamlConfig, language: string): string {
    Header(language) + Body(spec)
  }

  /** `generateSpec(edges, nodes, config, language)` */
  function GenerateSpec(nodes: seq<Node>, edges: seq<Edge>, config: Config, language: string): string {
    Serialise(Encode(nodes, edges, config), language)
  }

  /** The lines under a heading: its items, or one empty line when there
      are none (the heading's block then ends in a newline). */
  function ItemsOrBlank(items: seq<string>): (r: seq<string>)
    ensures |r| > 0
    ensures |items| > 0 ==> r == items
    ensures |items| == 0 ==> r == [""]
  {
    if |items| == 0 then [""] else items
  }

  /** The text as a flat list of lines. */
  function Lines(spec: YamlConfig): seq<string> {
    ConfigLines(spec.config) + ["nodes:"] + ItemsOrBlank(NodeLines(spec.nodes))
    + ["edges:"] + ItemsOrBlank(Flatten(EntriesLines(spec.edges)))
  }

  // ---------------------------------------------------------------------------
  // Properties

  /** Only the file extension in the header depends on the language, and any
      language other than Python gets the TypeScript one. */
  lemma {:induction false} HeaderSpec(language: string)
    ensures Header(language) == Header(if language == "python" then "python" else "typescript")
    ensures Header("python") != Header("typescript")
  {
    var n := |HeaderStart|;
    assert Header("python")[n + 1] == FileExt("python")[1];
    assert Header("typescript")[n + 1] == FileExt("typescript")[1];
  }

  lemma {:induction false} FlattenMember(groups: seq<seq<string>>, x: string)
    requires x in Flatten(groups)
    ensures exists k :: 0 <= k < |groups| && x in groups[k]
    decreases |groups|
  {
    assert Flatten(groups) == groups[0] + Flatten(groups[1..]);
    if x !in groups[0] {
      FlattenMember(groups[1..], x);
      var k :| 0 <= k < |groups[1..]| && x in groups[1..][k];
      assert groups[k + 1] == groups[1..][k];
    }
  }

  /** A heading line followed by its items, or by an empty line when it has
      none. */
  lemma {:induction false} BlockLines(h: string, xs: seq<string>)
    ensures Join([h] + ItemsOrBlank(xs), "\n") == h + "\n" + Join(xs, "\n")
  {
    JoinAppend([h], ItemsOrBlank(xs), "\n");
  }

  lemma {:induction false} GroupsBlockLines(h: string, groups: seq<seq<string>>)
    requires forall k :: 0 <= k < |groups| ==> |groups[k]| > 0
    ensures Join([h] + ItemsOrBlank(Flatten(groups)), "\n") == h + "\n" + Join(JoinEach(groups, "\n"), "\n")
  {
    BlockLines(h, Flatten(groups));
    JoinFlatten(groups, "\n");
  }

  lemma {:induction false} JoinThree(a: seq<string>, b: seq<string>, c: seq<string>, sep: string)
    requires |a| > 0 && |b| > 0 && |c| > 0
    ensures Join(a + b + c, sep) == Join(a, sep) + sep + Join(b, sep) + sep + Join(c, sep)
  {
    JoinAppend(a, b + c, sep);
    JoinAppend(b, c, sep);
    assert a + b + c == a + (b + c);
  }

  /** Joining the blocks equals joining the lines they are made of. */
  lemma {:induction false} BlocksAsLines(cl: seq<string>, items: seq<string>, groups: seq<seq<string>>)
    requires |cl| > 0
    requires forall k :: 0 <= k < |groups| ==> |groups[k]| > 0
    ensures Join(cl + ["nodes:\n" + Join(items, "\n"), "edges:\n" + Join(JoinEach(groups, "\n"), "\n")], "\n")
            == Join(cl + (["nodes:"] + ItemsOrBlank(items)) + (["edges:"] + ItemsOrBlank(Flatten(groups))), "\n")
  {
    var nb := "nodes:\n" + Join(items, "\n");
    var eb := "edges:\n" + Join(JoinEach(groups, "\n"), "\n");
    var nl := ["nodes:"] + ItemsOrBlank(items);
    var el := ["edges:"] + ItemsOrBlank(Flatten(groups));
    assert Join(nl, "\n") == nb by {
      BlockLines("nodes:", items);
    }
    assert Join(el, "\n") == eb by {
      GroupsBlockLines("edges:", groups);
    }
    assert Join(cl + nl + el, "\n") == Join(cl, "\n") + "\n" + nb + "\n" + eb by {
      JoinThree(cl, nl, el, "\n");
    }
    assert Join(cl + [nb, eb], "\n") == Join(cl, "\n") + "\n" + nb + "\n" + eb by {
      assert cl + [nb, eb] == cl + [nb] + [eb];
      JoinThree(cl, [nb], [eb], "\n");
    }
  }

  /** The body is exactly the flat line list joined by newlines: twelve
      `key: value` lines, `nodes:`, a line per node, `edges:`, and two or
      three lines per edge; an empty list leaves one empty line under its
      heading. */
  lemma {:induction false} SerialisedLines(spec: YamlConfig)
    ensures Body(spec) == Join(Lines(spec), "\n")
  {
    var groups := EntriesLines(spec.edges);
    BlocksAsLines(ConfigLines(spec.config), NodeLines(spec.nodes), groups);
    assert Lines(spec) == ConfigLines(spec.config) + (["nodes:"] + ItemsOrBlank(NodeLines(spec.nodes)))
                          + (["edges:"] + ItemsOrBlank(Flatten(groups)));
  }

  predicate SingleLineEntry(e: YamlEdge) {
    && '\n' !in e.from
    && (e.to.Some? ==> '\n' !in e.to.value)
    && (e.condition.Some? ==> '\n' !in e.condition.value)
    && (e.paths.Some? ==> forall j :: 0 <= j < |e.paths.value| ==> '\n' !in e.paths.value[j])
  }

  /** No newline in any value the text prints. */
  predicate SingleLineValues(spec: YamlConfig) {
    && (forall k :: 0 <= k < 12 ==> '\n' !in ConfigEntries(spec.config)[k].1)
    && (forall k :: 0 <= k < |spec.nodes| ==> '\n' !in spec.nodes[k].name)
    && (forall k :: 0 <= k < |spec.edges| ==> SingleLineEntry(spec.edges[k]))
  }

  lemma {:induction false} JoinNoChar(xs: seq<string>, sep: string, c: char)
    requires c !in sep
    requires forall k :: 0 <= k < |xs| ==> c !in xs[k]
    ensures c !in Join(xs, sep)
    decreases |xs|
  {
    if |xs| > 1 {
      JoinNoChar(xs[1..], sep, c);
    }
  }

  lemma {:induction false} EntryLinesSingle(e: YamlEdge)
    requires SingleLineEntry(e)
    ensures forall k :: 0 <= k < |EntryLines(e)| ==> '\n' !in EntryLines(e)[k]
  {
    if e.paths.Some? {
      JoinNoChar(e.paths.value, ", ", '\n');
    }
  }

  lemma {:induction false} ConfigLinesSingle(c: Config)
    requires forall k :: 0 <= k < 12 ==> '\n' !in ConfigEntries(c)[k].1
    ensures forall k :: 0 <= k < 12 ==> '\n' !in ConfigLines(c)[k]
  {
    var es := ConfigEntries(c);
    forall k | 0 <= k < 12
      ensures '\n' !in ConfigLines(c)[k]
    {
      assert '\n' !in es[k].0;
    }
  }

  lemma {:induction false} EntriesLinesSingle(es: seq<YamlEdge>)
    requires forall k :: 0 <= k < |es| ==> SingleLineEntry(es[k])
    ensures forall x :: x in Flatten(EntriesLines(es)) ==> '\n' !in x
  {
    var groups := EntriesLines(es);
    forall x | x in Flatten(groups)
      ensures '\n' !in x
    {
      FlattenMember(groups, x);
      var k :| 0 <= k < |groups| && x in groups[k];
      EntryLinesSingle(es[k]);
    }
  }

  lemma {:induction false} HeadedSingle(h: string, xs: seq<string>)
    requires '\n' !in h
    requires forall x :: x in xs ==> '\n' !in x
    ensures forall x :: x in [h] + ItemsOrBlank(xs) ==> '\n' !in x
  {
  }

  lemma {:induction false} NodeLinesSingle(ns: seq<YamlNode>)
    requires forall k :: 0 <= k < |ns| ==> '\n' !in ns[k].name
    ensures forall x :: x in NodeLines(ns) ==> '\n' !in x
  {
    forall x | x in NodeLines(ns)
      ensures '\n' !in x
    {
      var k :| 0 <= k < |ns| && NodeLines(ns)[k] == x;
      assert "  - name: " + ns[k].name == x;
    }
  }

  lemma {:induction false} LinesSingle(spec: YamlConfig)
    requires SingleLineValues(spec)
    ensures forall k :: 0 <= k < |Lines(spec)| ==> '\n' !in Lines(spec)[k]
  {
    var cl := ConfigLines(spec.config);
    var nl := ["nodes:"] + ItemsOrBlank(NodeLines(spec.nodes));
    var el := ["edges:"] + ItemsOrBlank(Flatten(EntriesLines(spec.edges)));
    ConfigLinesSingle(spec.config);
    forall x | x in cl
      ensures '\n' !in x
    {
      var k :| 0 <= k < |cl| && cl[k] == x;
    }
    NodeLinesSingle(spec.nodes);
    HeadedSingle("nodes:", NodeLines(spec.nodes));
    EntriesLinesSingle(spec.edges);
    HeadedSingle("edges:", Flatten(EntriesLines(spec.edges)));
    assert Lines(spec) == cl + nl + el;
    forall k | 0 <= k < |Lines(spec)|
      ensures '\n' !in Lines(spec)[k]
    {
      assert Lines(spec)[k] in cl + nl + el;
    }
  }

  /** When no value holds a newline, splitting the body at newlines gives
      back exactly the line list. */
  lemma {:induction false} SplitIntoLines(spec: YamlConfig)
    requires SingleLineValues(spec)
    ensures Split(Body(spec), '\n') == Lines(spec)
  {
    SerialisedLines(spec);
    LinesSingle(spec);
    assert "\n" == ['\n'];
    SplitJoin(Lines(spec), '\n');
  }
}

=== FILE: template_config.dfy ===
/** The code-template dialog of src/components/modals/CodeTemplateConfig.tsx:
    per template type the user picks 'default', 'disabled' or a named
    template; the dialog keeps the chosen names, the disabled types and the
    language, and on save hands back the disabled list and the real
    choices. */
module TemplateDialog {
  import opened Base

  /** `selectedTemplateType` (None for null), `selectedTemplate`,
      `selectedTemplates`, `disabledTemplates`, `language`. */
  datatype Dialog = Dialog(selectedType: Option<string>, selected: string,
                           chosen: map<string, string>, disabled: seq<string>, language: string)

  /** What `handleClose` passes to `onSave`. */
  datatype Saved = Saved(only: seq<string>, skip: seq<string>, custom: map<string, string>, language: string)

  /** `if (selectedTemplateType)`: a type is selected and it is not "". */
  predicate HasType(d: Dialog) {
    d.selectedType.Some? && d.selectedType.value != ""
  }

  function Without(xs: seq<string>, t: string): (r: seq<string>)
    ensures forall x :: x in r <==> x in xs && x != t
  {
    Filter(xs, (x: string) => x != t)
  }

  /** `handleTemplateSelection(name)` */
  function Select(d: Dialog, name: string): (r: Dialog)
    ensures r.selected == name && r.selectedType == d.selectedType && r.language == d.language
    ensures !HasType(d) ==> r == d.(selected := name)
  {
    var d1 := d.(selected := name);
    if !HasType(d) then d1
    else
      var t := d.selectedType.value;
      if name == "disabled" then
        d1.(disabled := if t in d.disabled then d.disabled else d.disabled + [t], chosen := d.chosen - {t})
      else if name != "default" then
        d1.(chosen := d.chosen[t := name], disabled := if t in d.disabled then Without(d.disabled, t) else d.disabled)
      else
        d1.(disabled := if t in d.disabled then Without(d.disabled, t) else d.disabled, chosen := d.chosen - {t})
  }

  /** No type is both disabled and mapped to a template. */
  predicate Consistent(d: Dialog) {
    forall t :: t in d.disabled ==> t !in d.chosen
  }

  /** The selected type ends disabled and unmapped, mapped to the name and
      enabled, or neither; other types keep their entries, and the disabled
      list gains no duplicate. */
  lemma {:induction false} SelectSpec(d: Dialog, name: string)
    requires HasType(d)
    ensures var t := d.selectedType.value;
            var r := Select(d, name);
            && (name == "disabled" ==> t in r.disabled && t !in r.chosen)
            && (name != "disabled" && name != "default" ==> t !in r.disabled && t in r.chosen && r.chosen[t] == name)
            && (name == "default" ==> t !in r.disabled && t !in r.chosen)
            && !(t in r.disabled && t in r.chosen)
            && (forall u :: u != t ==> (u in r.disabled <==> u in d.disabled))
            && (forall u :: u != t ==> (u in r.chosen <==> u in d.chosen) && (u in d.chosen ==> r.chosen[u] == d.chosen[u]))
            && (NoDuplicates(d.disabled) ==> NoDuplicates(r.disabled))
  {
    var t := d.selectedType.value;
    var r := Select(d, name);
    if NoDuplicates(d.disabled) {
      if name == "disabled" && t !in d.disabled {
        assert forall i :: 0 <= i < |d.disabled| ==> d.disabled[i] != t;
      } else if name != "disabled" && t in d.disabled {
        FilterOrder(d.disabled, (x: string) => x != t);
      }
    }
  }

  /** Selection keeps the dialog consistent and doing it twice is the same
      as doing it once. */
  lemma {:induction false} SelectInvariant(d: Dialog, name: string)
    requires Consistent(d)
    ensures Consistent(Select(d, name))
    ensures Select(Select(d, name), name) == Select(d, name)
  {
    SelectConsistent(d, name);
    SelectIdempotent(d, name);
  }

  lemma {:induction false} SelectConsistent(d: Dialog, name: string)
    requires Consistent(d)
    ensures Consistent(Select(d, name))
  {
    if HasType(d) {
      SelectSpec(d, name);
      var t := d.selectedType.value;
      var r := Select(d, name);
      forall u | u in r.disabled
        ensures u !in r.chosen
      {
        if u != t {
          assert u in d.disabled;
        }
      }
    }
  }

  lemma {:induction false} SelectIdempotent(d: Dialog, name: string)
    ensures Select(Select(d, name), name) == Select(d, name)
  {
    if HasType(d) {
      var t := d.selectedType.value;
      var r := Select(d, name);
      SelectSpec(d, name);
      if name == "disabled" {
        assert r.chosen - {t} == r.chosen;
      } else if name != "default" {
        assert r.chosen[t := name] == r.chosen;
      } else {
        assert r.chosen - {t} == r.chosen;
      }
    }
  }

  /** `handleTemplateTypeChange(type)` */
  function ChangeType(d: Dialog, ty: Option<string>): (r: Dialog)
    ensures r.selectedType == ty && r.chosen == d.chosen && r.disabled == d.disabled && r.language == d.language
    ensures r.selected in {"disabled", "default"}
  {
    d.(selectedType := ty,
       selected := if ty.Some? && ty.value != "" && ty.value in d.disabled then "disabled" else "default")
  }

  /** Returning to a type shows what was last chosen for it: 'disabled'
      after disabling it, 'default' otherwise (a named choice is shown as
      'default' too, since the switch only consults the disabled list). */
  lemma {:induction false} SelectionShownAgain(d: Dialog, name: string, other: Option<string>)
    requires HasType(d)
    ensures var t := d.selectedType.value;
            ChangeType(ChangeType(Select(d, name), other), Some(t)).selected
            == (if name == "disabled" then "disabled" else "default")
  {
    SelectSpec(d, name);
  }

  /** A stored choice worth sending: non-empty, not 'default', not 'disabled'. */
  predicate RealChoice(v: string) {
    v != "" && v != "default" && v != "disabled"
  }

  function KeepReal(m: map<string, string>): (r: map<string, string>)
    ensures forall k :: k in r <==> k in m && RealChoice(m[k])
    ensures forall k :: k in r ==> r[k] == m[k]
  {
    map k | k in m && RealChoice(m[k]) :: m[k]
  }

  /** `handleClose` */
  function Close(d: Dialog): Saved {
    Saved([], d.disabled, KeepReal(d.chosen), d.language)
  }

  /** What a selection leaves for the save: a real template name is sent for
      its type, 'default' and 'disabled' send nothing for it, and only
      'disabled' puts the type on the skip list. */
  lemma {:induction false} SaveAfterSelect(d: Dialog, name: string)
    requires HasType(d)
    ensures var t := d.selectedType.value;
            var s := Close(Select(d, name));
            && (t in s.custom <==> RealChoice(name))
            && (t in s.custom ==> s.custom[t] == name)
            && (t in s.skip <==> name == "disabled")
            && s.only == []
  {
    SelectSpec(d, name);
  }

  /** `handleReset`: no choices, nothing disabled, no type selected,
      'default' selected and Python. */
  function Reset(d: Dialog): Dialog {
    Dialog(None, "default", map[], [], "python")
  }

  lemma ResetSpec(d: Dialog, e: Dialog)
    ensures Close(Reset(d)) == Saved([], [], map[], "python")
    ensures Reset(d) == Reset(e) && Consistent(Reset(d)) && !HasType(Reset(d))
  {
  }

  /** The language selector: switch language, clear the type and go back
      to 'default'; choices and disabled types stay. */
  function ChangeLanguage(d: Dialog, lang: string): (r: Dialog)
    ensures r.language == lang && !HasType(r) && r.selected == "default"
    ensures r.chosen == d.chosen && r.disabled == d.disabled
  {
    d.(language := lang, selectedType := None, selected := "default")
  }

  // ---------------------------------------------------------------------------
  // getTemplateTypes

  const Ordered: seq<string> := ["graph", "stub", "implementation", "prompts", "pipeline", "tools", "state", "config"]
  const Fallback: seq<string> := ["stub", "implementation", "prompts", "pipeline", "tools", "state", "config", "graph"]

  /** The types to list, from the template error ("" for none) and the
      template-type keys of the current language (empty when the language
      has none): the fixed fallback on error or when there are no keys,
      otherwise the known types in their fixed order, then the rest in key
      order. */
  function TemplateTypes(error: string, keys: seq<string>): seq<string> {
    if error != "" || |keys| == 0 then Fallback else Listing(keys)
  }

  function Known(keys: seq<string>): seq<string> {
    Filter(Ordered, (t: string) => t in Dedup(keys))
  }

  function Unknown(keys: seq<string>): seq<string> {
    Filter(Dedup(keys), (t: string) => t !in Ordered)
  }

  function Listing(keys: seq<string>): seq<string> {
    Known(keys) + Unknown(keys)
  }

  lemma OrderedDistinct()
    ensures NoDuplicates(Ordered)
  {
  }

  /** Order carried through a sub-sequence: what is ordered by position in
      `mid`, whose elements are ordered by position in `keys`, is ordered by
      position in `keys`. */
  lemma {:induction false} OrderThrough(sub: seq<string>, mid: seq<string>, keys: seq<string>)
    requires forall x :: x in sub ==> x in mid
    requires forall x :: x in mid ==> x in keys
    requires forall i, j :: 0 <= i < j < |sub| ==> FirstPos(mid, sub[i]) < FirstPos(mid, sub[j])
    requires forall i, j :: 0 <= i < j < |mid| ==> FirstPos(keys, mid[i]) < FirstPos(keys, mid[j])
    ensures forall i, j :: 0 <= i < j < |sub| ==> FirstPos(keys, sub[i]) < FirstPos(keys, sub[j])
  {
    forall i, j | 0 <= i < j < |sub|
      ensures FirstPos(keys, sub[i]) < FirstPos(keys, sub[j])
    {
      var a, b := FirstPos(mid, sub[i]), FirstPos(mid, sub[j]);
      assert mid[a] == sub[i] && mid[b] == sub[j];
    }
  }

  /** Known types, then the rest: no duplicates, known ones first and in
      their own order, the rest in key order. */
  lemma {:induction false} KnownThenRest(known: seq<string>, rest: seq<string>, keys: seq<string>)
    requires NoDuplicates(known) && NoDuplicates(rest)
    requires forall x :: x in known ==> x in Ordered
    requires forall x :: x in rest ==> x !in Ordered && x in keys
    requires forall i, j :: 0 <= i < j < |known| ==> FirstPos(Ordered, known[i]) < FirstPos(Ordered, known[j])
    requires forall i, j :: 0 <= i < j < |rest| ==> FirstPos(keys, rest[i]) < FirstPos(keys, rest[j])
    ensures var r := known + rest;
            && NoDuplicates(r)
            && (forall i, j :: 0 <= i < j < |r| && r[j] in Ordered ==> r[i] in Ordered)
            && (forall i, j :: 0 <= i < j < |r| && r[j] in Ordered ==> FirstPos(Ordered, r[i]) < FirstPos(Ordered, r[j]))
            && (forall i, j :: 0 <= i < j < |r| && r[i] !in Ordered ==> FirstPos(keys, r[i]) < FirstPos(keys, r[j]))
  {
    var r := known + rest;
    forall i, j | 0 <= i < j < |r|
      ensures r[i] != r[j]
      ensures r[j] in Ordered ==> r[i] in Ordered && FirstPos(Ordered, r[i]) < FirstPos(Ordered, r[j])
      ensures r[i] !in Ordered ==> r[j] in keys && FirstPos(keys, r[i]) < FirstPos(keys, r[j])
    {
      if j < |known| {
        assert r[i] == known[i] && r[j] == known[j];
      } else if i >= |known| {
        assert r[i] == rest[i - |known|] && r[j] == rest[j - |known|];
      } else {
        assert r[i] == known[i] && r[j] == rest[j - |known|];
      }
    }
  }

  lemma KnownAndRestCover(known: seq<string>, rest: seq<string>, keys: seq<string>)
    requires forall x :: x in known <==> x in Ordered && x in keys
    requires forall x :: x in rest <==> x !in Ordered && x in keys
    ensures forall x :: x in known + rest <==> x in keys
  {
  }

  lemma {:induction false} KnownSpec(keys: seq<string>)
    ensures NoDuplicates(Known(keys))
    ensures forall x :: x in Known(keys) <==> x in Ordered && x in keys
    ensures forall i, j :: 0 <= i < j < |Known(keys)| ==> FirstPos(Ordered, Known(keys)[i]) < FirstPos(Ordered, Known(keys)[j])
  {
    DedupSpec(keys);
    OrderedDistinct();
    FilterOrder(Ordered, (t: string) => t in Dedup(keys));
  }

  lemma {:induction false} UnknownSpec(keys: seq<string>)
    ensures NoDuplicates(Unknown(keys))
    ensures forall x :: x in Unknown(keys) <==> x !in Ordered && x in keys
    ensures forall i, j :: 0 <= i < j < |Unknown(keys)| ==> FirstPos(keys, Unknown(keys)[i]) < FirstPos(keys, Unknown(keys)[j])
  {
    DedupSpec(keys);
    FilterOrder(Dedup(keys), (t: string) => t !in Ordered);
    OrderThrough(Unknown(keys), Dedup(keys), keys);
  }

  /** `r` lists exactly the available types; known types come first and in
      the fixed order, the others follow in the order the keys first name
      them. */
  ghost predicate ListedInOrder(r: seq<string>, keys: seq<string>) {
    && (forall x :: x in r <==> x in keys)
    && (forall i, j :: 0 <= i < j < |r| && r[j] in Ordered ==> r[i] in Ordered)
    && (forall i, j :: 0 <= i < j < |r| && r[j] in Ordered ==> FirstPos(Ordered, r[i]) < FirstPos(Ordered, r[j]))
    && (forall i, j :: 0 <= i < j < |r| && r[i] !in Ordered ==> FirstPos(keys, r[i]) < FirstPos(keys, r[j]))
  }

  lemma {:induction false} ListingSpec(keys: seq<string>)
    ensures NoDuplicates(Listing(keys)) && ListedInOrder(Listing(keys), keys)
  {
    KnownSpec(keys);
    UnknownSpec(keys);
    KnownThenRest(Known(keys), Unknown(keys), keys);
    KnownAndRestCover(Known(keys), Unknown(keys), keys);
  }

  /** The fallback on an error or when there are no keys; otherwise a
      listing without duplicates in the order above. */
  lemma {:induction false} TemplateTypesSpec(error: string, keys: seq<string>)
    ensures error != "" || |keys| == 0 ==> TemplateTypes(error, keys) == Fallback
    ensures error == "" && |keys| > 0 ==>
              NoDuplicates(TemplateTypes(error, keys)) && ListedInOrder(TemplateTypes(error, keys), keys)
  {
    if error == "" && |keys| > 0 {
      ListingSpec(keys);
    }
  }
}

=== FILE: templates.dfy ===
/** The template catalogue the editor keeps (src/components/Flow.tsx):
    `fetchTemplates` groups the generator's template records by language
    and template type (232-247) or falls back to an empty catalogue with an
    error message, and `handleTemplateChange` updates the per-file-type
    template choice (830-838). */
module Templates {
  import opened Base
  import opened Api

  /** `{ names, contentMap }` for one language and template type. */
  datatype TypeEntry = TypeEntry(names: seq<string>, content: map<string, string>)

  /** language → template type → entry. */
  type Catalog = map<string, map<string, TypeEntry>>

  const EmptyCatalog: Catalog := map["python" := map[], "typescript" := map[]]

  const NoEntry: TypeEntry := TypeEntry([], map[])

  /** The entry for `lang`/`ty`, or an empty one. */
  function EntryOf(c: Catalog, lang: string, ty: string): TypeEntry {
    if lang in c && ty in c[lang] then c[lang][ty] else NoEntry
  }

  predicate Listed(c: Catalog, lang: string, ty: string) {
    lang in c && ty in c[lang]
  }

  /** One step of the `forEach`: create the language and the type when
      missing, push the name, and store the content under it. */
  function AddRecord(c: Catalog, r: TemplateRecord): Catalog {
    var langMap := if r.language in c then c[r.language] else map[];
    var e := EntryOf(c, r.language, r.templateType);
    c[r.language := langMap[r.templateType := TypeEntry(e.names + [r.name], e.content[r.name := r.content])]]
  }

  function AddRecords(c: Catalog, rs: seq<TemplateRecord>): Catalog
    decreases |rs|
  {
    if |rs| == 0 then c else AddRecord(AddRecords(c, rs[..|rs| - 1]), rs[|rs| - 1])
  }

  function OfType(lang: string, ty: string): TemplateRecord -> bool {
    (r: TemplateRecord) => r.language == lang && r.templateType == ty
  }

  function Names(rs: seq<TemplateRecord>): (r: seq<string>)
    ensures |r| == |rs|
    ensures forall k :: 0 <= k < |rs| ==> r[k] == rs[k].name
  {
    seq(|rs|, k requires 0 <= k < |rs| => rs[k].name)
  }

  /** Adding one record touches only its own language and type. */
  lemma AddRecordSpec(c: Catalog, r: TemplateRecord, lang: string, ty: string)
    ensures lang in AddRecord(c, r) <==> lang in c || lang == r.language
    ensures Listed(AddRecord(c, r), lang, ty) <==> Listed(c, lang, ty) || OfType(lang, ty)(r)
    ensures EntryOf(AddRecord(c, r), lang, ty)
            == if OfType(lang, ty)(r)
               then TypeEntry(EntryOf(c, lang, ty).names + [r.name], EntryOf(c, lang, ty).content[r.name := r.content])
               else EntryOf(c, lang, ty)
  {
  }

  /** The entry for `lang`/`ty` after adding the last record of `rs`. */
  lemma {:induction false} AddRecordsLast(c: Catalog, rs: seq<TemplateRecord>, lang: string, ty: string)
    requires |rs| > 0
    ensures var e := EntryOf(AddRecords(c, rs[..|rs| - 1]), lang, ty);
            var r := rs[|rs| - 1];
            EntryOf(AddRecords(c, rs), lang, ty)
            == if r.language == lang && r.templateType == ty
               then TypeEntry(e.names + [r.name], e.content[r.name := r.content])
               else e
  {
    AddRecordSpec(AddRecords(c, rs[..|rs| - 1]), rs[|rs| - 1], lang, ty);
  }

  lemma NamesSnoc(f: seq<TemplateRecord>, r: TemplateRecord)
    ensures Names(f + [r]) == Names(f) + [r.name]
  {
  }

  /** Each language/type entry lists the names of the records of that
      language and type, in record order, after whatever it held before. */
  lemma {:induction false} AddRecordsNames(c: Catalog, rs: seq<TemplateRecord>, lang: string, ty: string)
    ensures EntryOf(AddRecords(c, rs), lang, ty).names == EntryOf(c, lang, ty).names + Names(Filter(rs, OfType(lang, ty)))
    decreases |rs|
  {
    if |rs| > 0 {
      var pre := rs[..|rs| - 1];
      var r := rs[|rs| - 1];
      var p := OfType(lang, ty);
      var before := EntryOf(AddRecords(c, pre), lang, ty).names;
      AddRecordsLast(c, rs, lang, ty);
      AddRecordsNames(c, pre, lang, ty);
      FilterLast(rs, p);
      var f := Filter(pre, p);
      NamesSnoc(f, r);
      if p(r) {
        assert Filter(rs, p) == f + [r];
      } else {
        assert Filter(rs, p) == f;
      }
    }
  }

  /** A type is listed exactly when it was listed already or some record
      has that language and type. */
  lemma {:induction false} AddRecordsListed(c: Catalog, rs: seq<TemplateRecord>, lang: string, ty: string)
    ensures Listed(AddRecords(c, rs), lang, ty) <==> Listed(c, lang, ty) || |Filter(rs, OfType(lang, ty))| > 0
    decreases |rs|
  {
    if |rs| > 0 {
      var pre := rs[..|rs| - 1];
      var r := rs[|rs| - 1];
      AddRecordsListed(c, pre, lang, ty);
      AddRecordSpec(AddRecords(c, pre), r, lang, ty);
      FilterLast(rs, OfType(lang, ty));
    }
  }

  /** Languages are only ever added. */
  lemma {:induction false} AddRecordsKeepsLanguages(c: Catalog, rs: seq<TemplateRecord>, lang: string)
    requires lang in c
    ensures lang in AddRecords(c, rs)
    decreases |rs|
  {
    if |rs| > 0 {
      AddRecordsKeepsLanguages(c, rs[..|rs| - 1], lang);
      AddRecordSpec(AddRecords(c, rs[..|rs| - 1]), rs[|rs| - 1], lang, "");
    }
  }

  function Named(lang: string, ty: string, name: string): TemplateRecord -> bool {
    (r: TemplateRecord) => r.language == lang && r.templateType == ty && r.name == name
  }

  /** A name has content exactly when it had before or some record has that
      language, type and name. */
  lemma {:induction false} AddRecordsHasContent(c: Catalog, rs: seq<TemplateRecord>, lang: string, ty: string, name: string)
    ensures name in EntryOf(AddRecords(c, rs), lang, ty).content
            <==> name in EntryOf(c, lang, ty).content || |Filter(rs, Named(lang, ty, name))| > 0
    decreases |rs|
  {
    if |rs| > 0 {
      var pre := rs[..|rs| - 1];
      var r := rs[|rs| - 1];
      ContentStep(c, rs, lang, ty, name);
      AddRecordsHasContent(c, pre, lang, ty, name);
      FilterLast(rs, Named(lang, ty, name));
    }
  }

  /** What adding the last record does to the content under `name`. */
  lemma {:induction false} ContentStep(c: Catalog, rs: seq<TemplateRecord>, lang: string, ty: string, name: string)
    requires |rs| > 0
    ensures var e0 := EntryOf(AddRecords(c, rs[..|rs| - 1]), lang, ty).content;
            var e := EntryOf(AddRecords(c, rs), lang, ty).content;
            var r := rs[|rs| - 1];
            && (name in e <==> name in e0 || Named(lang, ty, name)(r))
            && (Named(lang, ty, name)(r) ==> e[name] == r.content)
            && (!Named(lang, ty, name)(r) && name in e0 ==> e[name] == e0[name])
  {
    AddRecordsLast(c, rs, lang, ty);
  }

  /** The content stored under a name is that of the last record of that
      language, type and name; without such a record it is what was there. */
  lemma {:induction false} AddRecordsContent(c: Catalog, rs: seq<TemplateRecord>, lang: string, ty: string, name: string)
    ensures var sel := Filter(rs, Named(lang, ty, name));
            var e := EntryOf(AddRecords(c, rs), lang, ty).content;
            && (|sel| > 0 ==> name in e && e[name] == sel[|sel| - 1].content)
            && (|sel| == 0 && name in EntryOf(c, lang, ty).content ==>
                  name in e && e[name] == EntryOf(c, lang, ty).content[name])
  {
    AddRecordsHasContent(c, rs, lang, ty, name);
    if |Filter(rs, Named(lang, ty, name))| > 0 {
      LastRecordContent(c, rs, lang, ty, name);
    } else if name in EntryOf(c, lang, ty).content {
      KeptContent(c, rs, lang, ty, name);
    }
  }

  lemma {:induction false} LastRecordContent(c: Catalog, rs: seq<TemplateRecord>, lang: string, ty: string, name: string)
    requires |Filter(rs, Named(lang, ty, name))| > 0
    ensures var sel := Filter(rs, Named(lang, ty, name));
            var e := EntryOf(AddRecords(c, rs), lang, ty).content;
            name in e && e[name] == sel[|sel| - 1].content
    decreases |rs|
  {
    var pre := rs[..|rs| - 1];
    var r := rs[|rs| - 1];
    var p := Named(lang, ty, name);
    ContentStep(c, rs, lang, ty, name);
    FilterLast(rs, p);
    if p(r) {
      assert Filter(rs, p) == Filter(pre, p) + [r];
    } else {
      assert Filter(rs, p) == Filter(pre, p);
      LastRecordContent(c, pre, lang, ty, name);
      AddRecordsHasContent(c, pre, lang, ty, name);
    }
  }

  lemma {:induction false} KeptContent(c: Catalog, rs: seq<TemplateRecord>, lang: string, ty: string, name: string)
    requires |Filter(rs, Named(lang, ty, name))| == 0
    requires name in EntryOf(c, lang, ty).content
    ensures var e := EntryOf(AddRecords(c, rs), lang, ty).content;
            name in e && e[name] == EntryOf(c, lang, ty).content[name]
    decreases |rs|
  {
    if |rs| > 0 {
      var pre := rs[..|rs| - 1];
      var r := rs[|rs| - 1];
      var p := Named(lang, ty, name);
      ContentStep(c, rs, lang, ty, name);
      FilterLast(rs, p);
      assert !p(r) && |Filter(pre, p)| == 0;
      KeptContent(c, pre, lang, ty, name);
    }
  }

  /** Grouping from the empty catalogue: both languages are always present,
      a type is listed iff some record has it, its names are those records'
      names in order, and each name maps to the content of its last record. */
  lemma {:induction false} GroupedCatalog(rs: seq<TemplateRecord>, lang: string, ty: string, name: string)
    ensures "python" in AddRecords(EmptyCatalog, rs) && "typescript" in AddRecords(EmptyCatalog, rs)
    ensures Listed(AddRecords(EmptyCatalog, rs), lang, ty) <==> |Filter(rs, OfType(lang, ty))| > 0
    ensures EntryOf(AddRecords(EmptyCatalog, rs), lang, ty).names == Names(Filter(rs, OfType(lang, ty)))
    ensures var sel := Filter(rs, Named(lang, ty, name));
            && (name in EntryOf(AddRecords(EmptyCatalog, rs), lang, ty).content <==> |sel| > 0)
            && (|sel| > 0 ==> EntryOf(AddRecords(EmptyCatalog, rs), lang, ty).content[name] == sel[|sel| - 1].content)
  {
    AddRecordsKeepsLanguages(EmptyCatalog, rs, "python");
    AddRecordsKeepsLanguages(EmptyCatalog, rs, "typescript");
    GroupedListed(rs, lang, ty);
    GroupedNames(rs, lang, ty);
    GroupedContent(rs, lang, ty, name);
  }

  lemma {:induction false} GroupedListed(rs: seq<TemplateRecord>, lang: string, ty: string)
    ensures Listed(AddRecords(EmptyCatalog, rs), lang, ty) <==> |Filter(rs, OfType(lang, ty))| > 0
  {
    EmptyEntry(lang, ty);
    AddRecordsListed(EmptyCatalog, rs, lang, ty);
  }

  lemma {:induction false} GroupedNames(rs: seq<TemplateRecord>, lang: string, ty: string)
    ensures EntryOf(AddRecords(EmptyCatalog, rs), lang, ty).names == Names(Filter(rs, OfType(lang, ty)))
  {
    EmptyEntry(lang, ty);
    AddRecordsNames(EmptyCatalog, rs, lang, ty);
    EmptyPrefix(EntryOf(EmptyCatalog, lang, ty).names, Names(Filter(rs, OfType(lang, ty))));
  }

  lemma {:induction false} GroupedContent(rs: seq<TemplateRecord>, lang: string, ty: string, name: string)
    ensures var sel := Filter(rs, Named(lang, ty, name));
            && (name in EntryOf(AddRecords(EmptyCatalog, rs), lang, ty).content <==> |sel| > 0)
            && (|sel| > 0 ==> EntryOf(AddRecords(EmptyCatalog, rs), lang, ty).content[name] == sel[|sel| - 1].content)
  {
    EmptyEntry(lang, ty);
    AddRecordsHasContent(EmptyCatalog, rs, lang, ty, name);
    if |Filter(rs, Named(lang, ty, name))| > 0 {
      LastRecordContent(EmptyCatalog, rs, lang, ty, name);
    }
  }

  /** The empty catalogue lists no type. */
  lemma EmptyEntry(lang: string, ty: string)
    ensures EntryOf(EmptyCatalog, lang, ty) == NoEntry && !Listed(EmptyCatalog, lang, ty)
  {
  }

  /** What `/api/get-templates` gave the editor: a thrown error, or a
      status with the JSON's `error` and `templates` fields. */
  datatype Fetched =
    | FetchThrew(message: string)
    | FetchAnswered(ok: bool, statusText: string, error: string, templates: Option<seq<TemplateRecord>>)

  datatype Loaded = Loaded(catalog: Catalog, error: Option<string>)

  /** `fetchTemplates`: every failure leaves the empty catalogue and an
      error; a non-empty list is grouped. */
  function FetchTemplates(f: Fetched): Loaded {
    match f
    case FetchThrew(m) => Loaded(EmptyCatalog, Some(m))
    case FetchAnswered(ok, statusText, error, templates) =>
      if !ok then Loaded(EmptyCatalog, Some("Failed to fetch templates: " + statusText))
      else if error != "" then Loaded(EmptyCatalog, Some(error))
      else if templates.None? || |templates.value| == 0 then Loaded(EmptyCatalog, Some("No templates returned from server"))
      else Loaded(AddRecords(EmptyCatalog, templates.value), None)
  }

  /** An error is reported exactly when the catalogue is the empty one
      chosen on failure; on success it is the grouping of the records. */
  lemma FetchTemplatesSpec(f: Fetched)
    ensures FetchTemplates(f).error.Some? ==> FetchTemplates(f).catalog == EmptyCatalog
    ensures FetchTemplates(f).error.None? <==>
              f.FetchAnswered? && f.ok && f.error == "" && f.templates.Some? && |f.templates.value| > 0
    ensures FetchTemplates(f).error.None? ==> FetchTemplates(f).catalog == AddRecords(EmptyCatalog, f.templates.value)
  {
  }

  /** `handleTemplateChange(fileType, templateName)`: 'default' removes the
      choice, anything else records it. */
  function ChangeTemplate(m: map<string, string>, fileType: string, name: string): (r: map<string, string>)
    ensures name == "default" ==> fileType !in r
    ensures name != "default" ==> fileType in r && r[fileType] == name
    ensures forall k :: k != fileType ==> (k in r <==> k in m) && (k in m ==> r[k] == m[k])
  {
    if name == "default" then m - {fileType} else m[fileType := name]
  }

  /** Choosing a template and then 'default' for the same file type leaves
      the map as it was without that type. */
  lemma ChangeTemplateUndo(m: map<string, string>, t: string, name: string)
    ensures ChangeTemplate(ChangeTemplate(m, t, name), t, "default") == m - {t}
  {
  }

  /** Choices for different file types do not interfere. */
  lemma {:induction false} ChangeTemplateCommute(m: map<string, string>, t: string, u: string, name: string, other: string)
    requires t != u
    ensures ChangeTemplate(ChangeTemplate(m, t, name), u, other) == ChangeTemplate(ChangeTemplate(m, u, other), t, name)
  {
    var a := ChangeTemplate(ChangeTemplate(m, t, name), u, other);
    var b := ChangeTemplate(ChangeTemplate(m, u, other), t, name);
    forall k
      ensures (k in a <==> k in b) && (k in a ==> a[k] == b[k])
    {
      if k == t {
        assert k != u;
      } else if k == u {
        assert k != t;
      }
    }
    assert a == b;
  }
}

=== FILE: yaml.dfy ===
/** The YAML specification at the parsed level: the `YamlNode`, `YamlEdge` and
    `YamlConfig` types of src/utils/yamlUtils.ts, and the twelve scalar fields
    the editor keeps in `configValues`. */
module Yaml {
  import opened Base

  datatype YamlNode = YamlNode(name: string)

  /** A `YamlEdge` as TypeScript declares it: `to`, `condition` and `paths`
      are optional. The encoder only builds the two shapes below; a parsed
      file may hold any combination. */
  datatype YamlEdge = YamlEdge(from: string, to: Option<string>, condition: Option<string>,
                               paths: Option<seq<string>>)

  function DirectEntry(from: string, to: string): YamlEdge {
    YamlEdge(from, Some(to), None, None)
  }

  function BranchEntry(from: string, condition: string, paths: seq<string>): YamlEdge {
    YamlEdge(from, None, Some(condition), Some(paths))
  }

  /** The decoder's test `'condition' in edge && edge.paths`: a present
      `paths` array is truthy even when empty. */
  predicate IsBranchEntry(e: YamlEdge) {
    e.condition.Some? && e.paths.Some?
  }

  /** Every branch entry lists at least one path. */
  predicate PathsNonEmpty(ys: seq<YamlEdge>) {
    forall k :: 0 <= k < |ys| && IsBranchEntry(ys[k]) ==> |ys[k].paths.value| > 0
  }

  /** The scalar fields of a specification. In a parsed file an absent field
      and "" are both falsy and every reader treats them alike, so "" stands
      for absent. */
  datatype Config = Config(
    name: string, builder_name: string, compiled_name: string, config: string,
    state: string, input: string, output: string, implementation: string,
    language: string, prompts: string, pipeline: string, tools: string)

  /** The field values and order of the editor's initial `configValues`. */
  const DefaultConfig := Config(
    "CustomAgent", "builder", "graph", "config.Configuration",
    "state.State", "state.InputState", "Any", "implementation.IMPLEMENTATION",
    "python", "prompts.Prompts", "pipeline.Pipeline", "tools.Tools")

  /** `Object.entries(configValues)`: the keys in the order the editor's
      state object declares them. */
  function ConfigEntries(c: Config): seq<(string, string)> {
    [("name", c.name), ("builder_name", c.builder_name), ("compiled_name", c.compiled_name),
     ("config", c.config), ("state", c.state), ("input", c.input), ("output", c.output),
     ("implementation", c.implementation), ("language", c.language),
     ("prompts", c.prompts), ("pipeline", c.pipeline), ("tools", c.tools)]
  }

  datatype YamlConfig = YamlConfig(config: Config, nodes: seq<YamlNode>, edges: seq<YamlEdge>)

  function NodeNamesOf(ys: seq<YamlNode>): (r: seq<string>)
    ensures |r| == |ys|
    ensures forall k :: 0 <= k < |ys| ==> r[k] == ys[k].name
  {
    seq(|ys|, k requires 0 <= k < |ys| => ys[k].name)
  }
}
